=== FILE: README.md ===
# happy: a verified model of the parser and interpreter

`happy` is a small esoteric language. A program is a list of numbered
classes and top-level statements:

- a class is `digits : FUNCTIONS ;`;
- a function is `NAME : op, op, ... ;`;
- a statement `digits > NAME` calls function `NAME` of class `digits`.

Operations work on lower-case variables of the topmost scope frame:

- arithmetic `a+b` (also `-`, `*`, `/`, `//`);
- comparisons `a==b` (also `!=`, `>`, `<`, `>=`, `<=`);
- logic `a&b`, `a|b`, `a!`;
- assignment `a=DATA`, print `a,`, call `digits>NAME`;
- the conditional `(op)?{...}:{...}`.

This project models the interpreter's core in Dafny:

- the runtime values (`Data`) and the operators on them;
- the recursive-descent parser from text to a `Program`;
- the tree-walking interpreter.

It proves properties of that model.

Modules, in dependency order:

- `Values` (values.dfy): the `Data` type, the language's `==` and partial order, `+=`, and the boolean `and`/`or`/`not`.
- `Syntax` (syntax.dfy): operations, functions, classes, programs.
- `Scanner` and `ScannerFacts` (scanner.dfy, scanner_facts.dfy): the cursor primitives the parser uses. They are skip-whitespace, advance-while, literal match and peek, advance-until, eat-n and bounded advance-until. Each is a function from the remaining input to a result and the input left after it.
- `Parser` (parser.dfy): the productions `program`, `class`, `function`, `operation`, `var_name` and `data`. Each takes the remaining text and returns `Ok(value, rest)` or an error with a kind and an `important` flag. The long `operation` and `data` bodies are split into helper functions: `Expect`, `ParseAfterName`, `ParseAssignment`, `ParseOperand`, `ParseConditional`, `ParseConditionalBody`, `ParseOtherwise`, `ParseBlock`, `ParseOpList`, `ClassFunctions`, `ParseStringBody`, `ParseEscape` and `ParseNumber`.
- `ParserFacts` (parser_facts.dfy): the longest-match rule for operator tokens, string escapes, number literals, and inputs the parser rejects.
- `ParseSteps` (parse_steps.dfy): one step of each production, stated on symbolic input.
- `Render` and `RoundTrip` (render.dfy, round_trip.dfy): a printer from programs to source text, and the proof that the parser reads every printed program back unchanged.
- `Interpreter` (interpreter.dfy): `run_operation`, `run_function` and `run`.
- `InterpreterFacts` (interpreter_facts.dfy): properties of the interpreter as the code is written.

Up to the assumptions about the cursor library listed under "Left out", the model follows the code exactly, including behaviour a reader of the grammar might not expect:

- `Sub`, `Mul`, `Div` and `Mod` perform `+=`, just like `Add`. `InterpreterFacts.ArithmeticOperatorsAreAddition` shows that rewriting all of them to `Add` changes no run.
- Every comparison reads its left variable twice and compares that value with itself. The right variable is only created as `None` if unset. So `==`, `>=` and `<=` always yield `true`, and `!=`, `>` and `<` always yield `false`.
- A call to a missing class or function fails only the operation that made the call. The enclosing function then stops and leaves its frame on the stack. Its own caller continues as if the call had succeeded, on top of the leaked frame. The run stops only when a top-level statement names a missing class or function.
- A later class with the same number silently replaces an earlier one: the program's class table is filled by a plain map insert (src/main.rs:49). Function names, by contrast, are checked: a repeated name in one class is an important "function exists" error (src/main.rs:96-99).
- A variable on its own is not an operation, so `(x)?{...}` is rejected.
- A list of operations may end in a comma before its closing `}` or `;`, so `{y=1,}` is accepted. A `;` inside braces is not the closing character, so `{y=1,;}` is rejected.

The numbers of the source language are 64-bit floats. Here they are exact reals.

`Print` and the two "not a class"/"not a function" diagnostics are recorded as a sequence of `Output` items, not as text.

The interpreter recurses on calls. A `fuel` parameter bounds the nesting depth of calls; a run that needs more ends in an out-of-fuel outcome, and the fuel lemmas show that more fuel never changes a run that did not run out.

## Model

| member | source | states |
|---|---|---|
| Values.AddAssign | src/main.rs:415-424 | `+=` adds two numbers and appends two strings; every other pair leaves the left operand unchanged and of the same kind |
| Values.LogicalAnd | src/main.rs:468-482 | `and` conjoins two booleans; a non-boolean on either side leaves the left operand unchanged |
| Values.LogicalOr | src/main.rs:483-497 | `or` disjoins two booleans; a non-boolean on either side leaves the left operand unchanged |
| Values.LogicalNot | src/main.rs:498-505 | `not` negates a boolean and leaves every other value unchanged |
| Values.LexCompareFlip | src/main.rs:405 | string ordering is antisymmetric: swapping the operands flips the answer |
| Values.LexCompareEqIffSame | src/main.rs:405 | two strings compare equal exactly when they are the same string |
| Values.LexCompareTransitive | src/main.rs:405 | string ordering is transitive |
| Values.LexComparePrefix | src/main.rs:405 | a proper prefix orders before the longer string |
| Values.EqualsIsIdentityOffVars | src/main.rs:388-399 | the language's `==` is identity on every value except an unresolved reference, which equals nothing |
| Values.EqualsAgreesWithOrder | src/main.rs:388-411 | `==` holds exactly when the partial order answers "equal" |
| Values.PartialCmpAntisymmetric | src/main.rs:400-411 | swapping the operands of the partial order flips its answer; incomparable stays incomparable |
| Values.PartialCmpTransitive | src/main.rs:400-411 | the strict partial order is transitive across all kinds |
| Values.ValueComparesEqualToItself | src/main.rs:388-411 | every storable value is `==` itself and compares equal to itself |
| Values.VarIsIncomparable | src/main.rs:388-411 | an unresolved reference is neither equal nor comparable to itself |
| Values.AddAssignIdentities | src/main.rs:415-424 | adding the empty string or zero changes nothing |
| Values.NotInvolution | src/main.rs:498-505 | applying `not` twice gives back the original value |
| Values.DeMorgan | src/main.rs:468-505 | `not` turns `and` into `or` and back, for values of every kind |
| Scanner.WhileAny | src/main.rs:83 | advance-while splits the input into the longest prefix drawn from the set and the rest |
| Scanner.Then | src/main.rs:87 | a literal match fails only at end of input; it consumes the literal exactly when the input starts with it, and otherwise leaves the input as it was |
| Scanner.Test | src/main.rs:113 | a peek reports whether the input starts with the literal and consumes nothing |
| Scanner.UntilAny | src/main.rs:243 | advance-until splits the input at the first delimiter, which stays in the rest |
| Scanner.Eat | src/main.rs:254 | eat-n fails exactly when fewer than n characters remain, and otherwise splits off exactly n |
| Scanner.UntilCounted | src/main.rs:266 | bounded advance-until reads at most the bound, stops at the closing character and consumes it |
| ScannerFacts.WhileAnyExact | src/main.rs:83 | advance-while stops exactly at the first character outside the set |
| ScannerFacts.UntilCountedExact | src/main.rs:266 | bounded advance-until over short input returns exactly the text before the closing character |
| Parser.FirstMatch | src/main.rs:166-212 | the operator found starts the input, and when none is found no operator of the list starts it |
| ParserFacts.FirstMatchFrom | src/main.rs:168-212 | the operator chosen is the first in the trying order whose token starts the input |
| ParserFacts.LongerTriedFirst | src/main.rs:168-212 | when one token is a proper prefix of another, the longer one is tried first |
| ParserFacts.NoLongerTokenLater | src/main.rs:168-212 | of two tokens that both start the input, the one tried first is at least as long |
| ParserFacts.MatchOperatorIsLongest | src/main.rs:168-212 | the operator read after a name is a longest token that starts the input, and none is read only when no token starts it |
| ParserFacts.TokenInjective | src/main.rs:168-212 | distinct operators have distinct tokens |
| ParserFacts.MatchOperatorToken | src/main.rs:168-212 | a token followed by a character that cannot extend it is read back as its own operator |
| Parser.ParseVarName | src/main.rs:232-238 | a variable name is the longest run of lower-case letters; it fails with an important error exactly when no lower-case letter comes next |
| Parser.Expect | src/main.rs:109-111 | after whitespace the literal must come next; it is consumed on success, and a different character gives the stated error kind |
| Parser.NumberLiteral | src/main.rs:294-305 | a numeral is accepted exactly when it has a digit before or after the dot, and then has the decimal value of those digits; without digits it fails with "expected number", or with a number-parse error when a dot was read |
| ParserFacts.KeywordBeatsName | src/main.rs:287-292 | `true` and `false` are read as booleans, even when letters follow them |
| ParserFacts.ChunkThenQuote | src/main.rs:242-245 | string text without quote or backslash is copied up to the closing quote |
| ParserFacts.ChunkThenEscape | src/main.rs:242-246 | at a backslash the text so far is kept and an escape is decoded |
| ParserFacts.UnknownEscapeKeepsLetter | src/main.rs:239-286 | `"a\qb"` reads as the string `aqb` |
| ParserFacts.SimpleEscapeAt | src/main.rs:246-282 | after a backslash, each of `n`, `t`, `r`, `0`, `"` and `\` adds newline, tab, carriage return, NUL, quote and backslash respectively, and reading goes on after the letter |
| ParserFacts.SimpleEscapeDecodes | src/main.rs:242-282 | inside a string, plain text followed by a one-letter escape keeps the text and adds the escaped character |
| ParserFacts.AsciiEscapeValue | src/main.rs:253-261 | `\x` followed by any two hex digits decodes to the character whose code is their base-16 value, consuming exactly those two |
| ParserFacts.AsciiEscapeNonHex | src/main.rs:254-257 | `\x` followed by two characters that are not both hex digits is an important invalid-ASCII-escape error |
| ParserFacts.AsciiEscapeInString | src/main.rs:242-261 | inside a string, `\x` and two hex digits add the character they name |
| ParserFacts.UnicodeEscapeValue | src/main.rs:262-276 | `\u{` one to six hex digits `}` decodes to the character with that code when it is a Unicode scalar value, and is an important invalid-Unicode-escape error otherwise |
| ParserFacts.UnicodeEscapeNonHex | src/main.rs:266-269 | braces holding up to six characters that are not all hex digits are an invalid Unicode escape |
| ParserFacts.UnicodeEscapeNeedsBrace | src/main.rs:262-265 | `\u` not followed by `{` is an invalid Unicode escape |
| ParserFacts.UnicodeEscapeInString | src/main.rs:242-276 | inside a string, a `\u{...}` escape naming a scalar value adds that character |
| ParserFacts.AsciiEscapeDecodes | src/main.rs:253-261 | `\x41` decodes to `A` |
| ParserFacts.UnicodeEscapeDecodes | src/main.rs:262-276 | `\u{1F600}` decodes to that code point |
| ParserFacts.SurrogateEscapeRejected | src/main.rs:270-274 | a surrogate code point in `\u{...}` is an invalid Unicode escape |
| ParserFacts.EmptyUnicodeEscapeRejected | src/main.rs:266-276 | `\u{}` is a number-parse error |
| ParserFacts.FractionStep | src/main.rs:294-298 | digits, a dot and more digits are read as one numeral |
| ParserFacts.DecimalNumber | src/main.rs:294-305 | `3.25` reads as the number 3.25 |
| ParserFacts.DecimalLiteral | src/main.rs:287-305 | `3.25` reads as the number 3.25 where a literal is expected |
| ParserFacts.DotAloneRejected | src/main.rs:294-305 | a dot without digits is a number-parse error |
| ParserFacts.ParenIsNoOperator | src/main.rs:164-212 | `)` after a variable name is not an operation |
| ParserFacts.NameThenParenRejected | src/main.rs:164-230 | a variable followed by `)` is rejected with "expected operation" |
| ParserFacts.BareVariableConditionRejected | src/main.rs:124-230 | `(x)` cannot open a conditional |
| ParserFacts.TruncatedClassRejected | src/main.rs:42-95 | the program `1` fails at end of input, the end-of-input error being important as the cursor library is assumed to make it |
| ParseSteps.PlainCharShifts | src/main.rs:243 | a character other than quote or backslash is copied into the string |
| ParseSteps.BinaryStep | src/main.rs:168-212 | `a OP b` reads as the two-variable operation of that operator |
| ParseSteps.PrintStep | src/main.rs:164-167 | a name followed by `,` or `;` is a print, and the separator is not consumed |
| ParseSteps.NameThenOtherRejected | src/main.rs:164-230 | a name followed by a character that is neither a separator nor the start of an operator token is rejected with the important "expected operation" error |
| ParseSteps.NotStep | src/main.rs:186-187 | `a!` is a negation |
| ParseSteps.AssignStep | src/main.rs:194-196 | `a=` followed by a literal is an assignment of that literal |
| ParseSteps.CallStep | src/main.rs:213-228 | `digits>NAME` is a call of that class and function |
| ParseSteps.ConditionalReads | src/main.rs:125-145 | `(` then a condition, `)`, `?` and a block reads the condition and the block, then looks for an otherwise branch |
| ParseSteps.OtherwiseAbsent | src/main.rs:146-148 | when the first character after the whitespace following the block is not `:`, the conditional has no otherwise branch and the whitespace is consumed |
| ParseSteps.OtherwiseAtEnd | src/main.rs:146 | a conditional block at the very end of the input fails at end of input, because the optional `:` is looked for there |
| ParseSteps.OtherwisePresent | src/main.rs:146-163 | `:` followed by a block gives the otherwise branch |
| ParseSteps.OpListStep | src/main.rs:113-118 | an operation followed by `,` is added to the list and the list continues |
| ParseSteps.OpListLast | src/main.rs:113-118 | an operation not followed by `,` ends the list; what comes after the whitespace is left for the closing check |
| ParseSteps.OpListEnd | src/main.rs:113 | the list ends at its closing character, which is not consumed |
| ParseSteps.FunctionStep | src/main.rs:104-123 | `NAME:` then a list then `;` is a function with that body |
| ParseSteps.SinglePrintFunction | src/main.rs:104-123 | `NAME:x;` is the function with the single operation that prints `x`, and the `;` is consumed |
| ParseSteps.FunctionsEnd | src/main.rs:95 | a `;` ends the function table of a class |
| ParseSteps.FunctionsStep | src/main.rs:95-101 | a function with a new name is entered and the class continues |
| ParseSteps.FunctionsRepeat | src/main.rs:96-99 | a function with a name already taken is an important "function exists" error |
| ParseSteps.ClassStep | src/main.rs:82-103 | `digits:` and a function table is a class with that number |
| ParseSteps.StatementIsNoClass | src/main.rs:87-89 | `digits>` is not a class; the failure is unimportant, so a statement is tried |
| ParseSteps.StatementStep | src/main.rs:57-70 | `digits>NAME` is a top-level statement |
| ParseSteps.ProgramClassStep | src/main.rs:45-51 | a class read at top level is entered and replaces any class with that number |
| ParseSteps.ProgramStatementStep | src/main.rs:52-70 | when the class attempt fails with any unimportant error, a statement is read and appended |
| ParseSteps.ProgramClassAborts | src/main.rs:52-56 | an important failure of the class attempt ends the parse with that same error, without trying a statement |
| ParseSteps.ProgramStatementFails | src/main.rs:52-73 | after an unimportant class failure, a statement that fails ends the parse with the statement's error |
| ParseSteps.ProgramEnd | src/main.rs:45-80 | at end of input the program is complete |
| Parser.ParseProgramFrom | src/main.rs:42-81 | a program read to the end keeps the classes and statements read before, and any failure is important or a missing function name |
| RoundTrip.StringRoundTrip | src/main.rs:239-286 | every string, escaped and quoted, reads back as itself |
| RoundTrip.DataRoundTrip | src/main.rs:239-307 | every literal with a source form (string, boolean, variable, whole number) reads back as itself |
| RoundTrip.NumberRoundTrip | src/main.rs:294-305 | every whole number written in decimal reads back as itself |
| RoundTrip.OpRoundTrip | src/main.rs:124-231 | every operation whose variable names are lower-case words (a literal reference must also not start with `true` or `false`), whose function names are upper-case words, whose literals have a source form and whose conditions are not bare prints reads back as itself, nested conditionals included |
| RoundTrip.OpsRoundTrip | src/main.rs:113-118 | every printed list of operations reads back as itself, up to its closing character |
| RoundTrip.FunctionRoundTrip | src/main.rs:104-123 | every printed function reads back with its name and body |
| RoundTrip.FunctionsRoundTrip | src/main.rs:94-102 | a printed table of functions with distinct names reads back as the map of those names |
| RoundTrip.DuplicateFunctionRejected | src/main.rs:96-99 | a class that repeats a function name is rejected with "function exists" for that name, whatever the bodies |
| RoundTrip.ClassRoundTrip | src/main.rs:82-103 | every printed class reads back with its number and function table |
| RoundTrip.StatementRoundTrip | src/main.rs:47-70 | a printed statement fails as a class unimportantly and reads back as a statement |
| RoundTrip.ProgramRoundTrip | src/main.rs:42-81 | every printed program reads back as the program its items describe |
| RoundTrip.BuildStatements | src/main.rs:70 | the statements of a program are those of its items, in order |
| RoundTrip.LastClassDefinitionWins | src/main.rs:49 | when a class number is defined more than once, the last definition is the one kept |
| RoundTrip.BuildKeepsClass | src/main.rs:49 | a class is kept when no later item defines the same number |
| RoundTrip.EnterFinds | src/main.rs:100 | each function of a class is found under its own name with its own body |
| Interpreter.Touch | src/main.rs:553 | reading a variable creates it as `None` when unset and changes nothing else |
| Interpreter.EnsureFrame | src/main.rs:544-546 | an empty stack becomes exactly one empty frame; a non-empty stack is left alone |
| Interpreter.ArithmeticStep | src/main.rs:549-583 | arithmetic stores in its left variable the `+=` of both values: the sum of two numbers, the concatenation of two strings, and otherwise the left value; unset variables read as `None` and the left one is created; nothing else changes |
| Interpreter.ComparisonStep | src/main.rs:594-659 | a comparison stores in its left variable the comparison of the left value with itself, creates both variables if unset, and changes nothing else |
| Interpreter.AssignValueStep | src/main.rs:584-593 | an assignment of a reference stores the referenced variable's value (`None` when unset, and then created); any other literal is stored as it is |
| Interpreter.LogicStep | src/main.rs:660-676 | `and`, `or` and `not` store the logical and, or and not of the variables' values in their left variable and change nothing else |
| Interpreter.ValueStep | src/main.rs:549-676 | every value operation writes only its left variable and reports its new value; it creates its left variable, both variables of a comparison, and the variable an assignment references |
| InterpreterFacts.ValueStepWrites | src/main.rs:549-676 | the value each kind of value operation stores, stated against the operators of `Values` on the frame before the operation |
| Interpreter.ApplyPrint | src/main.rs:677-689 | print outputs the variable's value (`None` when unset), creates the variable, and reports `None` |
| Interpreter.RunOperation | src/main.rs:543-711 | an operation never lowers the stack or touches the frames below the top; only a call or a conditional can fail; a call fails exactly when its class or function is missing; value operations report their left variable |
| Interpreter.RunCall | src/main.rs:690-695 | a call operation fails exactly when the class or function is missing; a callee that aborts still counts as success |
| Interpreter.RunFunction | src/main.rs:523-542 | a missing class or function emits its diagnostic and leaves the stack alone; otherwise a frame is pushed, and on normal return the frames up to the stack's original height are untouched (the stack can stay higher when a callee leaked a frame); when an operation fails the function stops with the stack higher than before; output is only appended |
| InterpreterFacts.FunctionReturns | src/main.rs:526-532 | when the body completes, the function returns with the topmost frame popped, which is the function's own frame unless a failed call left a frame above it |
| Interpreter.RunStatements | src/main.rs:712-719 | the run stops at the first statement whose class or function is missing, after all earlier statements were found; it only appends output |
| InterpreterFacts.ComparisonIsConstant | src/main.rs:594-659 | every comparison yields `true` for `==`, `>=`, `<=` and `false` for `!=`, `>`, `<`, whatever the variables hold |
| InterpreterFacts.ComparisonOperationIsConstant | src/main.rs:594-659 | run as an operation, a comparison succeeds with that constant boolean |
| InterpreterFacts.ConditionalTakesBranch | src/main.rs:696-708 | a conditional runs its first branch exactly when the condition's result is `true`, and the otherwise branch (or nothing) in every other case |
| InterpreterFacts.ConditionalErrorPropagates | src/main.rs:696-708 | a failing condition fails the conditional with the condition's state; otherwise the conditional fails exactly when the chosen branch stops at a failing operation, with that branch's state |
| InterpreterFacts.ComparisonConditionIgnoresOneBranch | src/main.rs:594-708 | a conditional on a comparison never runs one of its branches: the otherwise branch for `==`, `>=` and `<=`, the first branch for the others |
| InterpreterFacts.LiteralConditionPicksBranch | src/main.rs:584-708 | an assignment of `true` as condition always takes the first branch; any other literal always takes the otherwise branch |
| InterpreterFacts.AssignLiteralReports | src/main.rs:584-593 | assigning a literal succeeds and reports that literal |
| InterpreterFacts.ResolveSettlesInOneRound | src/main.rs:588-590 | the source's resolution loop ends after one round on a frame, with the value of the one-step model |
| InterpreterFacts.AssignCopies | src/main.rs:584-593 | `a=b` copies the value; a later change to `b` does not change `a` |
| InterpreterFacts.RunOpsAppend | src/main.rs:527-531 | running two lists in sequence is running their concatenation |
| InterpreterFacts.CallFreeOpsComplete | src/main.rs:543-711 | a list of operations without calls always completes and keeps the stack height |
| InterpreterFacts.CallFreeFunctionReturns | src/main.rs:523-542 | a function whose body makes no calls always returns and restores the stack |
| InterpreterFacts.LeakExampleCalleeAborts | src/main.rs:523-532 | a function whose call fails stops with its frame left on the stack |
| InterpreterFacts.LeakExampleCallSucceeds | src/main.rs:690-695 | the caller sees that aborted call as a success |
| InterpreterFacts.LeakExampleCallerContinues | src/main.rs:527-531 | the caller goes on with the leaked frame as its topmost frame |
| InterpreterFacts.LeakExampleCallerReturns | src/main.rs:523-532 | with any fuel of at least two, the caller of a function that leaked its frame returns with its own frame still on the stack, because its pop removed the leaked frame |
| InterpreterFacts.LeakedFrameIsObservable | src/main.rs:523-719 | in a program whose function sets `a`, calls a function that fails, then prints `a`, the print shows `None` (the leaked frame hides `a`) and the run still finishes, with any fuel of at least two |
| InterpreterFacts.NormalizeProgram | src/main.rs:549-583 | rewriting `-`, `*`, `/` and `//` to `+` keeps every class, function and statement |
| InterpreterFacts.ArithmeticOperatorsAreAddition | src/main.rs:549-583 | that rewriting changes no run |
| InterpreterFacts.RunFuelMonotone | src/main.rs:712-719 | a run that finishes within a call-depth bound gives the same result with any larger bound |
| InterpreterFacts.FuelMonotoneFunction | src/main.rs:523-542 | the same holds for a single call |

The other members of `ParseSteps` and `RoundTrip` are one-step unfoldings and
text-shape facts used by the proofs above. `Render` is the printer that the
round-trip lemmas invert. Neither corresponds to code of its own.

## Left out

- Reading `program.happy`, printing parse errors with source context, and `main` (src/main.rs:737-748) are I/O. The model takes the text as a string and returns the error kind.
- Error positions and the `Display` text of errors are not modelled; an error is its kind and its `important` flag.
- The text `print!` produces for each value is not modelled, in particular Rust's float formatting. Output is the sequence of printed values and diagnostics.
- Numbers are exact reals, not 64-bit floats: no rounding, no infinities, no NaN. This matters for `0.1` and similar literals, whose f64 value is rounded, and for division by zero and `%`. Neither can happen here, because the arithmetic operators all add.
- A `Var` value in a frame, and its `Var` print form, cannot happen. The `Value` type rules it out and the interpreter never stores a reference.
- Parser.ParseOperation, Parser.ParseData, Parser.ParseClass, Parser.ParseFunction and the other productions: their own contracts only state that input is consumed and which errors can escape. Their behaviour on well-formed text is stated one step at a time by the `ParseSteps` lemmas and the escape and number lemmas of `ParserFacts`, and for whole constructs by the `RoundTrip` lemmas. On malformed text it is stated only by the rejection lemmas of `ParserFacts` and `ParseSteps` (among them `ParseSteps.NameThenOtherRejected`, for any character after a name that starts no operation), which cover some inputs, not all.
- RoundTrip.DataRoundTrip: covers whole non-negative numbers only. The printer does not write fractions, and `None` has no source form.
- The `generic_parser` crate is not part of this model. Its cursor operations are modelled from their use here and from their documented interface: literal match and peek fail only at end of input; bounded advance-until consumes its closing character; eat-n fails when fewer than n characters remain; and the end-of-input error they raise is important, so a class attempt that runs out of input is not retried as a statement (this decides, for example, that `1` fails at end of input). Its subparser checkpointing is modelled by re-reading the same suffix after a failed class attempt.
- Overflow of a class number beyond 32 bits is an important number-parse error, as in `parse::<u32>`. The other `ParseIntError`/`ParseFloatError` messages are merged into one `NumberParseError` kind.
- Call depth: the recursion of `run_function` is bounded by a `fuel` parameter. A program that recurses without end ends here in an out-of-fuel outcome, not in a stack overflow.

=== FILE: interpreter.dfy ===
/** The tree-walking interpreter. State is a stack of variable frames (only the
    topmost is ever read or written) and the output produced so far. Function
    calls recurse; `fuel` bounds the depth of nested calls, standing in for
    programs whose recursion does not terminate. */
module Interpreter {
  import opened Values
  import opened Syntax

  /** A variable frame. Its values are never unresolved references. */
  type Frame = map<string, Value>

  /** What the program writes to standard output: a printed value, or the
      diagnostic for a call whose class or function does not exist. */
  datatype Output = Printed(value: Value) | NotAClass(classId: ClassId) | NotAFunction(name: string)

  datatype State = State(stack: seq<Frame>, out: seq<Output>)

  /** One operation: it succeeded with a value, or signalled failure, or the
      call-depth budget ran out. */
  datatype OpOutcome = OpOk(st: State, result: Value) | OpErr(st: State) | OpOutOfFuel

  /** A sequence of operations: all ran, or one signalled failure and the rest
      were skipped. */
  datatype OpsOutcome = Completed(st: State) | Failed(st: State) | OpsOutOfFuel

  /** A function call: the class or function does not exist, or the body ran
      to the end (frame popped), or an operation failed (frame left on the
      stack). */
  datatype CallOutcome = Missing(st: State) | Returned(st: State) | Aborted(st: State) | CallOutOfFuel

  /** The top-level run: every statement executed, or the run stopped at the
      statement with index `at`. */
  datatype RunOutcome = Finished(st: State) | Halted(st: State, at: nat) | RunOutOfFuel

  // ---------------------------------------------------------------------------
  // Frames and the stack

  /** A variable's value, `None` when it is unset (without creating it). */
  function Lookup(f: Frame, name: string): Value {
    if name in f then f[name] else None
  }

  /** Creates the variable with value `None` if it is unset. */
  function Touch(f: Frame, name: string): (r: Frame)
    ensures name in r && r.Keys == f.Keys + {name}
    ensures forall k | k in r :: r[k] == Lookup(f, k)
  {
    if name in f then f else f[name := None]
  }

  function Top(stack: seq<Frame>): Frame
    requires |stack| > 0
  {
    stack[|stack| - 1]
  }

  function WithTop(stack: seq<Frame>, f: Frame): (r: seq<Frame>)
    requires |stack| > 0
    ensures |r| == |stack| && Top(r) == f && r[..|r| - 1] == stack[..|stack| - 1]
  {
    stack[|stack| - 1 := f]
  }

  /** An empty stack gets a fresh frame before an operation runs. */
  function EnsureFrame(stack: seq<Frame>): (r: seq<Frame>)
    ensures |r| >= 1 && |r| >= |stack| && (stack != [] ==> r == stack)
    ensures stack == [] ==> r == [map[]]
  {
    if stack == [] then [map[]] else stack
  }

  /** Removes the topmost frame, if any. */
  function Pop(stack: seq<Frame>): (r: seq<Frame>)
    ensures stack != [] ==> |r| == |stack| - 1 && r == stack[..|stack| - 1]
  {
    if stack == [] then [] else stack[..|stack| - 1]
  }

  /** The class and the function a call names both exist. */
  predicate Found(p: Program, c: ClassId, name: string) {
    c in p.classes && name in p.classes[c].functions
  }

  function Body(p: Program, c: ClassId, name: string): seq<Operation>
    requires Found(p, c, name)
  {
    p.classes[c].functions[name].operations
  }

  // ---------------------------------------------------------------------------
  // Operations on the topmost frame

  /** The variables an operation creates if they are unset. */
  function Touched(op: Operation): set<string>
    requires IsValueOp(op)
  {
    if IsComparison(op) then {op.left, op.right}
    else if op.Assign? && op.literal.Var? then {op.left, op.literal.name}
    else {op.left}
  }

  /** The boolean a comparison operator computes from two values. */
  predicate Compare(op: Operation, x: Value, y: Value)
    requires IsComparison(op)
  {
    match op
    case Equal(_, _) => Equals(x, y)
    case NotEqual(_, _) => !Equals(x, y)
    case Greater(_, _) => PartialCmp(x, y) == Ordered(Gt)
    case Less(_, _) => PartialCmp(x, y) == Ordered(Lt)
    case GreaterEqual(_, _) => PartialCmp(x, y) == Ordered(Gt) || PartialCmp(x, y) == Ordered(Eq)
    case LessEqual(_, _) => PartialCmp(x, y) == Ordered(Lt) || PartialCmp(x, y) == Ordered(Eq)
  }

  /** The value an assignment stores, and the frame after its lookup: a
      reference is resolved in the frame, creating the name if unset. */
  function Resolve(f: Frame, literal: Data): (r: (Value, Frame))
    ensures literal.Var? ==> r.0 == Lookup(f, literal.name) && r.1 == Touch(f, literal.name)
    ensures !literal.Var? ==> r.0 == literal && r.1 == f
  {
    if literal.Var? then (Lookup(f, literal.name), Touch(f, literal.name)) else (literal, f)
  }

  /** A value operation applied to the topmost frame: the new frame and the
      value the operation reports (its left variable's new value). Only the
      left variable changes; the other touched names are created as `None`. */
  function ValueStep(op: Operation, f: Frame): (r: (Frame, Value))
    requires IsValueOp(op)
    ensures op.left in r.0 && r.1 == r.0[op.left]
    ensures r.0.Keys == f.Keys + Touched(op)
    ensures forall k | k in r.0 && k != op.left :: r.0[k] == Lookup(f, k)
  {
    if IsArithmetic(op) then ArithmeticStep(op, f)
    else if IsComparison(op) then ComparisonStep(op, f)
    else if op.Assign? then AssignValueStep(op, f)
    else LogicStep(op, f)
  }

  /** Every arithmetic operator performs `+=`. */
  function ArithmeticStep(op: Operation, f: Frame): (r: (Frame, Value))
    requires IsArithmetic(op)
    ensures op.left in r.0 && r.1 == r.0[op.left]
    ensures r.0.Keys == f.Keys + {op.left}
    ensures forall k | k in r.0 && k != op.left :: r.0[k] == Lookup(f, k)
    ensures var x, y := Lookup(f, op.left), Lookup(f, op.right);
      && (x.Number? && y.Number? ==> r.1 == Number(x.num + y.num))
      && (x.Str? && y.Str? ==> r.1 == Str(x.text + y.text))
      && (!(x.Number? && y.Number?) && !(x.Str? && y.Str?) ==> r.1 == x)
  {
    var v := AddAssign(Lookup(f, op.left), Lookup(f, op.right));
    (f[op.left := v], v)
  }

  /** Both operands of a comparison are read from the LEFT variable; the
      right one is only created. */
  function ComparisonStep(op: Operation, f: Frame): (r: (Frame, Value))
    requires IsComparison(op)
    ensures op.left in r.0 && r.1 == r.0[op.left]
    ensures r.0.Keys == f.Keys + {op.left, op.right}
    ensures forall k | k in r.0 && k != op.left :: r.0[k] == Lookup(f, k)
    ensures r.1 == Bool(Compare(op, Lookup(f, op.left), Lookup(f, op.left)))
  {
    var t := Touch(Touch(f, op.left), op.right);
    var data1 := t[op.left];
    var data2 := t[op.left];
    var v := Bool(Compare(op, data1, data2));
    (t[op.left := v], v)
  }

  function AssignValueStep(op: Operation, f: Frame): (r: (Frame, Value))
    requires op.Assign?
    ensures op.left in r.0 && r.1 == r.0[op.left]
    ensures r.0.Keys == f.Keys + (if op.literal.Var? then {op.left, op.literal.name} else {op.left})
    ensures forall k | k in r.0 && k != op.left :: r.0[k] == Lookup(f, k)
    ensures op.literal.Var? ==> r.1 == Lookup(f, op.literal.name)
    ensures !op.literal.Var? ==> r.1 == op.literal
  {
    var (v, t) := Resolve(f, op.literal);
    (t[op.left := v], v)
  }

  /** `&`, `|` and `!`: the left variable is created if unset; the right one
      is only read. */
  function LogicStep(op: Operation, f: Frame): (r: (Frame, Value))
    requires op.And? || op.Or? || op.Not?
    ensures op.left in r.0 && r.1 == r.0[op.left]
    ensures r.0.Keys == f.Keys + {op.left}
    ensures forall k | k in r.0 && k != op.left :: r.0[k] == Lookup(f, k)
    ensures op.And? ==> r.1 == LogicalAnd(Lookup(f, op.left), Lookup(f, op.right))
    ensures op.Or? ==> r.1 == LogicalOr(Lookup(f, op.left), Lookup(f, op.right))
    ensures op.Not? ==> r.1 == LogicalNot(Lookup(f, op.left))
  {
    var t := Touch(f, op.left);
    var v :=
      if op.And? then LogicalAnd(t[op.left], Lookup(f, op.right))
      else if op.Or? then LogicalOr(t[op.left], Lookup(f, op.right))
      else LogicalNot(t[op.left]);
    (t[op.left := v], v)
  }

  /** `after` keeps the `keep` lowest frames of `before` untouched and only
      appends to its output. */
  predicate Keeps(before: State, after: State, keep: nat) {
    && keep <= |before.stack|
    && keep <= |after.stack|
    && after.stack[..keep] == before.stack[..keep]
    && before.out <= after.out
  }

  /** The number of frames below the topmost one. */
  function Below(st: State): nat {
    if st.stack == [] then 0 else |st.stack| - 1
  }

  /** Keeping frames is transitive, down to the smaller number kept. */
  lemma KeepsTrans(a: State, b: State, c: State, k: nat, m: nat)
    requires Keeps(a, b, k) && Keeps(b, c, m) && k <= m
    ensures Keeps(a, c, k)
  {
    assert c.stack[..m][..k] == c.stack[..k];
    assert b.stack[..m][..k] == b.stack[..k];
  }

  /** Giving an empty stack its fresh frame keeps every frame below the top. */
  lemma EnsureFrameKeeps(st: State)
    ensures Keeps(st, State(EnsureFrame(st.stack), st.out), Below(st))
    ensures Below(st) <= Below(State(EnsureFrame(st.stack), st.out))
  {
  }

  // ---------------------------------------------------------------------------
  // Execution

  /** A value operation against the topmost frame (after an empty stack got
      its fresh frame). */
  function ApplyValueOp(op: Operation, st: State): (r: OpOutcome)
    requires IsValueOp(op)
    ensures r.OpOk? && r.st.out == st.out
    ensures |r.st.stack| >= 1 && |r.st.stack| >= |st.stack| && Keeps(st, r.st, Below(st))
    ensures op.left in Top(r.st.stack) && r.result == Top(r.st.stack)[op.left]
  {
    var stack := EnsureFrame(st.stack);
    var (f, v) := ValueStep(op, Top(stack));
    OpOk(State(WithTop(stack, f), st.out), v)
  }

  /** `Print`: appends the variable's value (creating it as `None` if unset). */
  function ApplyPrint(name: string, st: State): (r: OpOutcome)
    ensures r.OpOk? && r.result == None
    ensures |r.st.stack| >= 1 && |r.st.stack| >= |st.stack| && Keeps(st, r.st, Below(st))
    ensures name in Top(r.st.stack) && r.st.out == st.out + [Printed(Lookup(Top(EnsureFrame(st.stack)), name))]
  {
    var stack := EnsureFrame(st.stack);
    var f := Touch(Top(stack), name);
    OpOk(State(WithTop(stack, f), st.out + [Printed(f[name])]), None)
  }

  /** One operation against the topmost frame. */
  function RunOperation(p: Program, op: Operation, st: State, fuel: nat): (r: OpOutcome)
    ensures !r.OpOutOfFuel? ==> |r.st.stack| >= 1 && |r.st.stack| >= |st.stack|
    ensures !r.OpOutOfFuel? ==> Keeps(st, r.st, Below(st))
    ensures r.OpOk? && IsValueOp(op) ==> op.left in Top(r.st.stack) && r.result == Top(r.st.stack)[op.left]
    ensures r.OpOk? && !IsValueOp(op) ==> r.result == None
    ensures r.OpErr? ==> op.Call? || op.Conditional?
    ensures op.Call? && !r.OpOutOfFuel? ==> (r.OpErr? <==> !Found(p, op.classId, op.name))
    decreases fuel, OpSize(op), 1
  {
    if IsValueOp(op) then ApplyValueOp(op, st)
    else if op.Print? then ApplyPrint(op.left, st)
    else if op.Call? then RunCall(p, op.classId, op.name, st, fuel)
    else
      var st0 := State(EnsureFrame(st.stack), st.out);
      var r := RunConditional(p, op.condition, op.inner, op.otherwise, st0, fuel);
      EnsureFrameKeeps(st);
      if r.OpOutOfFuel? then r
      else
        KeepsTrans(st, st0, r.st, Below(st), Below(st0));
        r
  }

  /** A call made as an operation: it fails exactly when the class or the
      function is missing. A call that aborts part-way counts as success. */
  function RunCall(p: Program, c: ClassId, name: string, st: State, fuel: nat): (r: OpOutcome)
    ensures !r.OpOutOfFuel? ==> |r.st.stack| >= 1 && |r.st.stack| >= |st.stack|
    ensures !r.OpOutOfFuel? ==> Keeps(st, r.st, Below(st))
    ensures r.OpOk? ==> r.result == None
    ensures !r.OpOutOfFuel? ==> (r.OpErr? <==> !Found(p, c, name))
    decreases fuel, 0, 1
  {
    var st0 := State(EnsureFrame(st.stack), st.out);
    EnsureFrameKeeps(st);
    match RunFunction(p, c, name, st0, fuel)
    case Missing(st1) => OpErr(st1)
    case Returned(st1) =>
      KeepsTrans(st, st0, st1, Below(st), |st0.stack|);
      OpOk(st1, None)
    case Aborted(st1) =>
      KeepsTrans(st, st0, st1, Below(st), |st0.stack|);
      OpOk(st1, None)
    case CallOutOfFuel => OpOutOfFuel
  }

  /** A conditional: the condition runs as an operation; the then-branch runs
      exactly when it reports `true`, otherwise the `otherwise` block (if any).
      A failure anywhere propagates. */
  function RunConditional(p: Program, cond: Operation, inner: seq<Operation>, otherwise: Else, st: State, fuel: nat): (r: OpOutcome)
    requires |st.stack| >= 1
    ensures !r.OpOutOfFuel? ==> |r.st.stack| >= |st.stack| && Keeps(st, r.st, Below(st))
    ensures r.OpOk? ==> r.result == None
    decreases fuel, OpSize(Conditional(cond, inner, otherwise)), 0
  {
    match RunOperation(p, cond, st, fuel)
    case OpErr(st1) => OpErr(st1)
    case OpOutOfFuel => OpOutOfFuel
    case OpOk(st1, res) =>
      var branch := if Equals(res, Bool(true)) then inner else ElseOps(otherwise);
      assert OpsSize(branch) < OpSize(Conditional(cond, inner, otherwise));
      var r := RunBranch(p, branch, st1, fuel);
      if r.OpOutOfFuel? then r
      else
        KeepsTrans(st, st1, r.st, Below(st), Below(st1));
        r
  }

  /** The branch a conditional chose, reported as one operation. */
  function RunBranch(p: Program, branch: seq<Operation>, st: State, fuel: nat): (r: OpOutcome)
    requires |st.stack| >= 1
    ensures !r.OpOutOfFuel? ==> |r.st.stack| >= |st.stack| && Keeps(st, r.st, Below(st))
    ensures r.OpOk? ==> r.result == None
    decreases fuel, OpsSize(branch), 3
  {
    match RunOps(p, branch, st, fuel)
    case Completed(st1) => OpOk(st1, None)
    case Failed(st1) => OpErr(st1)
    case OpsOutOfFuel => OpOutOfFuel
  }

  /** Operations in order, stopping at the first that fails. */
  function RunOps(p: Program, ops: seq<Operation>, st: State, fuel: nat): (r: OpsOutcome)
    ensures !r.OpsOutOfFuel? ==> |r.st.stack| >= |st.stack| && Keeps(st, r.st, Below(st))
    ensures !r.OpsOutOfFuel? && ops != [] ==> |r.st.stack| >= 1
    ensures ops == [] ==> r == Completed(st)
    decreases fuel, OpsSize(ops), 2
  {
    if ops == [] then Completed(st)
    else match RunOperation(p, ops[0], st, fuel)
      case OpErr(st1) => Failed(st1)
      case OpOutOfFuel => OpsOutOfFuel
      case OpOk(st1, _) =>
        var r := RunOps(p, ops[1..], st1, fuel);
        if r.OpsOutOfFuel? then r
        else
          KeepsTrans(st, st1, r.st, Below(st), Below(st1));
          r
  }

  /** Calls function `name` of class `c`. A missing class or function prints a
      diagnostic and reports failure without touching the stack. Otherwise a
      fresh frame is pushed and the body runs; the frame is popped only when
      the body runs to the end. */
  function RunFunction(p: Program, c: ClassId, name: string, st: State, fuel: nat): (r: CallOutcome)
    ensures r.Missing? <==> !Found(p, c, name)
    ensures r.Missing? ==> r.st.stack == st.stack
    ensures r.Missing? ==> r.st.out == st.out + [if c !in p.classes then NotAClass(c) else NotAFunction(name)]
    ensures r.Returned? ==> Keeps(st, r.st, |st.stack|)
    ensures r.Aborted? ==> Keeps(st, r.st, |st.stack|) && |r.st.stack| > |st.stack|
    decreases fuel, 0, 0
  {
    if c !in p.classes then Missing(State(st.stack, st.out + [NotAClass(c)]))
    else if name !in p.classes[c].functions then Missing(State(st.stack, st.out + [NotAFunction(name)]))
    else if fuel == 0 then CallOutOfFuel
    else
      var entered := State(st.stack + [map[]], st.out);
      assert Below(entered) == |st.stack| && entered.stack[..|st.stack|] == st.stack;
      match RunOps(p, Body(p, c, name), entered, fuel - 1)
      case Completed(st1) =>
        assert Pop(st1.stack)[..|st.stack|] == st1.stack[..|st.stack|];
        Returned(State(Pop(st1.stack), st1.out))
      case Failed(st1) => Aborted(st1)
      case OpsOutOfFuel => CallOutOfFuel
  }

  /** The top-level statements from index `i` on. The run stops at the first
      statement whose class or function is missing; a call that fails deeper
      down does not stop it. */
  function RunStatements(p: Program, i: nat, st: State, fuel: nat): (r: RunOutcome)
    requires i <= |p.statements|
    ensures r.Halted? ==> i <= r.at < |p.statements|
    ensures r.Halted? ==> !Found(p, p.statements[r.at].classId, p.statements[r.at].name)
    ensures r.Halted? ==> forall j | i <= j < r.at :: Found(p, p.statements[j].classId, p.statements[j].name)
    ensures r.Finished? ==> forall j | i <= j < |p.statements| :: Found(p, p.statements[j].classId, p.statements[j].name)
    ensures !r.RunOutOfFuel? ==> st.out <= r.st.out
    decreases |p.statements| - i
  {
    if i == |p.statements| then Finished(st)
    else
      var s := p.statements[i];
      match RunFunction(p, s.classId, s.name, st, fuel)
      case Missing(st1) => Halted(st1, i)
      case Returned(st1) => RunStatements(p, i + 1, st1, fuel)
      case Aborted(st1) => RunStatements(p, i + 1, st1, fuel)
      case CallOutOfFuel => RunOutOfFuel
  }

  /** Runs the program's statements in order, starting from an empty stack. */
  function Run(p: Program, fuel: nat): RunOutcome {
    RunStatements(p, 0, State([], []), fuel)
  }
}

=== FILE: interpreter_facts.dfy ===
/** Properties of the interpreter: what comparisons and conditionals compute,
    how operation lists compose, when a call leaves the stack as it found it,
    that the arithmetic operators are interchangeable, and that more call
    depth never changes a finished run. */
module InterpreterFacts {
  import opened Values
  import opened Syntax
  import opened Interpreter

  // ---------------------------------------------------------------------------
  // Unfolding a call

  /** A call with call depth left runs the body on a fresh frame; the frame
      is popped only when the body completes. */
  lemma FunctionCall(p: Program, c: ClassId, name: string, st: State, fuel: nat)
    requires Found(p, c, name) && fuel > 0
    ensures
      var r := RunOps(p, Body(p, c, name), State(st.stack + [map[]], st.out), fuel - 1);
      RunFunction(p, c, name, st, fuel)
      == if r.Completed? then Returned(State(Pop(r.st.stack), r.st.out))
         else if r.Failed? then Aborted(r.st)
         else CallOutOfFuel
  {
  }

  /** A call whose body completes returns, with its topmost frame popped. */
  lemma FunctionReturns(p: Program, c: ClassId, name: string, st: State, fuel: nat, st1: State)
    requires Found(p, c, name) && fuel > 0
    requires RunOps(p, Body(p, c, name), State(st.stack + [map[]], st.out), fuel - 1) == Completed(st1)
    ensures RunFunction(p, c, name, st, fuel) == Returned(State(Pop(st1.stack), st1.out))
  {
    FunctionCall(p, c, name, st, fuel);
  }

  lemma FunctionNoFuel(p: Program, c: ClassId, name: string, st: State)
    requires Found(p, c, name)
    ensures RunFunction(p, c, name, st, 0) == CallOutOfFuel
  {
  }

  /** The operations other than calls and conditionals, unfolded. */
  lemma ValueOperation(p: Program, op: Operation, st: State, fuel: nat)
    requires IsValueOp(op)
    ensures RunOperation(p, op, st, fuel) == ApplyValueOp(op, st)
  {
  }

  lemma PrintOperation(p: Program, a: string, st: State, fuel: nat)
    ensures RunOperation(p, Print(a), st, fuel) == ApplyPrint(a, st)
  {
  }

  lemma CallOperation(p: Program, c: ClassId, name: string, st: State, fuel: nat)
    ensures RunOperation(p, Call(c, name), st, fuel) == RunCall(p, c, name, st, fuel)
  {
  }

  /** A call made as an operation depends on the program and the call depth
      only through what the called function does. */
  lemma RunCallAlike(p: Program, fp: nat, q: Program, fq: nat, c: ClassId, name: string, st: State)
    requires RunFunction(q, c, name, State(EnsureFrame(st.stack), st.out), fq)
          == RunFunction(p, c, name, State(EnsureFrame(st.stack), st.out), fp)
    ensures RunCall(q, c, name, st, fq) == RunCall(p, c, name, st, fp)
  {
  }

  lemma RunCallOutOfFuel(p: Program, c: ClassId, name: string, st: State, fuel: nat)
    ensures RunCall(p, c, name, st, fuel).OpOutOfFuel?
        <==> RunFunction(p, c, name, State(EnsureFrame(st.stack), st.out), fuel).CallOutOfFuel?
  {
  }

  // ---------------------------------------------------------------------------
  // What a value operation writes

  /** The value each value operation stores in its left variable, read from
      the frame as it was before the operation (unset variables read as
      `None`). */
  lemma ValueStepWrites(op: Operation, f: Frame)
    requires IsValueOp(op)
    ensures var v, x, y := ValueStep(op, f).1, Lookup(f, op.left), Lookup(f, if op.Not? || op.Assign? then op.left else op.right);
      && (IsArithmetic(op) ==> v == AddAssign(x, y))
      && (IsComparison(op) ==> v == Bool(Compare(op, x, x)))
      && (op.Assign? && op.literal.Var? ==> v == Lookup(f, op.literal.name))
      && (op.Assign? && !op.literal.Var? ==> v == op.literal)
      && (op.And? ==> v == LogicalAnd(x, y))
      && (op.Or? ==> v == LogicalOr(x, y))
      && (op.Not? ==> v == LogicalNot(x))
  {
  }

  // ---------------------------------------------------------------------------
  // Comparisons and conditionals

  /** The operators that hold between a value and itself. */
  predicate Reflexive(op: Operation) {
    op.Equal? || op.GreaterEqual? || op.LessEqual?
  }

  /** Both operands of a comparison are read from its left variable, so its
      result is fixed by the operator: `==`, `>=` and `<=` always give `true`,
      `!=`, `>` and `<` always give `false`, whatever the frame holds. */
  lemma ComparisonIsConstant(op: Operation, f: Frame)
    requires IsComparison(op)
    ensures ValueStep(op, f).1 == Bool(Reflexive(op))
  {
    var t := Touch(Touch(f, op.left), op.right);
    CompareSelf(op, t[op.left]);
    ComparisonValueStep(op, f);
  }

  lemma ComparisonValueStep(op: Operation, f: Frame)
    requires IsComparison(op)
    ensures ValueStep(op, f) == ComparisonStep(op, f)
  {
    assert !IsArithmetic(op);
  }

  /** A value compared with itself: equal, and neither greater nor less. */
  lemma CompareSelf(op: Operation, x: Value)
    requires IsComparison(op)
    ensures Compare(op, x, x) <==> Reflexive(op)
  {
    ValueComparesEqualToItself(x);
  }

  /** The same, for the operation run against any state: it succeeds, stores
      the constant in its left variable and reports it. */
  lemma ComparisonOperationIsConstant(p: Program, op: Operation, st: State, fuel: nat)
    requires IsComparison(op)
    ensures RunOperation(p, op, st, fuel).OpOk?
    ensures RunOperation(p, op, st, fuel).result == Bool(Reflexive(op))
  {
    ComparisonIsConstant(op, Top(EnsureFrame(st.stack)));
  }

  /** A conditional operation runs on the stack after an empty one got its
      fresh frame. */
  lemma ConditionalOperation(p: Program, c: Operation, inner: seq<Operation>, otherwise: Else, st: State, fuel: nat)
    ensures RunOperation(p, Conditional(c, inner, otherwise), st, fuel)
         == RunConditional(p, c, inner, otherwise, State(EnsureFrame(st.stack), st.out), fuel)
  {
  }

  /** A conditional whose condition succeeds runs the then-block exactly when
      the condition reports `true`, and the otherwise block (or nothing)
      else. */
  lemma ConditionalBranch(p: Program, c: Operation, inner: seq<Operation>, otherwise: Else, st: State, fuel: nat)
    requires |st.stack| >= 1 && RunOperation(p, c, st, fuel).OpOk?
    ensures
      var rc := RunOperation(p, c, st, fuel);
      RunConditional(p, c, inner, otherwise, st, fuel)
      == RunBranch(p, if Equals(rc.result, Bool(true)) then inner else ElseOps(otherwise), rc.st, fuel)
  {
  }

  /** A failure anywhere in a conditional is the conditional's failure: a
      failing condition fails it with the condition's state, and otherwise it
      fails exactly when the chosen branch stops at a failing operation, with
      that branch's state. */
  lemma ConditionalErrorPropagates(p: Program, c: Operation, inner: seq<Operation>, otherwise: Else, st: State, fuel: nat)
    ensures
      var rc := RunOperation(p, c, State(EnsureFrame(st.stack), st.out), fuel);
      var r := RunOperation(p, Conditional(c, inner, otherwise), st, fuel);
      && (rc.OpErr? ==> r == OpErr(rc.st))
      && (rc.OpOk? ==>
            var rb := RunOps(p, if Equals(rc.result, Bool(true)) then inner else ElseOps(otherwise), rc.st, fuel);
            && (rb.Failed? ==> r == OpErr(rb.st))
            && (r.OpErr? ==> rb.Failed?))
  {
    var framed := State(EnsureFrame(st.stack), st.out);
    ConditionalOperation(p, c, inner, otherwise, st, fuel);
    if RunOperation(p, c, framed, fuel).OpOk? {
      ConditionalBranch(p, c, inner, otherwise, framed, fuel);
    }
  }

  lemma ConditionalTakesBranch(p: Program, c: Operation, inner: seq<Operation>, otherwise: Else, st: State, fuel: nat)
    ensures
      var rc := RunOperation(p, c, State(EnsureFrame(st.stack), st.out), fuel);
      rc.OpOk? ==>
        RunOperation(p, Conditional(c, inner, otherwise), st, fuel)
        == RunBranch(p, if Equals(rc.result, Bool(true)) then inner else ElseOps(otherwise), rc.st, fuel)
  {
    var framed := State(EnsureFrame(st.stack), st.out);
    ConditionalOperation(p, c, inner, otherwise, st, fuel);
    if RunOperation(p, c, framed, fuel).OpOk? {
      ConditionalBranch(p, c, inner, otherwise, framed, fuel);
    }
  }

  /** A conditional on a comparison never runs one of its branches: the
      otherwise block for `==`, `>=` and `<=`, the then-block for the others. */
  lemma ComparisonConditionIgnoresOneBranch(p: Program, c: Operation, inner: seq<Operation>, inner2: seq<Operation>,
                                            otherwise: Else, otherwise2: Else, st: State, fuel: nat)
    requires IsComparison(c)
    ensures Reflexive(c) ==>
      RunOperation(p, Conditional(c, inner, otherwise), st, fuel) == RunOperation(p, Conditional(c, inner, otherwise2), st, fuel)
    ensures !Reflexive(c) ==>
      RunOperation(p, Conditional(c, inner, otherwise), st, fuel) == RunOperation(p, Conditional(c, inner2, otherwise), st, fuel)
  {
    var framed := State(EnsureFrame(st.stack), st.out);
    ComparisonOperationIsConstant(p, c, framed, fuel);
    assert Equals(Bool(Reflexive(c)), Bool(true)) == Reflexive(c);
    ConditionalTakesBranch(p, c, inner, otherwise, st, fuel);
    ConditionalTakesBranch(p, c, inner, otherwise2, st, fuel);
    ConditionalTakesBranch(p, c, inner2, otherwise, st, fuel);
  }

  /** Only the value `true` selects the then-block: a condition that assigns a
      literal takes the then-block exactly when the literal is `true`, so a
      non-zero number or a non-empty string counts as false. */
  lemma LiteralConditionPicksBranch(p: Program, a: string, d: Data, inner: seq<Operation>, inner2: seq<Operation>,
                                    otherwise: Else, otherwise2: Else, st: State, fuel: nat)
    requires !d.Var?
    ensures d == Bool(true) ==>
      RunOperation(p, Conditional(Assign(a, d), inner, otherwise), st, fuel)
      == RunOperation(p, Conditional(Assign(a, d), inner, otherwise2), st, fuel)
    ensures d != Bool(true) ==>
      RunOperation(p, Conditional(Assign(a, d), inner, otherwise), st, fuel)
      == RunOperation(p, Conditional(Assign(a, d), inner2, otherwise), st, fuel)
  {
    var framed := State(EnsureFrame(st.stack), st.out);
    AssignLiteralReports(p, a, d, framed, fuel);
    EqualsIsIdentityOffVars(d, Bool(true));
    ConditionalTakesBranch(p, Assign(a, d), inner, otherwise, st, fuel);
    ConditionalTakesBranch(p, Assign(a, d), inner, otherwise2, st, fuel);
    ConditionalTakesBranch(p, Assign(a, d), inner2, otherwise, st, fuel);
  }

  /** Assigning a literal succeeds and reports the literal. */
  lemma AssignLiteralReports(p: Program, a: string, d: Data, st: State, fuel: nat)
    requires !d.Var?
    ensures RunOperation(p, Assign(a, d), st, fuel).OpOk?
    ensures RunOperation(p, Assign(a, d), st, fuel).result == d
  {
    assert ValueStep(Assign(a, d), Top(EnsureFrame(st.stack))).1 == d;
  }

  // ---------------------------------------------------------------------------
  // Assignment copies values

  datatype Option<T> = Nothing | Some(value: T)

  /** The resolution loop of an assignment on a map that may hold references:
      while the datum is a reference, replace it by the referenced entry,
      creating that entry as `None` if unset. At most `fuel` rounds. */
  function ResolveLoop(f: map<string, Data>, d: Data, fuel: nat): Option<(Data, map<string, Data>)>
    decreases fuel
  {
    if !d.Var? then Some((d, f))
    else if fuel == 0 then Nothing
    else
      var f1 := if d.name in f then f else f[d.name := None];
      ResolveLoop(f1, f1[d.name], fuel - 1)
  }

  /** On a frame, which never holds a reference, the loop settles after one
      round, with the value the interpreter's one-step resolution uses. */
  lemma ResolveSettlesInOneRound(f: Frame, d: Data, fuel: nat)
    requires fuel >= 1
    ensures var r: (Data, map<string, Data>) := Resolve(f, d); ResolveLoop(f, d, fuel) == Some(r)
  {
  }

  /** An assignment from another variable copies its value: updating the
      source afterwards does not change the copy. */
  lemma AssignCopies(f: Frame, a: string, b: string, other: string)
    requires a != b && b != other && a != other
    ensures
      var f1 := ValueStep(Assign(a, Var(b)), f).0;
      var f2 := ValueStep(Add(b, other), f1).0;
      f2[a] == Lookup(f, b)
  {
  }

  // ---------------------------------------------------------------------------
  // Operation lists

  /** Running two lists one after the other is running their concatenation:
      a failure or exhausted budget in the first skips the second. */
  lemma {:induction false} RunOpsAppend(p: Program, ops1: seq<Operation>, ops2: seq<Operation>, st: State, fuel: nat)
    ensures RunOps(p, ops1 + ops2, st, fuel) ==
      match RunOps(p, ops1, st, fuel)
      case Completed(st1) => RunOps(p, ops2, st1, fuel)
      case Failed(st1) => Failed(st1)
      case OpsOutOfFuel => OpsOutOfFuel
    decreases |ops1|
  {
    if ops1 == [] {
      assert ops1 + ops2 == ops2;
    } else {
      assert (ops1 + ops2)[0] == ops1[0];
      assert (ops1 + ops2)[1..] == ops1[1..] + ops2;
      match RunOperation(p, ops1[0], st, fuel)
      case OpOk(st1, _) => RunOpsAppend(p, ops1[1..], ops2, st1, fuel);
      case OpErr(_) =>
      case OpOutOfFuel =>
    }
  }

  // ---------------------------------------------------------------------------
  // Code without calls

  lemma {:induction false} CallFreeOpCompletes(p: Program, op: Operation, st: State, fuel: nat)
    requires OpCallFree(op) && |st.stack| >= 1
    ensures RunOperation(p, op, st, fuel).OpOk?
    ensures |RunOperation(p, op, st, fuel).st.stack| == |st.stack|
    decreases OpSize(op), 0
  {
    if IsValueOp(op) {
      ValueOperation(p, op, st, fuel);
    } else if op.Print? {
      PrintOperation(p, op.left, st, fuel);
    } else if op.Conditional? {
      var c, inner, otherwise := op.condition, op.inner, op.otherwise;
      CallFreeOpCompletes(p, c, st, fuel);
      var rc := RunOperation(p, c, st, fuel);
      var branch := if Equals(rc.result, Bool(true)) then inner else ElseOps(otherwise);
      assert OpsSize(branch) < OpSize(op);
      assert OpsCallFree(branch) by {
        match otherwise
        case NoElse =>
        case Else(_) =>
      }
      CallFreeOpsComplete(p, branch, rc.st, fuel);
      assert State(EnsureFrame(st.stack), st.out) == st;
      ConditionalOperation(p, c, inner, otherwise, st, fuel);
      ConditionalBranch(p, c, inner, otherwise, st, fuel);
    }
  }

  /** Operations without calls (at any depth) always run to the end and leave
      the stack as deep as they found it. */
  lemma {:induction false} CallFreeOpsComplete(p: Program, ops: seq<Operation>, st: State, fuel: nat)
    requires OpsCallFree(ops) && |st.stack| >= 1
    ensures RunOps(p, ops, st, fuel).Completed?
    ensures |RunOps(p, ops, st, fuel).st.stack| == |st.stack|
    decreases OpsSize(ops), 1
  {
    if ops != [] {
      CallFreeOpCompletes(p, ops[0], st, fuel);
      CallFreeOpsComplete(p, ops[1..], RunOperation(p, ops[0], st, fuel).st, fuel);
    }
  }

  /** A function whose body makes no calls returns with exactly the stack it
      was called with: its frame is pushed and popped again. */
  lemma CallFreeFunctionReturns(p: Program, c: ClassId, name: string, st: State, fuel: nat)
    requires Found(p, c, name) && OpsCallFree(Body(p, c, name)) && fuel >= 1
    ensures RunFunction(p, c, name, st, fuel).Returned?
    ensures RunFunction(p, c, name, st, fuel).st.stack == st.stack
  {
    var entered := State(st.stack + [map[]], st.out);
    CallFreeOpsComplete(p, Body(p, c, name), entered, fuel - 1);
    var r := RunFunction(p, c, name, st, fuel);
    assert r.st.stack == r.st.stack[..|st.stack|];
  }

  // ---------------------------------------------------------------------------
  // A failed call leaks its frame

  /** Class 0 with `A: a=1, 0>B, a,;` and `B: 1>C,;`, and the statement
      `0>A`. B fails because class 1 does not exist; its frame stays on the
      stack, so A's `a,` prints the `None` of B's fresh frame, and A's final
      pop removes B's frame rather than its own. */
  function LeakExample(): Program {
    var a := Function([Assign("a", Number(1.0)), Call(0, "B"), Print("a")]);
    var b := Function([Call(1, "C")]);
    Program(map[0 := Class(map["A" := a, "B" := b])], [Statement(0, "A")])
  }

  /** B's call to the missing class fails, leaving B's frame in place. */
  lemma LeakExampleCalleeAborts()
    ensures RunFunction(LeakExample(), 0, "B", State([map["a" := Number(1.0)]], []), 1)
         == Aborted(State([map["a" := Number(1.0)], map[]], [NotAClass(1)]))
  {
    var p := LeakExample();
    var fa: Frame := map["a" := Number(1.0)];
    var entered := State([fa, map[]], []);
    assert Found(p, 0, "B") && Body(p, 0, "B") == [Call(1, "C")];
    assert [fa] + [map[]] == entered.stack;
    FunctionCall(p, 0, "B", State([fa], []), 1);
    CallOperation(p, 1, "C", entered, 0);
    assert RunOperation(p, Call(1, "C"), entered, 0) == OpErr(State([fa, map[]], [NotAClass(1)]));
  }

  /** A's call succeeds, since B was found; the stack keeps B's frame. */
  lemma LeakExampleCallSucceeds()
    ensures RunOperation(LeakExample(), Call(0, "B"), State([map["a" := Number(1.0)]], []), 1)
         == OpOk(State([map["a" := Number(1.0)], map[]], [NotAClass(1)]), None)
  {
    LeakExampleCalleeAborts();
  }

  /** A's `a,` reads the topmost frame, which is B's. */
  lemma LeakExamplePrintsNone()
    ensures RunOperation(LeakExample(), Print("a"), State([map["a" := Number(1.0)], map[]], [NotAClass(1)]), 1)
         == OpOk(State([map["a" := Number(1.0)], map["a" := None]], [NotAClass(1), Printed(None)]), None)
  {
    var fa: Frame := map["a" := Number(1.0)];
    var s2 := State([fa, map[]], [NotAClass(1)]);
    var s3 := State([fa, map["a" := None]], [NotAClass(1), Printed(None)]);
    PrintOperation(LeakExample(), "a", s2, 1);
    var g: Frame := map[];
    assert EnsureFrame(s2.stack) == s2.stack && Top(s2.stack) == g;
    assert Touch(g, "a") == map["a" := None];
    assert WithTop(s2.stack, map["a" := None]) == s3.stack;
  }

  /** The rest of A runs on B's leaked frame. */
  lemma LeakExampleCallerContinues()
    ensures RunOps(LeakExample(), [Call(0, "B"), Print("a")], State([map["a" := Number(1.0)]], []), 1)
         == Completed(State([map["a" := Number(1.0)], map["a" := None]], [NotAClass(1), Printed(None)]))
  {
    var p := LeakExample();
    var fa: Frame := map["a" := Number(1.0)];
    var s2 := State([fa, map[]], [NotAClass(1)]);
    var s3 := State([fa, map["a" := None]], [NotAClass(1), Printed(None)]);
    LeakExampleCallSucceeds();
    LeakExamplePrintsNone();
    assert RunOps(p, [Print("a")], s2, 1) == Completed(s3);
    assert [Call(0, "B"), Print("a")][1..] == [Print("a")];
  }

  lemma LeakExampleFirstAssignment()
    ensures RunOperation(LeakExample(), Assign("a", Number(1.0)), State([map[]], []), 1)
         == OpOk(State([map["a" := Number(1.0)]], []), Number(1.0))
  {
    var f: Frame := map[];
    assert ValueStep(Assign("a", Number(1.0)), f) == (map["a" := Number(1.0)], Number(1.0));
  }

  lemma LeakExampleFound()
    ensures Found(LeakExample(), 0, "A")
  {
  }

  lemma LeakExampleCallerBody()
    ensures RunOps(LeakExample(), Body(LeakExample(), 0, "A"), State([map[]], []), 1)
         == Completed(State([map["a" := Number(1.0)], map["a" := None]], [NotAClass(1), Printed(None)]))
  {
    var p := LeakExample();
    var body := Body(p, 0, "A");
    LeakExampleFirstAssignment();
    LeakExampleCallerContinues();
    assert body[0] == Assign("a", Number(1.0));
    assert body[1..] == [Call(0, "B"), Print("a")];
  }

  /** A function called on an empty stack whose body ends with two frames
      returns with the lower one: the frame it pushed is the one left. */
  lemma ReturnKeepsLowerFrame(p: Program, c: ClassId, name: string, fuel: nat, lower: Frame, upper: Frame, out: seq<Output>)
    requires Found(p, c, name) && fuel > 0
    requires RunOps(p, Body(p, c, name), State([map[]], []), fuel - 1) == Completed(State([lower, upper], out))
    ensures RunFunction(p, c, name, State([], []), fuel) == Returned(State([lower], out))
  {
    var empty: seq<Frame> := [];
    assert empty + [map[]] == [map[]];
    FunctionReturns(p, c, name, State([], []), fuel, State([lower, upper], out));
    assert Pop([lower, upper]) == [lower];
  }

  lemma LeakExampleCallerBodyAnyFuel(fuel: nat)
    requires fuel >= 1
    ensures RunOps(LeakExample(), Body(LeakExample(), 0, "A"), State([map[]], []), fuel)
         == Completed(State([map["a" := Number(1.0)], map["a" := None]], [NotAClass(1), Printed(None)]))
  {
    LeakExampleCallerBody();
    FuelMonotoneOps(LeakExample(), Body(LeakExample(), 0, "A"), State([map[]], []), 1, fuel);
  }

  /** With enough fuel for A and its call, A returns with its own frame still
      on the stack: the pop removed B's leaked frame instead. */
  lemma LeakExampleCallerReturns(fuel: nat)
    requires fuel >= 2
    ensures RunFunction(LeakExample(), 0, "A", State([], []), fuel)
         == Returned(State([map["a" := Number(1.0)]], [NotAClass(1), Printed(None)]))
  {
    LeakExampleFound();
    LeakExampleCallerBodyAnyFuel(fuel - 1);
    ReturnKeepsLowerFrame(LeakExample(), 0, "A", fuel, map["a" := Number(1.0)], map["a" := None], [NotAClass(1), Printed(None)]);
  }

  lemma LeakedFrameIsObservable(fuel: nat)
    requires fuel >= 2
    ensures Run(LeakExample(), fuel) == Finished(State([map["a" := Number(1.0)]], [NotAClass(1), Printed(None)]))
  {
    LeakExampleCallerReturns(fuel);
  }

  // ---------------------------------------------------------------------------
  // The arithmetic operators are all `+=`

  /** Rewrites every `-`, `*`, `/` and `//` into `+`, at any depth. */
  function NormalizeOp(op: Operation): (r: Operation)
    ensures !(r.Sub? || r.Mul? || r.Div? || r.Mod?)
    ensures IsArithmetic(op) <==> r.Add?
    decreases OpSize(op), 0
  {
    match op
    case Sub(a, b) => Add(a, b)
    case Mul(a, b) => Add(a, b)
    case Div(a, b) => Add(a, b)
    case Mod(a, b) => Add(a, b)
    case Conditional(c, inner, otherwise) =>
      Conditional(NormalizeOp(c), NormalizeOps(inner), NormalizeElse(otherwise))
    case _ => op
  }

  function NormalizeOps(ops: seq<Operation>): (r: seq<Operation>)
    ensures |r| == |ops|
    decreases OpsSize(ops), 1
  {
    if ops == [] then [] else [NormalizeOp(ops[0])] + NormalizeOps(ops[1..])
  }

  function NormalizeElse(e: Else): (r: Else)
    ensures r.NoElse? <==> e.NoElse?
    decreases ElseSize(e), 2
  {
    match e
    case NoElse => NoElse
    case Else(ops) => Else(NormalizeOps(ops))
  }

  function NormalizeClass(c: Class): Class {
    Class(map n | n in c.functions :: Function(NormalizeOps(c.functions[n].operations)))
  }

  function NormalizeProgram(p: Program): (r: Program)
    ensures r.classes.Keys == p.classes.Keys && r.statements == p.statements
    ensures forall c, n :: Found(r, c, n) <==> Found(p, c, n)
  {
    Program(map c | c in p.classes :: NormalizeClass(p.classes[c]), p.statements)
  }

  lemma {:induction false} NormalizeOpSame(p: Program, op: Operation, st: State, fuel: nat)
    ensures RunOperation(NormalizeProgram(p), NormalizeOp(op), st, fuel) == RunOperation(p, op, st, fuel)
    decreases fuel, OpSize(op), 1
  {
    var q := NormalizeProgram(p);
    var framed := State(EnsureFrame(st.stack), st.out);
    if IsValueOp(op) {
      ValueOperation(p, op, st, fuel);
      ValueOperation(q, NormalizeOp(op), st, fuel);
      if IsArithmetic(op) {
        assert NormalizeOp(op) == Add(op.left, op.right);
        assert ValueStep(op, Top(framed.stack)) == ValueStep(Add(op.left, op.right), Top(framed.stack));
      } else {
        assert NormalizeOp(op) == op;
      }
    } else if op.Print? {
      PrintOperation(p, op.left, st, fuel);
      PrintOperation(q, op.left, st, fuel);
    } else if op.Call? {
      CallOperation(p, op.classId, op.name, st, fuel);
      CallOperation(q, op.classId, op.name, st, fuel);
      NormalizeFunctionSame(p, op.classId, op.name, framed, fuel);
      RunCallAlike(p, fuel, q, fuel, op.classId, op.name, st);
    } else {
      var c, inner, otherwise := op.condition, op.inner, op.otherwise;
      assert NormalizeOp(op) == Conditional(NormalizeOp(c), NormalizeOps(inner), NormalizeElse(otherwise));
      ConditionalOperation(p, c, inner, otherwise, st, fuel);
      ConditionalOperation(q, NormalizeOp(c), NormalizeOps(inner), NormalizeElse(otherwise), st, fuel);
      NormalizeConditionalSame(p, c, inner, otherwise, framed, fuel);
    }
  }

  lemma {:induction false} NormalizeConditionalSame(p: Program, c: Operation, inner: seq<Operation>, otherwise: Else,
                                                    st: State, fuel: nat)
    requires |st.stack| >= 1
    ensures RunConditional(NormalizeProgram(p), NormalizeOp(c), NormalizeOps(inner), NormalizeElse(otherwise), st, fuel)
         == RunConditional(p, c, inner, otherwise, st, fuel)
    decreases fuel, OpSize(Conditional(c, inner, otherwise)), 0
  {
    NormalizeOpSame(p, c, st, fuel);
    match RunOperation(p, c, st, fuel)
    case OpOk(st1, res) =>
      if Equals(res, Bool(true)) {
        assert OpsSize(inner) < OpSize(Conditional(c, inner, otherwise));
        NormalizeBranchSame(p, inner, st1, fuel);
      } else {
        assert ElseOps(NormalizeElse(otherwise)) == NormalizeOps(ElseOps(otherwise));
        assert OpsSize(ElseOps(otherwise)) < OpSize(Conditional(c, inner, otherwise));
        NormalizeBranchSame(p, ElseOps(otherwise), st1, fuel);
      }
    case OpErr(_) =>
    case OpOutOfFuel =>
  }

  lemma {:induction false} NormalizeBranchSame(p: Program, branch: seq<Operation>, st: State, fuel: nat)
    requires |st.stack| >= 1
    ensures RunBranch(NormalizeProgram(p), NormalizeOps(branch), st, fuel) == RunBranch(p, branch, st, fuel)
    decreases fuel, OpsSize(branch), 3
  {
    NormalizeOpsSame(p, branch, st, fuel);
  }

  lemma {:induction false} NormalizeOpsSame(p: Program, ops: seq<Operation>, st: State, fuel: nat)
    ensures RunOps(NormalizeProgram(p), NormalizeOps(ops), st, fuel) == RunOps(p, ops, st, fuel)
    decreases fuel, OpsSize(ops), 2
  {
    if ops != [] {
      NormalizeOpSame(p, ops[0], st, fuel);
      match RunOperation(p, ops[0], st, fuel)
      case OpOk(st1, _) => NormalizeOpsSame(p, ops[1..], st1, fuel);
      case OpErr(_) =>
      case OpOutOfFuel =>
    }
  }

  lemma {:induction false} NormalizeFunctionSame(p: Program, c: ClassId, name: string, st: State, fuel: nat)
    ensures RunFunction(NormalizeProgram(p), c, name, st, fuel) == RunFunction(p, c, name, st, fuel)
    decreases fuel, 0, 0
  {
    var q := NormalizeProgram(p);
    if !Found(p, c, name) {
      assert !Found(q, c, name);
    } else if fuel == 0 {
      FunctionNoFuel(p, c, name, st);
      FunctionNoFuel(q, c, name, st);
    } else {
      assert Body(q, c, name) == NormalizeOps(Body(p, c, name));
      NormalizeOpsSame(p, Body(p, c, name), State(st.stack + [map[]], st.out), fuel - 1);
      FunctionCall(p, c, name, st, fuel);
      FunctionCall(q, c, name, st, fuel);
    }
  }

  lemma {:induction false} NormalizeStatementsSame(p: Program, i: nat, st: State, fuel: nat)
    requires i <= |p.statements|
    ensures RunStatements(NormalizeProgram(p), i, st, fuel) == RunStatements(p, i, st, fuel)
    decreases |p.statements| - i
  {
    if i < |p.statements| {
      var s := p.statements[i];
      NormalizeFunctionSame(p, s.classId, s.name, st, fuel);
      match RunFunction(p, s.classId, s.name, st, fuel)
      case Returned(st1) => NormalizeStatementsSame(p, i + 1, st1, fuel);
      case Aborted(st1) => NormalizeStatementsSame(p, i + 1, st1, fuel);
      case Missing(_) =>
      case CallOutOfFuel =>
    }
  }

  /** Replacing every `-`, `*`, `/` and `//` by `+` changes nothing about a
      run: output, final stack and where it stops. */
  lemma ArithmeticOperatorsAreAddition(p: Program, fuel: nat)
    ensures Run(NormalizeProgram(p), fuel) == Run(p, fuel)
  {
    NormalizeStatementsSame(p, 0, State([], []), fuel);
  }

  // ---------------------------------------------------------------------------
  // More call depth never changes a finished run

  lemma {:induction false} FuelMonotoneOp(p: Program, op: Operation, st: State, fuel: nat, more: nat)
    requires fuel <= more && !RunOperation(p, op, st, fuel).OpOutOfFuel?
    ensures RunOperation(p, op, st, more) == RunOperation(p, op, st, fuel)
    decreases fuel, OpSize(op), 1
  {
    var framed := State(EnsureFrame(st.stack), st.out);
    if IsValueOp(op) {
      ValueOperation(p, op, st, fuel);
      ValueOperation(p, op, st, more);
    } else if op.Print? {
      PrintOperation(p, op.left, st, fuel);
      PrintOperation(p, op.left, st, more);
    } else if op.Call? {
      CallOperation(p, op.classId, op.name, st, fuel);
      CallOperation(p, op.classId, op.name, st, more);
      RunCallOutOfFuel(p, op.classId, op.name, st, fuel);
      FuelMonotoneFunction(p, op.classId, op.name, framed, fuel, more);
      RunCallAlike(p, fuel, p, more, op.classId, op.name, st);
    } else {
      ConditionalOperation(p, op.condition, op.inner, op.otherwise, st, fuel);
      ConditionalOperation(p, op.condition, op.inner, op.otherwise, st, more);
      FuelMonotoneConditional(p, op.condition, op.inner, op.otherwise, framed, fuel, more);
    }
  }

  lemma {:induction false} FuelMonotoneConditional(p: Program, c: Operation, inner: seq<Operation>, otherwise: Else,
                                                   st: State, fuel: nat, more: nat)
    requires |st.stack| >= 1
    requires fuel <= more && !RunConditional(p, c, inner, otherwise, st, fuel).OpOutOfFuel?
    ensures RunConditional(p, c, inner, otherwise, st, more) == RunConditional(p, c, inner, otherwise, st, fuel)
    decreases fuel, OpSize(Conditional(c, inner, otherwise)), 0
  {
    FuelMonotoneOp(p, c, st, fuel, more);
    match RunOperation(p, c, st, fuel)
    case OpOk(st1, res) =>
      var branch := if Equals(res, Bool(true)) then inner else ElseOps(otherwise);
      assert OpsSize(branch) < OpSize(Conditional(c, inner, otherwise));
      FuelMonotoneBranch(p, branch, st1, fuel, more);
    case OpErr(_) =>
  }

  lemma {:induction false} FuelMonotoneBranch(p: Program, branch: seq<Operation>, st: State, fuel: nat, more: nat)
    requires |st.stack| >= 1
    requires fuel <= more && !RunBranch(p, branch, st, fuel).OpOutOfFuel?
    ensures RunBranch(p, branch, st, more) == RunBranch(p, branch, st, fuel)
    decreases fuel, OpsSize(branch), 3
  {
    FuelMonotoneOps(p, branch, st, fuel, more);
  }

  lemma {:induction false} FuelMonotoneOps(p: Program, ops: seq<Operation>, st: State, fuel: nat, more: nat)
    requires fuel <= more && !RunOps(p, ops, st, fuel).OpsOutOfFuel?
    ensures RunOps(p, ops, st, more) == RunOps(p, ops, st, fuel)
    decreases fuel, OpsSize(ops), 2
  {
    if ops != [] {
      FuelMonotoneOp(p, ops[0], st, fuel, more);
      match RunOperation(p, ops[0], st, fuel)
      case OpOk(st1, _) => FuelMonotoneOps(p, ops[1..], st1, fuel, more);
      case OpErr(_) =>
    }
  }

  lemma {:induction false} FuelMonotoneFunction(p: Program, c: ClassId, name: string, st: State, fuel: nat, more: nat)
    requires fuel <= more && !RunFunction(p, c, name, st, fuel).CallOutOfFuel?
    ensures RunFunction(p, c, name, st, more) == RunFunction(p, c, name, st, fuel)
    decreases fuel, 0, 0
  {
    if Found(p, c, name) {
      if fuel == 0 {
        FunctionNoFuel(p, c, name, st);
      } else {
        var entered := State(st.stack + [map[]], st.out);
        FunctionCall(p, c, name, st, fuel);
        FunctionCall(p, c, name, st, more);
        FuelMonotoneOps(p, Body(p, c, name), entered, fuel - 1, more - 1);
      }
    }
  }

  lemma {:induction false} FuelMonotoneStatements(p: Program, i: nat, st: State, fuel: nat, more: nat)
    requires i <= |p.statements|
    requires fuel <= more && !RunStatements(p, i, st, fuel).RunOutOfFuel?
    ensures RunStatements(p, i, st, more) == RunStatements(p, i, st, fuel)
    decreases |p.statements| - i
  {
    if i < |p.statements| {
      var s := p.statements[i];
      FuelMonotoneFunction(p, s.classId, s.name, st, fuel, more);
      match RunFunction(p, s.classId, s.name, st, fuel)
      case Returned(st1) => FuelMonotoneStatements(p, i + 1, st1, fuel, more);
      case Aborted(st1) => FuelMonotoneStatements(p, i + 1, st1, fuel, more);
      case Missing(_) =>
    }
  }

  /** A run that completed within some call depth has the same outcome with
      any larger depth: the bound only cuts off runs, never alters them. */
  lemma RunFuelMonotone(p: Program, fuel: nat, more: nat)
    requires fuel <= more && !Run(p, fuel).RunOutOfFuel?
    ensures Run(p, more) == Run(p, fuel)
  {
    FuelMonotoneStatements(p, 0, State([], []), fuel, more);
  }
}

=== FILE: parse_steps.dfy ===
/** Single steps of the parser on text of a known shape, stated on the text
    alone: each says what one production does with input that starts with a
    given literal, name or already-parsed piece. The printed-text round trips
    are assembled from these. */
module ParseSteps {
  import opened Values
  import opened Syntax
  import opened Scanner
  import opened Parser
  import opened ScannerFacts
  import opened ParserFacts

  // ---------------------------------------------------------------------------
  // Literals

  /** What may follow an operation or a literal inside an operation list or
      a condition. */
  predicate Delimited(rest: string) {
    rest != [] && (rest[0] == ',' || rest[0] == ')')
  }

  /** A required one-character literal that is there is consumed. */
  lemma ExpectHit(c: char, x: string, missing: ParseError)
    requires c !in Whitespace
    ensures Expect([c] + x, [c], missing) == Ok((), x)
  {
    assert ([c] + x)[0] == c;
    SkipNothing([c] + x);
    ThenHit([c], x);
  }

  // The same for each punctuation mark of the language, with nothing left
  // for a caller to discharge.

  lemma ExpectOpenBrace(x: string, missing: ParseError)
    ensures Expect("{" + x, "{", missing) == Ok((), x)
  {
    ExpectHit('{', x, missing);
  }

  lemma ExpectCloseBrace(x: string, missing: ParseError)
    ensures Expect("}" + x, "}", missing) == Ok((), x)
  {
    ExpectHit('}', x, missing);
  }

  lemma ExpectColon(x: string, missing: ParseError)
    ensures Expect(":" + x, ":", missing) == Ok((), x)
  {
    ExpectHit(':', x, missing);
  }

  lemma ExpectSemicolon(x: string, missing: ParseError)
    ensures Expect(";" + x, ";", missing) == Ok((), x)
  {
    ExpectHit(';', x, missing);
  }

  lemma ExpectArrow(x: string, missing: ParseError)
    ensures Expect(">" + x, ">", missing) == Ok((), x)
  {
    ExpectHit('>', x, missing);
  }

  lemma ExpectCloseParen(x: string, missing: ParseError)
    ensures Expect(")" + x, ")", missing) == Ok((), x)
  {
    ExpectHit(')', x, missing);
  }

  lemma ExpectQuestion(x: string, missing: ParseError)
    ensures Expect("?" + x, "?", missing) == Ok((), x)
  {
    ExpectHit('?', x, missing);
  }

  /** The delimiters of a run of plain characters in a string literal. */
  const StringDelims: set<char> := {'"', '\\'}

  /** One step of a string body once its run of plain characters is known. */
  lemma StringBodyAt(s: string, acc: string, chunk: string, r: string)
    requires UntilAny(s, StringDelims) == (chunk, r)
    ensures r == [] ==> ParseStringBody(s, acc) == Err(EndOfInput)
    ensures r != [] && r[0] == '"' ==> ParseStringBody(s, acc) == Ok(acc + chunk, r[1..])
    ensures r != [] && r[0] != '"' ==> ParseStringBody(s, acc) == ParseEscape(r[1..], acc + chunk)
  {
  }

  /** A character that is neither a quote nor a backslash is part of the
      current run of plain characters. */
  lemma PlainCharShifts(c: char, s: string, acc: string)
    requires c != '"' && c != '\\'
    ensures ParseStringBody([c] + s, acc) == ParseStringBody(s, acc + [c])
  {
    var (m, r) := UntilAny(s, StringDelims);
    UntilAnyCons(c, s, StringDelims);
    StringBodyAt([c] + s, acc, [c] + m, r);
    StringBodyAt(s, acc + [c], m, r);
    assert acc + ([c] + m) == acc + [c] + m;
  }

  /** An escaped quote or backslash stands for the character itself. */
  lemma EscapedCharShifts(c: char, s: string, acc: string)
    requires c == '"' || c == '\\'
    ensures ParseStringBody(['\\', c] + s, acc) == ParseStringBody(s, acc + [c])
  {
    var t := ['\\', c] + s;
    assert t[0] == '\\';
    DelimiterFirst(t, StringDelims);
    StringBodyAt(t, acc, [], t);
    assert t[1..] == [c] + s && ([c] + s)[1..] == s;
    assert acc + [] == acc;
    SimpleEscapeAt(c, s, acc);
  }

  /** The closing quote ends the literal. */
  lemma ClosingQuote(acc: string, rest: string)
    ensures ParseStringBody("\"" + rest, acc) == Ok(acc, rest)
  {
    var t := "\"" + rest;
    assert t[0] == '"';
    DelimiterFirst(t, StringDelims);
    StringBodyAt(t, acc, [], t);
    assert t[1..] == rest;
    assert acc + [] == acc;
  }

  /** A run of lower-case letters that does not start with a keyword does not
      start with it either once a non-letter follows. */
  lemma NoKeywordAcross(kw: string, name: string, rest: string)
    requires AllIn(kw, LowerLetters) && AllIn(name, LowerLetters)
    requires rest == [] || rest[0] !in LowerLetters
    requires !(kw <= name)
    ensures !(kw <= name + rest)
  {
    if |name| >= |kw| {
      assert (name + rest)[..|kw|] == name[..|kw|];
    } else if |name + rest| >= |kw| {
      assert (name + rest)[|name|] == rest[0];
      assert kw[|name|] in LowerLetters;
    }
  }

  // ---------------------------------------------------------------------------
  // Operations on a variable

  /** An operation that starts with a variable name is read as that name
      followed by what comes after it. */
  lemma NameStartsOperation(a: string, t: string)
    requires a != [] && AllIn(a, LowerLetters)
    requires t != [] && t[0] !in LowerLetters && t[0] !in Whitespace
    ensures ParseOperation(a + t) == ParseAfterName(a, t)
  {
    assert (a + t)[0] == a[0];
    ThenMiss(a + t, "(");
    WhileAnyExact(a, t, LowerLetters);
    SkipNothing(t);
  }

  /** Lower-case letters are neither whitespace nor operator characters. */
  lemma LetterIsPlain(c: char)
    requires c in LowerLetters
    ensures c !in Whitespace && c !in Extenders && c != ',' && c != ';' && c != ')'
  {
  }

  /** Every operator token is a non-empty run of symbol characters. */
  lemma TokenStart(o: Operator)
    ensures Token(o) != [] && Token(o)[0] != ',' && Token(o)[0] != ';'
    ensures Token(o)[0] !in LowerLetters && Token(o)[0] !in Whitespace
  {
  }

  /** What follows a name once the operator after it is known. */
  lemma AfterNameMatched(a: string, s: string, o: Operator)
    requires s != [] && s[0] != ',' && s[0] != ';'
    requires MatchOperator(s) == Matched(o)
    ensures o == NotOp ==> ParseAfterName(a, s) == Ok(Not(a), s[1..])
    ensures o == AssignOp ==> ParseAfterName(a, s) == ParseAssignment(a, s[1..])
    ensures o != NotOp && o != AssignOp ==> ParseAfterName(a, s) == ParseOperand(o, a, s[|Token(o)|..])
  {
  }

  /** The second variable of a two-variable operation. */
  lemma OperandStep(o: Operator, a: string, b: string, rest: string)
    requires o != NotOp && o != AssignOp
    requires b != [] && AllIn(b, LowerLetters) && Delimited(rest)
    ensures ParseOperand(o, a, b + rest) == Ok(BinaryOp(o, a, b), rest)
  {
    var x := b + rest;
    assert x[0] == b[0];
    LetterIsPlain(b[0]);
    SkipNothing(x);
    WhileAnyExact(b, rest, LowerLetters);
    assert ParseVarName(x) == Ok(b, rest);
  }

  lemma AfterNameBinary(o: Operator, a: string, b: string, rest: string)
    requires o != NotOp && o != AssignOp
    requires b != [] && AllIn(b, LowerLetters) && Delimited(rest)
    ensures ParseAfterName(a, Token(o) + b + rest) == Ok(BinaryOp(o, a, b), rest)
  {
    var x := b + rest;
    var s := Token(o) + x;
    assert Token(o) + b + rest == s;
    assert x[0] == b[0];
    LetterIsPlain(b[0]);
    MatchOperatorToken(o, x);
    TokenStart(o);
    assert s[0] == Token(o)[0];
    AfterNameMatched(a, s, o);
    assert s[|Token(o)|..] == x;
    OperandStep(o, a, b, rest);
  }

  lemma BinaryStep(o: Operator, a: string, b: string, rest: string)
    requires o != NotOp && o != AssignOp
    requires a != [] && AllIn(a, LowerLetters)
    requires b != [] && AllIn(b, LowerLetters) && Delimited(rest)
    ensures ParseOperation(a + Token(o) + b + rest) == Ok(BinaryOp(o, a, b), rest)
  {
    var t := Token(o) + b + rest;
    assert a + Token(o) + b + rest == a + t;
    assert t[0] == Token(o)[0];
    NameStartsOperation(a, t);
    AfterNameBinary(o, a, b, rest);
  }

  /** `!` and `=` after a name, stated for a symbolic operator so that the
      operator table is not unfolded on a literal. */
  lemma AfterNameUnary(o: Operator, a: string, x: string)
    requires o == NotOp || o == AssignOp
    requires x == [] || x[0] !in Extenders
    ensures o == NotOp ==> ParseAfterName(a, Token(o) + x) == Ok(Not(a), x)
    ensures o == AssignOp ==> ParseAfterName(a, Token(o) + x) == ParseAssignment(a, x)
  {
    var s := Token(o) + x;
    MatchOperatorToken(o, x);
    TokenStart(o);
    assert s[0] == Token(o)[0];
    assert |Token(o)| == 1;
    assert s[1..] == x;
    AfterNameMatched(a, s, o);
  }

  lemma AfterNameNot(a: string, rest: string)
    requires Delimited(rest)
    ensures ParseAfterName(a, "!" + rest) == Ok(Not(a), rest)
  {
    AfterNameUnary(NotOp, a, rest);
  }

  /** A name followed by a comma or a semicolon is printed; the separator is
      left for the list. */
  lemma PrintStep(a: string, rest: string)
    requires a != [] && AllIn(a, LowerLetters) && rest != [] && (rest[0] == ',' || rest[0] == ';')
    ensures ParseOperation(a + rest) == Ok(Print(a), rest)
  {
    NameStartsOperation(a, rest);
  }

  /** A name followed by anything that is not a separator and starts no
      operator token is rejected with the important ExpectedOperation. */
  lemma NameThenOtherRejected(a: string, t: string)
    requires a != [] && AllIn(a, LowerLetters)
    requires t != [] && t[0] !in LowerLetters && t[0] !in Whitespace && t[0] != ',' && t[0] != ';'
    requires forall o: Operator :: !(Token(o) <= t)
    ensures ParseOperation(a + t) == Err(Fatal(ExpectedOperation))
  {
    NameStartsOperation(a, t);
    MatchOperatorIsLongest(t);
  }

  lemma NotStep(a: string, rest: string)
    requires a != [] && AllIn(a, LowerLetters) && Delimited(rest)
    ensures ParseOperation(a + ("!" + rest)) == Ok(Not(a), rest)
  {
    NameStartsOperation(a, "!" + rest);
    AfterNameNot(a, rest);
  }

  lemma AfterNameAssign(a: string, x: string)
    requires x == [] || x[0] !in Extenders
    ensures ParseAfterName(a, "=" + x) == ParseAssignment(a, x)
  {
    AfterNameUnary(AssignOp, a, x);
  }

  lemma AssignmentStep(a: string, x: string, d: Data, rest: string)
    requires x == [] || x[0] !in Whitespace
    requires ParseData(x) == Ok(d, rest)
    ensures ParseAssignment(a, x) == Ok(Assign(a, d), rest)
  {
    SkipNothing(x);
  }

  /** `name = literal`. */
  lemma AssignStep(a: string, x: string, d: Data, rest: string)
    requires a != [] && AllIn(a, LowerLetters)
    requires x != [] && x[0] !in Extenders && x[0] !in Whitespace
    requires ParseData(x) == Ok(d, rest)
    ensures ParseOperation(a + ("=" + x)) == Ok(Assign(a, d), rest)
  {
    NameStartsOperation(a, "=" + x);
    AfterNameAssign(a, x);
    AssignmentStep(a, x, d, rest);
  }

  /** A call target once the `>` and the name are known. */
  lemma CallTargetAt(ds: string, s: string, r: string, name: string, rest: string)
    requires ds != [] && AllIn(ds, DigitChars) && DigitsValue(ds) < ClassIdLimit
    requires Expect(s, ">", Fatal(ExpectedCall)) == Ok((), r)
    requires WhileAny(Skip(r), UpperLetters) == (name, rest) && name != []
    ensures ParseCallTarget(ds, s) == Ok(Statement(DigitsValue(ds), name), rest)
  {
  }

  lemma CallTargetStep(ds: string, name: string, rest: string)
    requires ds != [] && AllIn(ds, DigitChars) && DigitsValue(ds) < ClassIdLimit
    requires name != [] && AllIn(name, UpperLetters) && (rest == [] || rest[0] !in UpperLetters)
    ensures ParseCallTarget(ds, ">" + (name + rest)) == Ok(Statement(DigitsValue(ds), name), rest)
  {
    var x := name + rest;
    ExpectArrow(x, Fatal(ExpectedCall));
    assert x[0] == name[0];
    SkipNothing(x);
    WhileAnyExact(name, rest, UpperLetters);
    CallTargetAt(ds, ">" + x, x, name, rest);
  }

  /** `digits > NAME`, as a call or as a statement. */
  lemma CallStep(ds: string, name: string, rest: string)
    requires ds != [] && AllIn(ds, DigitChars) && DigitsValue(ds) < ClassIdLimit
    requires name != [] && AllIn(name, UpperLetters) && Delimited(rest)
    ensures ParseOperation(ds + (">" + (name + rest))) == Ok(Call(DigitsValue(ds), name), rest)
  {
    var t := ">" + (name + rest);
    var s := ds + t;
    assert s[0] == ds[0] && ds[0] in DigitChars;
    ThenMiss(s, "(");
    WhileAnyNone(s, LowerLetters);
    WhileAnyExact(ds, t, DigitChars);
    CallTargetStep(ds, name, rest);
  }

  // ---------------------------------------------------------------------------
  // Conditionals, blocks and lists

  /** An opening parenthesis starts a conditional. */
  lemma ConditionalOpens(x: string)
    requires x != []
    ensures ParseOperation("(" + x) == ParseConditional(x)
  {
    ThenHit("(", x);
  }

  /** `cond ) ? block` followed by the otherwise part. */
  lemma ConditionalStep(x: string, c: Operation, r1: string)
    requires x != [] && x[0] !in Whitespace
    requires ParseOperation(x) == Ok(c, r1)
    ensures ParseConditional(x) == ParseConditionalBody(c, r1)
  {
    SkipNothing(x);
  }

  lemma ConditionalBodyStep(c: Operation, body: string, inner: seq<Operation>, tail: string)
    requires ParseBlock(body, ExpectedConditionalBlock, ExpectedConditionalBlockEnd) == Ok(inner, tail)
    ensures ParseConditionalBody(c, ")" + ("?" + body)) == ParseOtherwise(c, inner, tail)
  {
    ExpectCloseParen("?" + body, Fatal(ExpectedParenthesisEnd));
    ExpectQuestion(body, Fatal(ExpectedConditionalBlock));
  }

  /** `( cond ) ? block`, followed by the otherwise part. */
  lemma ConditionalReads(x: string, c: Operation, body: string, inner: seq<Operation>, tail: string)
    requires x != [] && x[0] !in Whitespace
    requires ParseOperation(x) == Ok(c, ")" + ("?" + body))
    requires ParseBlock(body, ExpectedConditionalBlock, ExpectedConditionalBlockEnd) == Ok(inner, tail)
    ensures ParseOperation("(" + x) == ParseOtherwise(c, inner, tail)
  {
    ConditionalOpens(x);
    ConditionalStep(x, c, ")" + ("?" + body));
    ConditionalBodyStep(c, body, inner, tail);
  }

  /** Without a `:` after the whitespace that follows the block, the
      conditional has no otherwise branch; the whitespace is consumed. */
  lemma OtherwiseAbsent(c: Operation, inner: seq<Operation>, rest: string)
    requires Skip(rest) != [] && Skip(rest)[0] != ':'
    ensures ParseOtherwise(c, inner, rest) == Ok(Conditional(c, inner, NoElse), Skip(rest))
  {
    ThenMiss(Skip(rest), ":");
  }

  /** A conditional block at the very end of the input cannot be followed by
      the optional `:` check, which fails at end of input. */
  lemma OtherwiseAtEnd(c: Operation, inner: seq<Operation>, rest: string)
    requires Skip(rest) == []
    ensures ParseOtherwise(c, inner, rest) == Err(EndOfInput)
  {
  }

  /** An otherwise branch once the colon and the block have been seen. */
  lemma OtherwiseAt(c: Operation, inner: seq<Operation>, s: string, r5: string, ops: seq<Operation>, r6: string)
    requires Then(Skip(s), ":") == Ok(true, r5)
    requires ParseBlock(r5, ExpectedConditionalOtherwiseBlock, ExpectedConditionalOtherwiseBlockEnd) == Ok(ops, r6)
    ensures ParseOtherwise(c, inner, s) == Ok(Conditional(c, inner, Else(ops)), r6)
  {
  }

  lemma OtherwisePresent(c: Operation, inner: seq<Operation>, body: string, ops: seq<Operation>, rest: string)
    requires ParseBlock(body, ExpectedConditionalOtherwiseBlock, ExpectedConditionalOtherwiseBlockEnd) == Ok(ops, rest)
    ensures ParseOtherwise(c, inner, ":" + body) == Ok(Conditional(c, inner, Else(ops)), rest)
  {
    SkipNothing(":" + body);
    ThenHit(":", body);
    OtherwiseAt(c, inner, ":" + body, body, ops, rest);
  }

  /** A block whose three parts are known. */
  lemma BlockAt(s: string, r1: string, ops: seq<Operation>, r2: string, r3: string, openKind: ErrorKind, closeKind: ErrorKind)
    requires Expect(s, "{", Fatal(openKind)) == Ok((), r1)
    requires ParseOpList(r1, '}') == Ok(ops, r2)
    requires Expect(r2, "}", Fatal(closeKind)) == Ok((), r3)
    ensures ParseBlock(s, openKind, closeKind) == Ok(ops, r3)
  {
  }

  /** `{ list }` once the list is known to stop at the closing brace. */
  lemma BlockStep(y: string, ops: seq<Operation>, tail: string, openKind: ErrorKind, closeKind: ErrorKind)
    requires ParseOpList(y, '}') == Ok(ops, "}" + tail)
    ensures ParseBlock("{" + y, openKind, closeKind) == Ok(ops, tail)
  {
    ExpectOpenBrace(y, Fatal(openKind));
    ExpectCloseBrace(tail, Fatal(closeKind));
    BlockAt("{" + y, y, ops, "}" + tail, tail, openKind, closeKind);
  }

  lemma OpListEnd(close: char, rest: string)
    requires close == '}' || close == ';'
    ensures ParseOpList([close] + rest, close) == Ok([], [close] + rest)
  {
    SkipNothing([close] + rest);
    TestHit([close], rest);
  }

  /** A list that does not start with the closing character starts with an
      operation; a comma after it continues the list. */
  lemma OpListOpens(s: string, op: Operation, x: string, close: char)
    requires s != [] && s[0] !in Whitespace && s[0] != close
    requires ParseOperation(s) == Ok(op, "," + x)
    ensures ParseOpList(s, close) ==
      (match ParseOpList(x, close)
       case Err(e) => Err(e)
       case Ok(ops, r) => Ok([op] + ops, r))
  {
    SkipNothing(s);
    TestMiss(s, [close]);
    SkipNothing("," + x);
    ThenHit(",", x);
  }

  /** An operation not followed by a comma is the last one of the list; what
      follows it, after whitespace, is left for the caller. */
  lemma OpListLast(s: string, op: Operation, r1: string, close: char)
    requires s != [] && s[0] !in Whitespace && s[0] != close
    requires ParseOperation(s) == Ok(op, r1)
    requires Skip(r1) != [] && Skip(r1)[0] != ','
    ensures ParseOpList(s, close) == Ok([op], Skip(r1))
  {
    SkipNothing(s);
    TestMiss(s, [close]);
    ThenMiss(Skip(r1), ",");
  }

  /** A non-empty list is its head followed by its tail. */
  lemma HeadTail<T>(xs: seq<T>)
    requires xs != []
    ensures [xs[0]] + xs[1..] == xs
  {
  }

  /** Appending the head of a list and then its tail appends the list. */
  lemma AppendHeadTail<T>(acc: seq<T>, xs: seq<T>)
    requires xs != []
    ensures acc + [xs[0]] + xs[1..] == acc + xs
  {
    assert [xs[0]] + xs[1..] == xs;
  }

  /** One operation and its comma, then the rest of the list. */
  lemma OpListStep(s: string, op: Operation, x: string, close: char, ops: seq<Operation>, r: string)
    requires s != [] && s[0] !in Whitespace && s[0] != close
    requires ParseOperation(s) == Ok(op, "," + x)
    requires ParseOpList(x, close) == Ok(ops, r)
    ensures ParseOpList(s, close) == Ok([op] + ops, r)
  {
    OpListOpens(s, op, x, close);
  }

  // ---------------------------------------------------------------------------
  // Functions, classes and the program

  /** A function once its name, colon, list and semicolon are known. */
  lemma FunctionAt(s: string, name: string, r0: string, r1: string, ops: seq<Operation>, r2: string, r3: string)
    requires WhileAny(s, UpperLetters) == (name, r0) && name != []
    requires Expect(r0, ":", Fatal(ExpectedColon)) == Ok((), r1)
    requires ParseOpList(r1, ';') == Ok(ops, r2)
    requires Expect(r2, ";", Fatal(ExpectedSemiColon)) == Ok((), r3)
    ensures ParseFunction(s) == Ok((name, Function(ops)), r3)
  {
  }

  /** `NAME : list ;` once the list is known to stop at the semicolon. */
  lemma FunctionStep(name: string, y: string, ops: seq<Operation>, rest: string)
    requires name != [] && AllIn(name, UpperLetters)
    requires ParseOpList(y, ';') == Ok(ops, ";" + rest)
    ensures ParseFunction(name + (":" + y)) == Ok((name, Function(ops)), rest)
  {
    WhileAnyExact(name, ":" + y, UpperLetters);
    ExpectColon(y, Fatal(ExpectedColon));
    ExpectSemicolon(rest, Fatal(ExpectedSemiColon));
    FunctionAt(name + (":" + y), name, ":" + y, y, ops, ";" + rest, rest);
  }

  /** `NAME:x;` is a function that prints one variable: the print stops at
      the `;`, which ends the list without a comma and closes the function. */
  lemma SinglePrintFunction(name: string, a: string, rest: string)
    requires name != [] && AllIn(name, UpperLetters)
    requires a != [] && AllIn(a, LowerLetters)
    ensures ParseFunction(name + (":" + (a + (";" + rest)))) == Ok((name, Function([Print(a)])), rest)
  {
    var y := a + (";" + rest);
    assert y == a + (";" + rest);
    PrintStep(a, ";" + rest);
    assert a[0] in LowerLetters;
    LetterIsPlain(a[0]);
    assert y[0] == a[0];
    SkipNothing(";" + rest);
    OpListLast(y, Print(a), ";" + rest, ';');
    FunctionStep(name, y, [Print(a)], rest);
  }

  /** The `;` that closes a class ends its function list. */
  lemma FunctionsEnd(acc: map<string, Function>, rest: string)
    ensures ParseFunctions(";" + rest, acc) == Ok(acc, rest)
  {
    SkipNothing(";" + rest);
    ThenHit(";", rest);
  }

  /** A function with a new name is entered and the list goes on. */
  lemma FunctionsStep(s: string, acc: map<string, Function>, name: string, f: Function, r: string)
    requires s != [] && s[0] in UpperLetters
    requires ParseFunction(s) == Ok((name, f), r) && name !in acc
    ensures ParseFunctions(s, acc) == ParseFunctions(r, acc[name := f])
  {
    SkipNothing(s);
    ThenMiss(s, ";");
  }

  /** A function whose name is already taken ends the parse. */
  lemma FunctionsRepeat(s: string, acc: map<string, Function>, name: string, f: Function, r: string)
    requires s != [] && s[0] in UpperLetters
    requires ParseFunction(s) == Ok((name, f), r) && name in acc
    ensures ParseFunctions(s, acc) == Err(Fatal(FunctionExists(name)))
  {
    SkipNothing(s);
    ThenMiss(s, ";");
  }

  /** `digits : functions ;` with a number the class table can hold. */
  lemma ClassStep(ds: string, y: string, fns: map<string, Function>, rest: string)
    requires ds != [] && AllIn(ds, DigitChars) && DigitsValue(ds) < ClassIdLimit
    requires ParseFunctions(y, map[]) == Ok(fns, rest)
    ensures ParseClass(ds + (":" + y)) == Ok((DigitsValue(ds), Class(fns)), rest)
  {
    WhileAnyExact(ds, ":" + y, DigitChars);
    ExpectColon(y, Recoverable(ExpectedColon));
  }

  /** Digits followed by `>` are not a class; the failure is not important,
      so the program parser goes on to read a statement. */
  lemma StatementIsNoClass(ds: string, t: string)
    requires ds != [] && AllIn(ds, DigitChars)
    requires t != [] && t[0] == '>'
    ensures ParseClass(ds + t) == Err(Recoverable(ExpectedColon))
  {
    WhileAnyExact(ds, t, DigitChars);
    SkipNothing(t);
    ThenMiss(t, ":");
  }

  lemma StatementStep(ds: string, name: string, rest: string)
    requires ds != [] && AllIn(ds, DigitChars) && DigitsValue(ds) < ClassIdLimit
    requires name != [] && AllIn(name, UpperLetters) && (rest == [] || rest[0] !in UpperLetters)
    ensures ParseStatement(ds + (">" + (name + rest))) == Ok(Statement(DigitsValue(ds), name), rest)
  {
    WhileAnyExact(ds, ">" + (name + rest), DigitChars);
    CallTargetStep(ds, name, rest);
  }

  lemma ProgramEnd(classes: map<ClassId, Class>, statements: seq<Statement>)
    ensures ParseProgramFrom([], classes, statements) == Ok(Program(classes, statements), [])
  {
  }

  /** A class is entered into the table, replacing one with the same number. */
  lemma ProgramClassStep(s: string, classes: map<ClassId, Class>, statements: seq<Statement>, id: ClassId, c: Class, r: string)
    requires s != [] && s[0] !in Whitespace
    requires ParseClass(s) == Ok((id, c), r)
    ensures ParseProgramFrom(s, classes, statements) == ParseProgramFrom(r, classes[id := c], statements)
  {
    SkipNothing(s);
  }

  /** What is not a class, for an unimportant reason, is read as a statement. */
  lemma ProgramStatementStep(s: string, classes: map<ClassId, Class>, statements: seq<Statement>, e: ParseError, st: Statement, r: string)
    requires s != [] && s[0] !in Whitespace
    requires ParseClass(s) == Err(e) && !e.important
    requires ParseStatement(s) == Ok(st, r)
    ensures ParseProgramFrom(s, classes, statements) == ParseProgramFrom(r, classes, statements + [st])
  {
    SkipNothing(s);
  }

  /** An important failure of the class attempt ends the parse with that
      error; no statement is tried. */
  lemma ProgramClassAborts(s: string, classes: map<ClassId, Class>, statements: seq<Statement>, e: ParseError)
    requires s != [] && s[0] !in Whitespace
    requires ParseClass(s) == Err(e) && e.important
    ensures ParseProgramFrom(s, classes, statements) == Err(e)
  {
    SkipNothing(s);
  }

  /** After an unimportant class failure, a failing statement ends the parse
      with the statement's error. */
  lemma ProgramStatementFails(s: string, classes: map<ClassId, Class>, statements: seq<Statement>, e: ParseError, e2: ParseError)
    requires s != [] && s[0] !in Whitespace
    requires ParseClass(s) == Err(e) && !e.important
    requires ParseStatement(s) == Err(e2)
    ensures ParseProgramFrom(s, classes, statements) == Err(e2)
  {
    SkipNothing(s);
  }
}

=== FILE: parser.dfy ===
/** The recursive-descent parser: source text to `Program`. Each production
    takes the remaining input (already past any whitespace its caller
    skipped) and returns the parsed value with the input left after it. */
module Parser {
  import opened Values
  import opened Syntax
  import opened Scanner

  // ---------------------------------------------------------------------------
  // Operators after a variable name

  datatype Operator =
    | EqOp | GeOp | LeOp | GtOp | LtOp | NeOp | NotOp | OrOp | AndOp
    | AssignOp | AddOp | SubOp | MulOp | ModOp | DivOp

  function Token(o: Operator): string {
    match o
    case EqOp => "=="
    case GeOp => ">="
    case LeOp => "<="
    case GtOp => ">"
    case LtOp => "<"
    case NeOp => "!="
    case NotOp => "!"
    case OrOp => "|"
    case AndOp => "&"
    case AssignOp => "="
    case AddOp => "+"
    case SubOp => "-"
    case MulOp => "*"
    case ModOp => "//"
    case DivOp => "/"
  }

  /** The order in which the operators are tried after a variable name. */
  const OperatorOrder: seq<Operator> :=
    [EqOp, GeOp, LeOp, GtOp, LtOp, NeOp, NotOp, OrOp, AndOp, AssignOp, AddOp, SubOp, MulOp, ModOp, DivOp]

  datatype Match = NoMatch | Matched(op: Operator)

  /** The first operator of `order` whose token starts `s`. */
  function FirstMatch(s: string, order: seq<Operator>): (m: Match)
    ensures m.Matched? ==> m.op in order && Token(m.op) <= s
    ensures m.NoMatch? ==> forall o | o in order :: !(Token(o) <= s)
  {
    if order == [] then NoMatch
    else if Token(order[0]) <= s then Matched(order[0])
    else FirstMatch(s, order[1..])
  }

  function MatchOperator(s: string): Match {
    FirstMatch(s, OperatorOrder)
  }

  /** The two-variable operation an operator token stands for. */
  function BinaryOp(o: Operator, a: string, b: string): Operation
    requires o != NotOp && o != AssignOp
  {
    match o
    case EqOp => Equal(a, b)
    case GeOp => GreaterEqual(a, b)
    case LeOp => LessEqual(a, b)
    case GtOp => Greater(a, b)
    case LtOp => Less(a, b)
    case NeOp => NotEqual(a, b)
    case OrOp => Or(a, b)
    case AndOp => And(a, b)
    case AddOp => Add(a, b)
    case SubOp => Sub(a, b)
    case MulOp => Mul(a, b)
    case ModOp => Mod(a, b)
    case DivOp => Div(a, b)
  }

  // ---------------------------------------------------------------------------
  // Names and literals

  /** A variable name: one or more lower-case letters, as many as there are. */
  function ParseVarName(s: string): (r: Parsed<string>)
    ensures r.Ok? ==> r.value != [] && AllIn(r.value, LowerLetters) && r.value + r.rest == s
    ensures r.Ok? ==> r.rest == [] || r.rest[0] !in LowerLetters
    ensures r.Err? <==> s == [] || s[0] !in LowerLetters
    ensures r.Err? ==> r.error == Fatal(ExpectedVariableName)
  {
    var (name, rest) := WhileAny(s, LowerLetters);
    if name == [] then Err(Fatal(ExpectedVariableName)) else Ok(name, rest)
  }

  /** Whether a number is a Unicode scalar value, i.e. a valid `char`. */
  predicate IsScalarValue(n: nat) {
    n < 0xD800 || 0xE000 <= n < 0x11_0000
  }

  /** The two hex digits of a `\x` escape, after the `x`. */
  function DecodeAscii(s: string): (r: Parsed<char>)
    ensures r.Ok? ==> |r.rest| == |s| - 2 && (r.value as int) < 256
  {
    match Eat(s, 2)
    case Err(e) => Err(e)
    case Ok(ds, rest) =>
      if !AllIn(ds, HexDigitChars) then Err(Fatal(InvalidAsciiEscape))
      else
        assert ds == [ds[0], ds[1]];
        assert HexValue(ds) == HexDigitValue(ds[0]) * 16 + HexDigitValue(ds[1]) by {
          var first := ds[..1];
          assert first == [ds[0]] && first[..0] == [];
          assert HexValue(first) == HexDigitValue(ds[0]);
        }
        Ok(HexValue(ds) as char, rest)
  }

  /** The `{H..H}` part of a `\u` escape, after the `u`: one to six hex digits
      naming a Unicode scalar value. */
  function DecodeUnicode(s: string): (r: Parsed<char>)
    ensures r.Ok? ==> |r.rest| < |s|
  {
    match Then(s, "{")
    case Err(e) => Err(e)
    case Ok(false, _) => Err(Fatal(InvalidUnicodeEscape))
    case Ok(true, r) =>
      var (ds, rest) := UntilCounted(r, '}', 6);
      if !AllIn(ds, HexDigitChars) then Err(Fatal(InvalidUnicodeEscape))
      else if ds == [] then Err(Fatal(NumberParseError))
      else if !IsScalarValue(HexValue(ds)) then Err(Fatal(InvalidUnicodeEscape))
      else Ok(HexValue(ds) as char, rest)
  }

  /** The body of a string literal after the opening quote, appended to
      `acc`, up to and including the closing quote. */
  function ParseStringBody(s: string, acc: string): (r: Parsed<string>)
    ensures r.Ok? ==> |r.rest| < |s|
    decreases |s|, 1
  {
    var (chunk, r) := UntilAny(s, {'"', '\\'});
    // `r` is empty or starts with one of the two delimiters
    if r == [] then Err(EndOfInput)
    else if r[0] == '"' then Ok(acc + chunk, r[1..])
    else ParseEscape(r[1..], acc + chunk)
  }

  /** What follows a backslash inside a string literal. An unknown escape
      letter drops only the backslash. */
  function ParseEscape(s: string, acc: string): (r: Parsed<string>)
    ensures r.Ok? ==> |r.rest| < |s|
    decreases |s|, 2
  {
    if s == [] then Err(EndOfInput)
    else match s[0]
      case 'n' => ParseStringBody(s[1..], acc + ['\n'])
      case 't' => ParseStringBody(s[1..], acc + ['\t'])
      case 'r' => ParseStringBody(s[1..], acc + ['\r'])
      case 'x' =>
        (match DecodeAscii(s[1..])
         case Err(e) => Err(e)
         case Ok(c, rest) => ParseStringBody(rest, acc + [c]))
      case 'u' =>
        (match DecodeUnicode(s[1..])
         case Err(e) => Err(e)
         case Ok(c, rest) => ParseStringBody(rest, acc + [c]))
      case '0' => ParseStringBody(s[1..], acc + ['\0'])
      case '"' => ParseStringBody(s[1..], acc + ['"'])
      case '\\' => ParseStringBody(s[1..], acc + ['\\'])
      case _ => ParseStringBody(s, acc)
  }

  /** The value of the numeral `whole[.frac]`. */
  function DecimalValue(whole: string, frac: string): real
    requires AllIn(whole, DigitChars) && AllIn(frac, DigitChars)
  {
    DigitsValue(whole) as real + DigitsValue(frac) as real / Pow10(|frac|) as real
  }

  /** A number literal read as `whole`, an optional `.`, and `frac`. */
  function NumberLiteral(whole: string, dot: bool, frac: string, rest: string): (r: Parsed<Data>)
    requires AllIn(whole, DigitChars) && AllIn(frac, DigitChars)
    requires !dot ==> frac == []
    ensures r.Ok? ==> r.rest == rest && r.value == Number(DecimalValue(whole, frac)) && (whole != [] || frac != [])
    ensures r.Err? <==> whole == [] && frac == []
    ensures r.Err? ==> r.error == Fatal(if dot then NumberParseError else ExpectedNumber)
  {
    if whole == [] && !dot then Err(Fatal(ExpectedNumber))
    else if whole == [] && frac == [] then Err(Fatal(NumberParseError))
    else Ok(Number(DecimalValue(whole, frac)), rest)
  }

  /** A literal: a string, `true`, `false`, a variable name, or a number.
      The keywords are tried before names. */
  function ParseData(s: string): (r: Parsed<Data>)
    ensures r.Ok? ==> |r.rest| < |s|
  {
    match Then(s, "\"")
    case Err(e) => Err(e)
    case Ok(true, r0) => ParseStringLiteral(r0)
    case Ok(false, _) =>
      if "true" <= s then Ok(Bool(true), s[4..])
      else if "false" <= s then Ok(Bool(false), s[5..])
      else ParseNameOrNumber(s)
  }

  /** A string literal after its opening quote. */
  function ParseStringLiteral(s: string): (r: Parsed<Data>)
    ensures r.Ok? ==> |r.rest| < |s| && r.value.Str?
  {
    match ParseStringBody(s, "")
    case Err(e) => Err(e)
    case Ok(text, rest) => Ok(Str(text), rest)
  }

  /** A variable name if one starts the input, otherwise a number. */
  function ParseNameOrNumber(s: string): (r: Parsed<Data>)
    ensures r.Ok? ==> |r.rest| < |s|
  {
    match ParseVarName(s)
    case Ok(name, rest) => Ok(Var(name), rest)
    case Err(_) => ParseNumber(s)
  }

  /** Digits, optionally a `.` and more digits. */
  function ParseNumber(s: string): (r: Parsed<Data>)
    ensures r.Ok? ==> |r.rest| < |s| && r.value.Number?
  {
    var (whole, r1) := WhileAny(s, DigitChars);
    match Then(r1, ".")
    case Err(e) => Err(e)
    case Ok(true, r2) =>
      var (frac, r3) := WhileAny(r2, DigitChars);
      NumberLiteral(whole, true, frac, r3)
    case Ok(false, _) => NumberLiteral(whole, false, [], r1)
  }

  /** Whitespace, then the literal `lit`, which is required: `missing` is
      reported when something else comes next. */
  function Expect(s: string, lit: string, missing: ParseError): (r: Parsed<()>)
    requires lit != []
    ensures r.Ok? <==> Skip(s) != [] && lit <= Skip(s)
    ensures r.Ok? ==> r.rest == Skip(s)[|lit|..] && |r.rest| < |s|
    ensures r.Err? && Skip(s) != [] ==> r.error == missing
  {
    match Then(Skip(s), lit)
    case Err(e) => Err(e)
    case Ok(false, _) => Err(missing)
    case Ok(true, r) => Ok((), r)
  }

  // ---------------------------------------------------------------------------
  // Operations

  /** `digits > NAME` once the digits are read: the target of a call or of a
      top-level statement. */
  function ParseCallTarget(digits: string, s: string): (r: Parsed<Statement>)
    requires digits != [] && AllIn(digits, DigitChars)
    ensures r.Ok? ==> |r.rest| < |s|
    ensures r.Err? ==> r.error.important || r.error.kind == ExpectedFunctionName
  {
    if DigitsValue(digits) >= ClassIdLimit then Err(Fatal(NumberParseError))
    else match Expect(s, ">", Fatal(ExpectedCall))
      case Err(e) => Err(e)
      case Ok(_, r) =>
        var (name, rest) := WhileAny(Skip(r), UpperLetters);
        if name == [] then Err(Recoverable(ExpectedFunctionName))
        else Ok(Statement(DigitsValue(digits), name), rest)
  }

  /** What follows a variable name (and whitespace) in an operation: `,` or
      `;` (left unconsumed) makes it a print; otherwise an operator. */
  function ParseAfterName(name: string, s: string): (r: Parsed<Operation>)
    ensures r.Ok? ==> |r.rest| <= |s|
  {
    if s == [] then Err(EndOfInput)
    else if s[0] == ',' || s[0] == ';' then Ok(Print(name), s)
    else match MatchOperator(s)
      case NoMatch => Err(Fatal(ExpectedOperation))
      case Matched(NotOp) => Ok(Not(name), s[1..])
      case Matched(AssignOp) => ParseAssignment(name, s[1..])
      case Matched(o) => ParseOperand(o, name, s[|Token(o)|..])
  }

  /** The literal after `name =`. */
  function ParseAssignment(name: string, s: string): (r: Parsed<Operation>)
    ensures r.Ok? ==> |r.rest| < |s| && r.value.Assign? && r.value.left == name
  {
    match ParseData(Skip(s))
    case Err(e) => Err(e)
    case Ok(d, rest) => Ok(Assign(name, d), rest)
  }

  /** The second variable after `name OP`. */
  function ParseOperand(o: Operator, name: string, s: string): (r: Parsed<Operation>)
    requires o != NotOp && o != AssignOp
    ensures r.Ok? ==> |r.rest| < |s|
  {
    match ParseVarName(Skip(s))
    case Err(e) => Err(e)
    case Ok(other, rest) => Ok(BinaryOp(o, name, other), rest)
  }

  /** One operation: a conditional, a variable operation, or a call. */
  function ParseOperation(s: string): (r: Parsed<Operation>)
    ensures r.Ok? ==> |r.rest| < |s|
    decreases |s|, 0
  {
    match Then(s, "(")
    case Err(e) => Err(e)
    case Ok(true, r0) => ParseConditional(r0)
    case Ok(false, _) =>
      var (name, r1) := WhileAny(s, LowerLetters);
      if name != [] then ParseAfterName(name, Skip(r1))
      else
        var (digits, r2) := WhileAny(s, DigitChars);
        if digits == [] then Err(Fatal(ExpectedOperation))
        else match ParseCallTarget(digits, r2)
          case Err(e) => Err(e)
          case Ok(target, rest) => Ok(Call(target.classId, target.name), rest)
  }

  /** A conditional after its `(`: the condition, then the rest. */
  function ParseConditional(s: string): (r: Parsed<Operation>)
    ensures r.Ok? ==> |r.rest| < |s|
    decreases |s|, 3
  {
    match ParseOperation(Skip(s))
    case Err(e) => Err(e)
    case Ok(cond, r1) => ParseConditionalBody(cond, r1)
  }

  /** After the condition: `)`, `?`, the block, and an optional `:` with the
      otherwise block. */
  function ParseConditionalBody(cond: Operation, s: string): (r: Parsed<Operation>)
    ensures r.Ok? ==> |r.rest| < |s|
    decreases |s|, 4
  {
    match Expect(s, ")", Fatal(ExpectedParenthesisEnd))
    case Err(e) => Err(e)
    case Ok(_, r2) =>
      match Expect(r2, "?", Fatal(ExpectedConditionalBlock))
      case Err(e) => Err(e)
      case Ok(_, r3) =>
        match ParseBlock(r3, ExpectedConditionalBlock, ExpectedConditionalBlockEnd)
        case Err(e) => Err(e)
        case Ok(inner, r4) => ParseOtherwise(cond, inner, r4)
  }

  /** The end of a conditional after its then-block: an optional `:` and the
      otherwise block. */
  function ParseOtherwise(cond: Operation, inner: seq<Operation>, s: string): (r: Parsed<Operation>)
    ensures r.Ok? ==> |r.rest| <= |s|
    decreases |s|, 5
  {
    match Then(Skip(s), ":")
    case Err(e) => Err(e)
    case Ok(false, r5) => Ok(Conditional(cond, inner, NoElse), r5)
    case Ok(true, r5) =>
      match ParseBlock(r5, ExpectedConditionalOtherwiseBlock, ExpectedConditionalOtherwiseBlockEnd)
      case Err(e) => Err(e)
      case Ok(otherwise, r6) => Ok(Conditional(cond, inner, Else(otherwise)), r6)
  }

  /** `{ ops }`, reporting `openKind` or `closeKind` when a brace is missing. */
  function ParseBlock(s: string, openKind: ErrorKind, closeKind: ErrorKind): (r: Parsed<seq<Operation>>)
    ensures r.Ok? ==> |r.rest| < |s|
    decreases |s|, 2
  {
    match Expect(s, "{", Fatal(openKind))
    case Err(e) => Err(e)
    case Ok(_, r1) =>
      match ParseOpList(r1, '}')
      case Err(e) => Err(e)
      case Ok(ops, r2) =>
        match Expect(r2, "}", Fatal(closeKind))
        case Err(e) => Err(e)
        case Ok(_, r3) => Ok(ops, r3)
  }

  /** Operations separated by `,` until `close` is next (not consumed) or an
      operation is not followed by a comma. */
  function ParseOpList(s: string, close: char): (r: Parsed<seq<Operation>>)
    ensures r.Ok? ==> |r.rest| <= |s|
    decreases |s|, 1
  {
    var r0 := Skip(s);
    match Test(r0, [close])
    case Err(e) => Err(e)
    case Ok(true, _) => Ok([], r0)
    case Ok(false, _) =>
      match ParseOperation(r0)
      case Err(e) => Err(e)
      case Ok(op, r1) =>
        match Then(Skip(r1), ",")
        case Err(e) => Err(e)
        case Ok(false, r2) => Ok([op], r2)
        case Ok(true, r2) =>
          match ParseOpList(r2, close)
          case Err(e) => Err(e)
          case Ok(ops, r3) => Ok([op] + ops, r3)
  }

  // ---------------------------------------------------------------------------
  // Functions, classes and the program

  /** `NAME : ops ;` */
  function ParseFunction(s: string): (r: Parsed<(string, Function)>)
    ensures r.Ok? ==> |r.rest| < |s|
    ensures r.Ok? ==> r.value.0 != [] && AllIn(r.value.0, UpperLetters)
  {
    var (name, r0) := WhileAny(s, UpperLetters);
    if name == [] then Err(Recoverable(ExpectedFunctionName))
    else match Expect(r0, ":", Fatal(ExpectedColon))
      case Err(e) => Err(e)
      case Ok(_, r1) =>
        match ParseOpList(r1, ';')
        case Err(e) => Err(e)
        case Ok(ops, r2) =>
          match Expect(r2, ";", Fatal(ExpectedSemiColon))
          case Err(e) => Err(e)
          case Ok(_, r3) => Ok((name, Function(ops)), r3)
  }

  /** Functions until the `;` that closes the class; `acc` holds those read so
      far, and a repeated name is a fatal error. */
  function ParseFunctions(s: string, acc: map<string, Function>): (r: Parsed<map<string, Function>>)
    ensures r.Ok? ==> |r.rest| < |s| && acc.Keys <= r.value.Keys
    decreases |s|
  {
    match Then(Skip(s), ";")
    case Err(e) => Err(e)
    case Ok(true, r0) => Ok(acc, r0)
    case Ok(false, r0) =>
      match ParseFunction(r0)
      case Err(e) => Err(e)
      case Ok((name, f), r1) =>
        if name in acc then Err(Fatal(FunctionExists(name)))
        else ParseFunctions(r1, acc[name := f])
  }

  /** `digits : functions ;` */
  function ParseClass(s: string): (r: Parsed<(ClassId, Class)>)
    ensures r.Ok? ==> |r.rest| < |s|
  {
    var (digits, r0) := WhileAny(s, DigitChars);
    if digits == [] then Err(Recoverable(ExpectedClassName))
    else match Expect(r0, ":", Recoverable(ExpectedColon))
      case Err(e) => Err(e)
      case Ok(_, r1) =>
        var id := DigitsValue(digits);
        if id >= ClassIdLimit then Err(Fatal(NumberParseError))
        else ClassFunctions(id, r1)
  }

  /** The function table of class `id`, after its colon. */
  function ClassFunctions(id: ClassId, s: string): (r: Parsed<(ClassId, Class)>)
    ensures r.Ok? ==> |r.rest| < |s| && r.value.0 == id
  {
    match ParseFunctions(s, map[])
    case Err(e) => Err(e)
    case Ok(functions, rest) => Ok((id, Class(functions)), rest)
  }

  /** A top-level `digits > NAME` statement. */
  function ParseStatement(s: string): (r: Parsed<Statement>)
    ensures r.Ok? ==> |r.rest| < |s|
    ensures r.Err? ==> r.error.important || r.error.kind == ExpectedFunctionName
  {
    var (digits, r0) := WhileAny(s, DigitChars);
    if digits == [] then Err(Fatal(ExpectedCall)) else ParseCallTarget(digits, r0)
  }

  /** The rest of the program, after the classes and statements already read.
      Each item is first tried as a class; an unimportant failure rolls back
      and reads a statement instead. A later class with the same number
      replaces an earlier one. */
  function ParseProgramFrom(s: string, classes: map<ClassId, Class>, statements: seq<Statement>): (r: Parsed<Program>)
    ensures r.Ok? ==> r.rest == [] && classes.Keys <= r.value.classes.Keys
    ensures r.Ok? ==> statements <= r.value.statements
    ensures r.Err? ==> r.error.important || r.error.kind == ExpectedFunctionName
    decreases |s|
  {
    var r0 := Skip(s);
    if r0 == [] then Ok(Program(classes, statements), [])
    else match ParseClass(r0)
      case Ok((id, c), r1) => ParseProgramFrom(r1, classes[id := c], statements)
      case Err(e) =>
        if e.important then Err(e)
        else match ParseStatement(r0)
          case Err(e2) => Err(e2)
          case Ok(st, r1) => ParseProgramFrom(r1, classes, statements + [st])
  }

  function ParseProgram(s: string): Parsed<Program> {
    ParseProgramFrom(s, map[], [])
  }
}

=== FILE: parser_facts.dfy ===
/** Properties of the parser that do not need a printer: the operator after a
    variable name is the longest token that fits, literals prefer `true` and
    `false` over names, what each string escape decodes to, the value of a
    number literal, and some inputs that are rejected. */
module ParserFacts {
  import opened Values
  import opened Syntax
  import opened Scanner
  import opened Parser
  import opened ScannerFacts

  // ---------------------------------------------------------------------------
  // Operators: maximal munch

  /** The position of an operator in the order of trial. */
  function Rank(o: Operator): (r: nat)
    ensures r < |OperatorOrder| && OperatorOrder[r] == o
  {
    match o
    case EqOp => 0
    case GeOp => 1
    case LeOp => 2
    case GtOp => 3
    case LtOp => 4
    case NeOp => 5
    case NotOp => 6
    case OrOp => 7
    case AndOp => 8
    case AssignOp => 9
    case AddOp => 10
    case SubOp => 11
    case MulOp => 12
    case ModOp => 13
    case DivOp => 14
  }

  lemma TokenInjective(a: Operator, b: Operator)
    ensures Token(a) == Token(b) <==> a == b
  {
  }

  /** The only tokens that extend another are the two-character ones, and
      each is tried before the token it extends. */
  lemma LongerTriedFirst(a: Operator, b: Operator)
    requires Token(a) < Token(b)
    ensures Rank(b) < Rank(a)
  {
    assert |Token(a)| == 1 && |Token(b)| == 2;
    assert Token(a) == [Token(b)[0]];
  }

  /** Each position of the order holds the operator of that rank. */
  lemma RankOfOrder(k: nat)
    requires k < |OperatorOrder|
    ensures Rank(OperatorOrder[k]) == k
  {
  }

  /** The position of the first operator at or after `k` in `order` whose
      token starts `s`, or `|order|` when there is none. */
  function FirstFit(s: string, order: seq<Operator>, k: nat): (i: nat)
    requires k <= |order|
    ensures k <= i <= |order|
    ensures i < |order| ==> Token(order[i]) <= s
    ensures forall j | k <= j < i :: !(Token(order[j]) <= s)
    decreases |order| - k
  {
    if k == |order| || Token(order[k]) <= s then k else FirstFit(s, order, k + 1)
  }

  /** Trying a suffix of any operator list finds the first fitting one. */
  lemma {:induction false} FirstMatchIsFirstFit(s: string, order: seq<Operator>, k: nat)
    requires k <= |order|
    ensures FirstMatch(s, order[k..])
         == if FirstFit(s, order, k) < |order| then Matched(order[FirstFit(s, order, k)]) else NoMatch
    decreases |order| - k
  {
    if k < |order| {
      assert order[k..][0] == order[k] && order[k..][1..] == order[k + 1..];
      FirstMatchIsFirstFit(s, order, k + 1);
    }
  }

  /** What trying the operators from position `k` on finds: the first that
      fits, with none before it fitting. */
  lemma FirstMatchFrom(s: string, k: nat)
    requires k <= |OperatorOrder|
    ensures var m := FirstMatch(s, OperatorOrder[k..]);
      m.Matched? ==> k <= Rank(m.op) && forall j | k <= j < Rank(m.op) :: !(Token(OperatorOrder[j]) <= s)
    ensures FirstMatch(s, OperatorOrder[k..]).NoMatch? ==>
      forall j | k <= j < |OperatorOrder| :: !(Token(OperatorOrder[j]) <= s)
  {
    FirstMatchIsFirstFit(s, OperatorOrder, k);
    var i := FirstFit(s, OperatorOrder, k);
    if i < |OperatorOrder| {
      RankOfOrder(i);
    }
  }

  /** Of two tokens that both start `s`, the one tried later is not longer. */
  lemma NoLongerTokenLater(a: Operator, b: Operator, s: string)
    requires Token(a) <= s && Token(b) <= s && Rank(a) <= Rank(b)
    ensures |Token(b)| <= |Token(a)|
  {
    if |Token(b)| > |Token(a)| {
      assert Token(a) == s[..|Token(a)|] == Token(b)[..|Token(a)|];
      LongerTriedFirst(a, b);
      assert false;
    }
  }

  /** The operator read after a variable name is the longest operator token
      that starts the input, and nothing is read when none does. */
  lemma MatchOperatorIsLongest(s: string)
    ensures MatchOperator(s).Matched? ==> Token(MatchOperator(s).op) <= s
    ensures MatchOperator(s).Matched? ==> forall o: Operator | Token(o) <= s :: |Token(o)| <= |Token(MatchOperator(s).op)|
    ensures MatchOperator(s).NoMatch? <==> forall o: Operator :: !(Token(o) <= s)
  {
    FirstMatchFrom(s, 0);
    assert OperatorOrder[0..] == OperatorOrder;
    var m := MatchOperator(s);
    if m.Matched? {
      forall o: Operator | Token(o) <= s
        ensures |Token(o)| <= |Token(m.op)|
      {
        assert OperatorOrder[Rank(o)] == o;
        NoLongerTokenLater(m.op, o, s);
      }
    } else {
      forall o: Operator ensures !(Token(o) <= s) {
        assert OperatorOrder[Rank(o)] == o;
      }
    }
  }

  /** The characters that extend a one-character token into a longer one. */
  const Extenders: set<char> := {'=', '/'}

  /** The second character of a two-character token extends a shorter one. */
  lemma SecondCharExtends(m: Operator)
    requires |Token(m)| == 2
    ensures Token(m)[1] in Extenders
  {
  }

  /** A token at least as long as `o`'s that fits `Token(o) + x`, where `x`
      does not extend `o`, is `o`'s token. */
  lemma TokenFitsExactly(o: Operator, m: Operator, x: string)
    requires x == [] || x[0] !in Extenders
    requires Token(m) <= Token(o) + x && |Token(o)| <= |Token(m)|
    ensures m == o
  {
    var s := Token(o) + x;
    assert 1 <= |Token(o)| <= |Token(m)| <= 2;
    if |Token(m)| == 2 {
      SecondCharExtends(m);
      assert Token(m)[1] == s[1];
      assert |Token(o)| == 2;
    }
    assert |Token(m)| == |Token(o)|;
    assert Token(m) == s[..|Token(m)|] == Token(o);
    TokenInjective(m, o);
  }

  /** A token followed by anything that does not extend it is read as itself. */
  lemma MatchOperatorToken(o: Operator, x: string)
    requires x == [] || x[0] !in Extenders
    ensures MatchOperator(Token(o) + x) == Matched(o)
  {
    var s := Token(o) + x;
    assert Token(o) <= s;
    MatchOperatorIsLongest(s);
    TokenFitsExactly(o, MatchOperator(s).op, x);
  }

  // ---------------------------------------------------------------------------
  // Literals

  /** `true` and `false` are tried before names: a name that starts with them
      cannot be read back as a name. */
  lemma KeywordBeatsName(rest: string)
    ensures ParseData("true" + rest) == Ok(Bool(true), rest)
    ensures ParseData("false" + rest) == Ok(Bool(false), rest)
  {
    ThenMiss("true" + rest, "\"");
    assert "true" <= "true" + rest && ("true" + rest)[4..] == rest;
    ThenMiss("false" + rest, "\"");
    assert !("true" <= "false" + rest);
    assert "false" <= "false" + rest && ("false" + rest)[5..] == rest;
  }

  /** Text with neither a quote nor a backslash. */
  predicate Plain(t: string) {
    forall i | 0 <= i < |t| :: t[i] != '"' && t[i] != '\\'
  }

  /** A run of plain characters, then the closing quote. */
  lemma ChunkThenQuote(chunk: string, rest: string, acc: string)
    requires Plain(chunk)
    ensures ParseStringBody(chunk + ("\"" + rest), acc) == Ok(acc + chunk, rest)
  {
    UntilAnyExact(chunk, "\"" + rest, {'"', '\\'});
  }

  /** A run of plain characters, then a backslash. */
  lemma ChunkThenEscape(chunk: string, s: string, acc: string)
    requires Plain(chunk)
    ensures ParseStringBody(chunk + ("\\" + s), acc) == ParseEscape(s, acc + chunk)
  {
    UntilAnyExact(chunk, "\\" + s, {'"', '\\'});
  }

  /** The letters that have a meaning after a backslash. */
  const EscapeLetters: set<char> := {'n', 't', 'r', 'x', 'u', '0', '"', '\\'}

  /** After a backslash, a letter with no escape meaning is read as itself. */
  lemma UnknownEscape(c: char, s: string, acc: string)
    requires c !in EscapeLetters
    ensures ParseEscape([c] + s, acc) == ParseStringBody([c] + s, acc)
  {
  }

  /** An unknown escape drops the backslash and keeps the letter. */
  lemma UnknownEscapeKeepsLetter(pre: string, c: char, post: string, rest: string)
    requires Plain(pre) && Plain(post) && c !in EscapeLetters
    ensures ParseData("\"" + (pre + ("\\" + ([c] + (post + ("\"" + rest))))))
      == Ok(Str(pre + [c] + post), rest)
  {
    var body := [c] + (post + ("\"" + rest));
    ThenHit("\"", pre + ("\\" + body));
    ChunkThenEscape(pre, body, "");
    UnknownEscape(c, post + ("\"" + rest), "" + pre);
    assert body == ([c] + post) + ("\"" + rest);
    ChunkThenQuote([c] + post, rest, "" + pre);
    assert "" + pre + ([c] + post) == pre + [c] + post;
  }

  /** `\x` takes two hex digits. */
  lemma AsciiEscapeDecodes(rest: string)
    ensures DecodeAscii("41" + rest) == Ok('A', rest)
  {
    var ds := ("41" + rest)[..2];
    assert ds == "41" && ("41" + rest)[2..] == rest;
    assert HexValue("4") == 4 by {
      assert "4"[..0] == [];
    }
    assert HexValue(ds) == 65;
  }

  /** `\u{...}` takes one to six hex digits naming a scalar value. */
  lemma UnicodeEscapeDecodes(rest: string)
    ensures DecodeUnicode("{1F600}" + rest) == Ok('\U{1F600}', rest)
  {
    assert "{1F600}" + rest == "{" + ("1F600}" + rest);
    ThenHit("{", "1F600}" + rest);
    assert AllIn("1F600", HexDigitChars);
    assert "1F600}" + rest == "1F600" + ['}'] + rest;
    UntilCountedExact("1F600", rest, '}', 6);
    assert HexValue("1F600") == 0x1F600 by {
      assert "1" == [] + ['1'] && "1F" == "1" + ['F'] && "1F6" == "1F" + ['6'];
      assert "1F60" == "1F6" + ['0'] && "1F600" == "1F60" + ['0'];
      HexValueSnoc([], '1');
      HexValueSnoc("1", 'F');
      HexValueSnoc("1F", '6');
      HexValueSnoc("1F6", '0');
      HexValueSnoc("1F60", '0');
    }
  }

  /** A surrogate code point is not a character. */
  lemma SurrogateEscapeRejected(rest: string)
    ensures DecodeUnicode("{D800}" + rest) == Err(Fatal(InvalidUnicodeEscape))
  {
    assert "{D800}" + rest == "{" + ("D800}" + rest);
    ThenHit("{", "D800}" + rest);
    assert AllIn("D800", HexDigitChars);
    assert "D800}" + rest == "D800" + ['}'] + rest;
    UntilCountedExact("D800", rest, '}', 6);
    assert HexValue("D800") == 0xD800 by {
      assert "D" == [] + ['D'] && "D8" == "D" + ['8'] && "D80" == "D8" + ['0'] && "D800" == "D80" + ['0'];
      HexValueSnoc([], 'D');
      HexValueSnoc("D", '8');
      HexValueSnoc("D8", '0');
      HexValueSnoc("D80", '0');
    }
  }

  /** `\u{}` has no digits, which the number conversion rejects. */
  lemma EmptyUnicodeEscapeRejected(rest: string)
    ensures DecodeUnicode("{}" + rest) == Err(Fatal(NumberParseError))
  {
    ThenHit("{", "}" + rest);
    assert "}" + rest == [] + ['}'] + rest;
    UntilCountedExact([], rest, '}', 6);
  }

  /** The letters that stand for one character after a backslash. */
  const SimpleEscapeLetters: set<char> := {'n', 't', 'r', '0', '"', '\\'}

  /** The character a one-letter escape stands for. */
  function SimpleEscape(c: char): char
    requires c in SimpleEscapeLetters
  {
    match c
    case 'n' => '\n'
    case 't' => '\t'
    case 'r' => '\r'
    case '0' => '\0'
    case _ => c
  }

  /** After a backslash, a one-letter escape adds the character it stands for
      and reading goes on after the letter. */
  lemma SimpleEscapeAt(c: char, s: string, acc: string)
    requires c in SimpleEscapeLetters
    ensures ParseEscape([c] + s, acc) == ParseStringBody(s, acc + [SimpleEscape(c)])
  {
    var t := [c] + s;
    assert t[0] == c && t[1..] == s;
    match c
    case 'n' => assert ParseEscape(t, acc) == ParseStringBody(s, acc + ['\n']);
    case 't' => assert ParseEscape(t, acc) == ParseStringBody(s, acc + ['\t']);
    case 'r' => assert ParseEscape(t, acc) == ParseStringBody(s, acc + ['\r']);
    case '0' => assert ParseEscape(t, acc) == ParseStringBody(s, acc + ['\0']);
    case '"' => assert ParseEscape(t, acc) == ParseStringBody(s, acc + ['"']);
    case '\\' => assert ParseEscape(t, acc) == ParseStringBody(s, acc + ['\\']);
  }

  /** A one-letter escape inside a string literal. */
  lemma SimpleEscapeDecodes(chunk: string, c: char, s: string, acc: string)
    requires Plain(chunk) && c in SimpleEscapeLetters
    ensures ParseStringBody(chunk + ("\\" + ([c] + s)), acc) == ParseStringBody(s, acc + chunk + [SimpleEscape(c)])
  {
    ChunkThenEscape(chunk, [c] + s, acc);
    SimpleEscapeAt(c, s, acc + chunk);
  }

  /** Any two hex digits after `\x` make the character with that code. */
  lemma AsciiEscapeValue(h1: char, h2: char, rest: string)
    requires h1 in HexDigitChars && h2 in HexDigitChars
    ensures DecodeAscii([h1, h2] + rest) == Ok((HexDigitValue(h1) * 16 + HexDigitValue(h2)) as char, rest)
  {
    var s := [h1, h2] + rest;
    assert s[..2] == [h1, h2] && s[2..] == rest;
    assert [h1] == [] + [h1] && [h1, h2] == [h1] + [h2];
    HexValueSnoc([], h1);
    HexValueSnoc([h1], h2);
  }

  /** After a backslash, `x` decodes a character and reading goes on after
      it. */
  lemma AsciiEscapeAt(t: string, c: char, rest: string, acc: string)
    requires DecodeAscii(t) == Ok(c, rest)
    ensures ParseEscape(['x'] + t, acc) == ParseStringBody(rest, acc + [c])
  {
    assert (['x'] + t)[0] == 'x' && (['x'] + t)[1..] == t;
  }

  /** After a backslash, `u` decodes a character and reading goes on after
      it. */
  lemma UnicodeEscapeAt(t: string, c: char, rest: string, acc: string)
    requires DecodeUnicode(t) == Ok(c, rest)
    ensures ParseEscape(['u'] + t, acc) == ParseStringBody(rest, acc + [c])
  {
    assert (['u'] + t)[0] == 'u' && (['u'] + t)[1..] == t;
  }

  /** A `\x` escape inside a string literal adds the character it names. */
  lemma AsciiEscapeInString(chunk: string, h1: char, h2: char, s: string, acc: string)
    requires Plain(chunk) && h1 in HexDigitChars && h2 in HexDigitChars
    ensures ParseStringBody(chunk + ("\\x" + ([h1, h2] + s)), acc)
      == ParseStringBody(s, acc + chunk + [(HexDigitValue(h1) * 16 + HexDigitValue(h2)) as char])
  {
    assert "\\x" + ([h1, h2] + s) == "\\" + (['x'] + ([h1, h2] + s));
    ChunkThenEscape(chunk, ['x'] + ([h1, h2] + s), acc);
    AsciiEscapeValue(h1, h2, s);
    AsciiEscapeAt([h1, h2] + s, (HexDigitValue(h1) * 16 + HexDigitValue(h2)) as char, s, acc + chunk);
  }

  /** Two characters after `\x` that are not both hex digits are an error. */
  lemma AsciiEscapeNonHex(ds: string, rest: string)
    requires |ds| == 2 && !AllIn(ds, HexDigitChars)
    ensures DecodeAscii(ds + rest) == Err(Fatal(InvalidAsciiEscape))
  {
    assert (ds + rest)[..2] == ds;
  }

  /** One to six hex digits in braces after `\u` make the character with that
      code, if there is one. */
  lemma UnicodeEscapeValue(ds: string, rest: string)
    requires 1 <= |ds| <= 6 && AllIn(ds, HexDigitChars)
    ensures DecodeUnicode("{" + ds + "}" + rest)
      == if IsScalarValue(HexValue(ds)) then Ok(HexValue(ds) as char, rest) else Err(Fatal(InvalidUnicodeEscape))
  {
    assert "{" + ds + "}" + rest == "{" + (ds + ['}'] + rest);
    ThenHit("{", ds + ['}'] + rest);
    UntilCountedExact(ds, rest, '}', 6);
  }

  /** A `\u` escape naming a scalar value inside a string literal adds that
      character. */
  lemma UnicodeEscapeInString(chunk: string, ds: string, s: string, acc: string)
    requires Plain(chunk) && 1 <= |ds| <= 6 && AllIn(ds, HexDigitChars) && IsScalarValue(HexValue(ds))
    ensures ParseStringBody(chunk + ("\\u" + ("{" + ds + "}" + s)), acc)
      == ParseStringBody(s, acc + chunk + [HexValue(ds) as char])
  {
    assert "\\u" + ("{" + ds + "}" + s) == "\\" + (['u'] + ("{" + ds + "}" + s));
    ChunkThenEscape(chunk, ['u'] + ("{" + ds + "}" + s), acc);
    UnicodeEscapeValue(ds, s);
    UnicodeEscapeAt("{" + ds + "}" + s, HexValue(ds) as char, s, acc + chunk);
  }

  /** Braces holding up to six characters that are not all hex digits are an
      error. */
  lemma UnicodeEscapeNonHex(ds: string, rest: string)
    requires |ds| <= 6 && (forall i | 0 <= i < |ds| :: ds[i] != '}') && !AllIn(ds, HexDigitChars)
    ensures DecodeUnicode("{" + ds + "}" + rest) == Err(Fatal(InvalidUnicodeEscape))
  {
    assert "{" + ds + "}" + rest == "{" + (ds + ['}'] + rest);
    ThenHit("{", ds + ['}'] + rest);
    UntilCountedExact(ds, rest, '}', 6);
  }

  /** `\u` must be followed by a brace. */
  lemma UnicodeEscapeNeedsBrace(s: string)
    requires s != [] && s[0] != '{'
    ensures DecodeUnicode(s) == Err(Fatal(InvalidUnicodeEscape))
  {
    ThenMiss(s, "{");
  }

  lemma DecimalValueExample()
    ensures DecimalValue("3", "25") == 3.25
  {
    assert DigitsValue("3") == 3 by {
      assert "3" == [] + ['3'];
      DigitsValueSnoc([], '3');
    }
    assert DigitsValue("25") == 25 by {
      assert "2" == [] + ['2'] && "25" == "2" + ['5'];
      DigitsValueSnoc([], '2');
      DigitsValueSnoc("2", '5');
    }
    assert Pow10(|"25"|) == 100;
  }

  /** Digits, a dot and more digits make one number literal. */
  lemma FractionStep(whole: string, frac: string, rest: string)
    requires AllIn(whole, DigitChars) && AllIn(frac, DigitChars)
    requires rest == [] || rest[0] !in DigitChars
    ensures ParseNumber(whole + ("." + (frac + rest))) == NumberLiteral(whole, true, frac, rest)
  {
    WhileAnyExact(whole, "." + (frac + rest), DigitChars);
    ThenHit(".", frac + rest);
    WhileAnyExact(frac, rest, DigitChars);
  }

  lemma DecimalNumber(rest: string)
    requires rest != [] && rest[0] !in DigitChars
    ensures ParseNumber("3.25" + rest) == Ok(Number(3.25), rest)
  {
    assert "3.25" + rest == "3" + ("." + ("25" + rest));
    FractionStep("3", "25", rest);
    DecimalValueExample();
  }

  /** A number with a fractional part. */
  lemma DecimalLiteral(rest: string)
    requires rest != [] && rest[0] !in DigitChars
    ensures ParseData("3.25" + rest) == Ok(Number(3.25), rest)
  {
    var s := "3.25" + rest;
    ThenMiss(s, "\"");
    assert !("true" <= s) && !("false" <= s);
    assert ParseVarName(s).Err?;
    DecimalNumber(rest);
  }

  /** A lone dot is not a number. */
  lemma DotAloneRejected(rest: string)
    requires rest != [] && rest[0] !in DigitChars
    ensures ParseData("." + rest) == Err(Fatal(NumberParseError))
  {
    var s := "." + rest;
    ThenMiss(s, "\"");
    WhileAnyNone(s, DigitChars);
    ThenHit(".", rest);
    WhileAnyNone(rest, DigitChars);
  }

  // ---------------------------------------------------------------------------
  // Inputs that are rejected

  /** No operator token starts with `)`. */
  lemma TokenHead(o: Operator)
    ensures Token(o) != [] && Token(o)[0] != ')'
  {
  }

  lemma ParenIsNoToken(rest: string)
    ensures MatchOperator(")" + rest) == NoMatch
  {
    var after := ")" + rest;
    forall o: Operator ensures !(Token(o) <= after) {
      TokenHead(o);
    }
    MatchOperatorIsLongest(after);
  }

  lemma ParenIsNoOperator(name: string, rest: string)
    ensures ParseAfterName(name, ")" + rest) == Err(Fatal(ExpectedOperation))
  {
    ParenIsNoToken(rest);
  }

  /** A variable followed by `)` is not an operation. */
  lemma NameThenParenRejected(name: string, rest: string)
    requires name != [] && AllIn(name, LowerLetters)
    ensures ParseOperation(name + ")" + rest) == Err(Fatal(ExpectedOperation))
  {
    var after := ")" + rest;
    assert name + ")" + rest == name + after;
    ThenMiss(name + after, "(");
    WhileAnyExact(name, after, LowerLetters);
    SkipNothing(after);
    ParenIsNoOperator(name, rest);
  }

  /** A variable followed by `)` is not an operation, so a variable on its own
      cannot be a condition: `(x)?{...}` is rejected. */
  lemma BareVariableConditionRejected(name: string, rest: string)
    requires name != [] && AllIn(name, LowerLetters)
    ensures ParseOperation("(" + name + ")" + rest) == Err(Fatal(ExpectedOperation))
  {
    var inner := name + ")" + rest;
    assert "(" + name + ")" + rest == "(" + inner;
    ThenHit("(", inner);
    SkipNothing(inner);
    NameThenParenRejected(name, rest);
  }

  /** Running out of input where a statement or class was expected. */
  lemma TruncatedClassRejected()
    ensures ParseProgram("1") == Err(EndOfInput)
  {
  }
}

=== FILE: render.dfy ===
/** A printer for the language: the text the parser reads back as a given
    program. It prints every operation, function, class and statement, but
    only the literals that have a source form: `None` has none, and a number
    is printed as its whole decimal numeral, so negative and fractional
    numbers are not printed. */
module Render {
  import opened Values
  import opened Syntax
  import opened Scanner
  import opened Parser

  // ---------------------------------------------------------------------------
  // Numerals and literals

  function DigitChar(n: nat): (c: char)
    requires n < 10
    ensures c in DigitChars && DigitValue(c) == n
  {
    ('0' as int + n) as char
  }

  /** The decimal numeral of `n`, without leading zeros. */
  function NatDigits(n: nat): (r: string)
    ensures r != [] && AllIn(r, DigitChars)
    ensures DigitsValue(r) == n
  {
    if n < 10 then
      var r := [DigitChar(n)];
      assert r[..0] == [];
      r
    else
      var ds := NatDigits(n / 10);
      var r := ds + [DigitChar(n % 10)];
      assert r[..|r| - 1] == ds;
      r
  }

  /** The body of a string literal: `"` and `\` are escaped with a backslash,
      every other character stands for itself. */
  function Escape(t: string): (r: string)
    ensures |r| >= |t|
  {
    if t == [] then []
    else if t[0] == '"' || t[0] == '\\' then ['\\', t[0]] + Escape(t[1..])
    else [t[0]] + Escape(t[1..])
  }

  /** A variable name as an operation reads it: one or more lower-case
      letters. */
  predicate NameOk(name: string) {
    name != [] && AllIn(name, LowerLetters)
  }

  /** A variable name as a literal reads it back: a name that does not start
      with a keyword (a literal starting with one is read as a boolean). */
  predicate VarNameOk(name: string) {
    NameOk(name) && !("true" <= name) && !("false" <= name)
  }

  predicate FunctionNameOk(name: string) {
    name != [] && AllIn(name, UpperLetters)
  }

  /** The literals that have a source form. */
  predicate DataOk(d: Data) {
    match d
    case Var(name) => VarNameOk(name)
    case Number(x) => x >= 0.0 && x.Floor as real == x
    case Str(_) => true
    case Bool(_) => true
    case None => false
  }

  function RenderData(d: Data): (r: string)
    requires DataOk(d)
    ensures r != [] && (r[0] == '"' || r[0] in LowerLetters || r[0] in DigitChars)
  {
    match d
    case Var(name) => name
    case Number(x) => NatDigits(x.Floor)
    case Str(t) => "\"" + Escape(t) + "\""
    case Bool(b) => if b then "true" else "false"
  }

  // ---------------------------------------------------------------------------
  // Operations

  /** The operations written `a OP b`. */
  predicate IsBinary(op: Operation) {
    IsArithmetic(op) || IsComparison(op) || op.And? || op.Or?
  }

  /** The operator token of a two-variable operation. */
  function BinaryOperator(op: Operation): (o: Operator)
    requires IsBinary(op)
    ensures o != NotOp && o != AssignOp
    ensures BinaryOp(o, op.left, op.right) == op
  {
    match op
    case Add(_, _) => AddOp
    case Sub(_, _) => SubOp
    case Mul(_, _) => MulOp
    case Div(_, _) => DivOp
    case Mod(_, _) => ModOp
    case Equal(_, _) => EqOp
    case NotEqual(_, _) => NeOp
    case Greater(_, _) => GtOp
    case Less(_, _) => LtOp
    case GreaterEqual(_, _) => GeOp
    case LessEqual(_, _) => LeOp
    case And(_, _) => AndOp
    case Or(_, _) => OrOp
  }

  /** The operations the parser can read back: names of the right shape,
      literals with a source form, and no conditional whose condition is a
      bare variable (a print), which the parser rejects. */
  predicate OpOk(op: Operation)
    decreases OpSize(op), 0
  {
    match op
    case Assign(a, d) => NameOk(a) && DataOk(d)
    case Not(a) => NameOk(a)
    case Print(a) => NameOk(a)
    case Call(_, name) => FunctionNameOk(name)
    case Conditional(c, inner, otherwise) =>
      !c.Print? && OpOk(c) && OpsOk(inner) && ElseOk(otherwise)
    case _ => NameOk(op.left) && NameOk(op.right)
  }

  predicate OpsOk(ops: seq<Operation>)
    decreases OpsSize(ops), 1
  {
    ops == [] || (OpOk(ops[0]) && OpsOk(ops[1..]))
  }

  predicate ElseOk(e: Else)
    decreases ElseSize(e), 2
  {
    match e
    case NoElse => true
    case Else(ops) => OpsOk(ops)
  }

  function RenderOp(op: Operation): (r: string)
    requires OpOk(op)
    ensures r != [] && (r[0] in LowerLetters || r[0] in DigitChars || r[0] == '(')
    decreases OpSize(op), 0
  {
    match op
    case Assign(a, d) => a + "=" + RenderData(d)
    case Not(a) => a + "!"
    case Print(a) => a
    case Call(c, name) => NatDigits(c) + ">" + name
    case Conditional(c, inner, otherwise) =>
      "(" + (RenderOp(c) + (")" + ("?" + ("{" + (RenderOps(inner) + ("}" + RenderElse(otherwise)))))))
    case _ => op.left + Token(BinaryOperator(op)) + op.right
  }

  /** Each operation followed by a comma. */
  function RenderOps(ops: seq<Operation>): string
    requires OpsOk(ops)
    decreases OpsSize(ops), 1
  {
    if ops == [] then "" else RenderOp(ops[0]) + "," + RenderOps(ops[1..])
  }

  function RenderElse(e: Else): string
    requires ElseOk(e)
    decreases ElseSize(e), 2
  {
    match e
    case NoElse => ""
    case Else(ops) => ":{" + RenderOps(ops) + "}"
  }

  // ---------------------------------------------------------------------------
  // Functions, classes, programs

  /** A function as it is written: its name and its body. A class is written
      as a list of these, since the text fixes an order the map forgets. */
  datatype Named = Named(name: string, body: Function)

  predicate NamedOk(f: Named) {
    FunctionNameOk(f.name) && OpsOk(f.body.operations)
  }

  predicate NamedsOk(fs: seq<Named>) {
    forall i | 0 <= i < |fs| :: NamedOk(fs[i])
  }

  function RenderFunction(f: Named): string
    requires NamedOk(f)
  {
    f.name + ":" + RenderOps(f.body.operations) + ";"
  }

  function RenderFunctions(fs: seq<Named>): string
    requires NamedsOk(fs)
  {
    if fs == [] then "" else RenderFunction(fs[0]) + RenderFunctions(fs[1..])
  }

  /** The names of the listed functions, in order. */
  function Names(fs: seq<Named>): (r: seq<string>)
    ensures |r| == |fs| && forall i | 0 <= i < |fs| :: r[i] == fs[i].name
  {
    if fs == [] then [] else [fs[0].name] + Names(fs[1..])
  }

  /** No name is listed twice. */
  predicate Distinct(names: seq<string>) {
    forall i, j | 0 <= i < j < |names| :: names[i] != names[j]
  }

  /** The listed names are distinct and none is in `acc` yet: entering them
      one after another never meets a name already there. */
  predicate NewNames(fs: seq<Named>, acc: map<string, Function>) {
    Distinct(Names(fs)) && forall i | 0 <= i < |fs| :: fs[i].name !in acc
  }

  /** The function table built by entering `fs` one after another into `acc`. */
  function Enter(acc: map<string, Function>, fs: seq<Named>): (r: map<string, Function>)
    ensures forall n :: n in r <==> n in acc || n in Names(fs)
    decreases |fs|
  {
    if fs == [] then acc else Enter(acc[fs[0].name := fs[0].body], fs[1..])
  }

  /** A top-level item: a class definition or a statement. */
  datatype Item =
    | ClassItem(id: ClassId, functions: seq<Named>)
    | StatementItem(statement: Statement)

  predicate ItemOk(it: Item) {
    match it
    case ClassItem(_, fs) => NamedsOk(fs) && Distinct(Names(fs))
    case StatementItem(st) => FunctionNameOk(st.name)
  }

  predicate ItemsOk(items: seq<Item>) {
    forall i | 0 <= i < |items| :: ItemOk(items[i])
  }

  function RenderItem(it: Item): (r: string)
    requires ItemOk(it)
    ensures r != [] && r[0] in DigitChars
  {
    match it
    case ClassItem(id, fs) => NatDigits(id) + ":" + RenderFunctions(fs) + ";"
    case StatementItem(st) => NatDigits(st.classId) + ">" + st.name
  }

  function RenderItems(items: seq<Item>): string
    requires ItemsOk(items)
  {
    if items == [] then "" else RenderItem(items[0]) + RenderItems(items[1..])
  }

  /** The program the items describe, added to `prog`: each class replaces any
      earlier class with the same number, statements keep their order. */
  function Build(prog: Program, items: seq<Item>): (r: Program)
    ensures prog.statements <= r.statements
    ensures prog.classes.Keys <= r.classes.Keys
    decreases |items|
  {
    if items == [] then prog
    else match items[0]
      case ClassItem(id, fs) =>
        Build(Program(prog.classes[id := Class(Enter(map[], fs))], prog.statements), items[1..])
      case StatementItem(st) =>
        Build(Program(prog.classes, prog.statements + [st]), items[1..])
  }
}

=== FILE: round_trip.dfy ===
/** The parser reads back what the printer writes: for every construct with a
    source form, parsing its text (followed by what may legally come next)
    gives the construct itself and leaves the rest of the input. At the
    program level this states what a parse builds: later classes replace
    earlier ones with the same number, statements keep their order, and a
    repeated function name in one class is rejected. */
module RoundTrip {
  import opened Values
  import opened Syntax
  import opened Scanner
  import opened Parser
  import opened Render
  import opened ScannerFacts
  import opened ParserFacts
  import opened ParseSteps

  // ---------------------------------------------------------------------------
  // Literals

  /** One character of the text, escaped or not, is read into the result. */
  lemma FirstCharShifts(t: string, q: string, acc: string)
    requires t != []
    ensures ParseStringBody(Escape(t) + q, acc) == ParseStringBody(Escape(t[1..]) + q, acc + [t[0]])
  {
    var tail := Escape(t[1..]) + q;
    if t[0] == '"' || t[0] == '\\' {
      assert Escape(t) + q == ['\\', t[0]] + tail;
      EscapedCharShifts(t[0], tail, acc);
    } else {
      assert Escape(t) + q == [t[0]] + tail;
      PlainCharShifts(t[0], tail, acc);
    }
  }

  lemma {:induction false} StringBodyRoundTrip(t: string, acc: string, rest: string)
    ensures ParseStringBody(Escape(t) + ("\"" + rest), acc) == Ok(acc + t, rest)
    decreases |t|
  {
    if t == [] {
      assert Escape(t) + ("\"" + rest) == "\"" + rest;
      ClosingQuote(acc, rest);
      assert acc + t == acc;
    } else {
      FirstCharShifts(t, "\"" + rest, acc);
      StringBodyRoundTrip(t[1..], acc + [t[0]], rest);
      AppendHeadTail(acc, t);
    }
  }

  lemma StringRoundTrip(t: string, rest: string)
    ensures ParseData(RenderData(Str(t)) + rest) == Ok(Str(t), rest)
  {
    var x := Escape(t) + ("\"" + rest);
    assert RenderData(Str(t)) + rest == "\"" + x;
    ThenHit("\"", x);
    StringBodyRoundTrip(t, "", rest);
    assert "" + t == t;
  }

  lemma VarRoundTrip(name: string, rest: string)
    requires VarNameOk(name) && Delimited(rest)
    ensures ParseData(RenderData(Var(name)) + rest) == Ok(Var(name), rest)
  {
    var s := name + rest;
    assert s[0] == name[0] && name[0] in LowerLetters;
    ThenMiss(s, "\"");
    assert AllIn("true", LowerLetters) && AllIn("false", LowerLetters);
    NoKeywordAcross("true", name, rest);
    NoKeywordAcross("false", name, rest);
    WhileAnyExact(name, rest, LowerLetters);
  }

  /** A numeral without a fraction reads as its whole value. */
  lemma NumeralRoundTrip(n: nat, rest: string)
    requires Delimited(rest)
    ensures ParseNumber(NatDigits(n) + rest) == Ok(Number(n as real), rest)
  {
    var ds := NatDigits(n);
    WhileAnyExact(ds, rest, DigitChars);
    ThenMiss(rest, ".");
    assert DecimalValue(ds, []) == n as real;
  }

  lemma NumberRoundTrip(n: nat, rest: string)
    requires Delimited(rest)
    ensures ParseData(NatDigits(n) + rest) == Ok(Number(n as real), rest)
  {
    var ds := NatDigits(n);
    var s := ds + rest;
    assert s[0] == ds[0] && ds[0] in DigitChars;
    ThenMiss(s, "\"");
    assert !("true" <= s) && !("false" <= s);
    WhileAnyNone(s, LowerLetters);
    NumeralRoundTrip(n, rest);
  }

  /** Every literal with a source form is read back as itself. */
  lemma DataRoundTrip(d: Data, rest: string)
    requires DataOk(d) && Delimited(rest)
    ensures ParseData(RenderData(d) + rest) == Ok(d, rest)
  {
    match d
    case Var(name) => VarRoundTrip(name, rest);
    case Number(x) => NumberRoundTrip(x.Floor, rest);
    case Str(t) => StringRoundTrip(t, rest);
    case Bool(b) => KeywordBeatsName(rest);
  }

  // ---------------------------------------------------------------------------
  // Operations

  lemma BinaryShape(op: Operation, rest: string)
    requires IsBinary(op) && NameOk(op.left) && NameOk(op.right)
    ensures RenderOp(op) + rest == op.left + Token(BinaryOperator(op)) + op.right + rest
  {
  }

  lemma BinaryRoundTrip(op: Operation, rest: string)
    requires IsBinary(op) && NameOk(op.left) && NameOk(op.right) && Delimited(rest)
    ensures ParseOperation(RenderOp(op) + rest) == Ok(op, rest)
  {
    BinaryShape(op, rest);
    BinaryStep(BinaryOperator(op), op.left, op.right, rest);
  }

  lemma NotShape(a: string, rest: string)
    requires NameOk(a)
    ensures RenderOp(Not(a)) + rest == a + ("!" + rest)
  {
  }

  lemma NotRoundTrip(a: string, rest: string)
    requires NameOk(a) && Delimited(rest)
    ensures ParseOperation(RenderOp(Not(a)) + rest) == Ok(Not(a), rest)
  {
    NotShape(a, rest);
    NotStep(a, rest);
  }

  lemma AssignShape(a: string, d: Data, rest: string)
    requires NameOk(a) && DataOk(d)
    ensures RenderOp(Assign(a, d)) + rest == a + ("=" + (RenderData(d) + rest))
  {
  }

  lemma AssignRoundTrip(a: string, d: Data, rest: string)
    requires NameOk(a) && DataOk(d) && Delimited(rest)
    ensures ParseOperation(RenderOp(Assign(a, d)) + rest) == Ok(Assign(a, d), rest)
  {
    AssignShape(a, d, rest);
    DataStart(d, rest);
    DataRoundTrip(d, rest);
    AssignStep(a, RenderData(d) + rest, d, rest);
  }

  lemma PrintRoundTrip(a: string, rest: string)
    requires NameOk(a) && rest != [] && rest[0] == ','
    ensures ParseOperation(RenderOp(Print(a)) + rest) == Ok(Print(a), rest)
  {
    assert RenderOp(Print(a)) == a;
    PrintStep(a, rest);
  }

  lemma CallShape(c: ClassId, name: string, rest: string)
    requires FunctionNameOk(name)
    ensures RenderOp(Call(c, name)) + rest == NatDigits(c) + (">" + (name + rest))
  {
  }

  lemma CallRoundTrip(c: ClassId, name: string, rest: string)
    requires FunctionNameOk(name) && Delimited(rest)
    ensures ParseOperation(RenderOp(Call(c, name)) + rest) == Ok(Call(c, name), rest)
  {
    CallShape(c, name, rest);
    CallStep(NatDigits(c), name, rest);
  }

  /** What may follow an operation: a comma, or the `)` that closes a
      condition unless the operation is a bare variable. */
  predicate Follows(op: Operation, rest: string) {
    rest != [] && (rest[0] == ',' || (rest[0] == ')' && !op.Print?))
  }

  /** Every operation the parser can read back is read back as itself. */
  lemma {:induction false} OpRoundTrip(op: Operation, rest: string)
    requires OpOk(op) && Follows(op, rest)
    ensures ParseOperation(RenderOp(op) + rest) == Ok(op, rest)
    decreases OpSize(op), 2
  {
    match op
    case Assign(a, d) => AssignRoundTrip(a, d, rest);
    case Not(a) => NotRoundTrip(a, rest);
    case Print(a) => PrintRoundTrip(a, rest);
    case Call(c, name) => CallRoundTrip(c, name, rest);
    case Conditional(_, _, _) => ConditionalRoundTrip(op, rest);
    case _ => BinaryRoundTrip(op, rest);
  }

  // Shapes of printed text.

  /** Printed text starts with a character that no whitespace skip, operator
      or closing character could take. */
  lemma DataStart(d: Data, rest: string)
    requires DataOk(d)
    ensures RenderData(d) + rest != []
    ensures (RenderData(d) + rest)[0] !in Extenders && (RenderData(d) + rest)[0] !in Whitespace
  {
    assert (RenderData(d) + rest)[0] == RenderData(d)[0];
  }

  lemma OpStart(op: Operation, rest: string)
    requires OpOk(op)
    ensures RenderOp(op) + rest != []
    ensures (RenderOp(op) + rest)[0] !in Whitespace
    ensures (RenderOp(op) + rest)[0] != '}' && (RenderOp(op) + rest)[0] != ';'
  {
    assert (RenderOp(op) + rest)[0] == RenderOp(op)[0];
  }

  lemma ConditionalShape(op: Operation, rest: string)
    requires op.Conditional? && OpOk(op)
    ensures RenderOp(op) + rest
      == "(" + (RenderOp(op.condition) + (")" + ("?" + ("{" + (RenderOps(op.inner) + ("}" + (RenderElse(op.otherwise) + rest)))))))
  {
  }

  lemma ElseShape(ops: seq<Operation>, rest: string)
    requires OpsOk(ops)
    ensures RenderElse(Else(ops)) + rest == ":" + ("{" + (RenderOps(ops) + ("}" + rest)))
  {
  }

  lemma OpsShape(ops: seq<Operation>, q: string)
    requires OpsOk(ops) && ops != []
    ensures RenderOps(ops) + q == RenderOp(ops[0]) + ("," + (RenderOps(ops[1..]) + q))
  {
  }

  // The structural round trips.

  lemma {:induction false} ConditionalRoundTrip(op: Operation, rest: string)
    requires op.Conditional? && OpOk(op) && Follows(op, rest)
    ensures ParseOperation(RenderOp(op) + rest) == Ok(op, rest)
    decreases OpSize(op), 1
  {
    var Conditional(c, inner, otherwise) := op;
    var tail := RenderElse(otherwise) + rest;
    var body := "{" + (RenderOps(inner) + ("}" + tail));
    var x := RenderOp(c) + (")" + ("?" + body));
    ConditionalShape(op, rest);
    OpStart(c, ")" + ("?" + body));
    OpRoundTrip(c, ")" + ("?" + body));
    BlockRoundTrip(inner, ExpectedConditionalBlock, ExpectedConditionalBlockEnd, tail);
    ElseRoundTrip(op, rest);
    ConditionalReads(x, c, body, inner, tail);
  }

  /** After the then-block: nothing, or `:` and the otherwise block. */
  lemma {:induction false} ElseRoundTrip(op: Operation, rest: string)
    requires op.Conditional? && OpOk(op) && Follows(op, rest)
    ensures ParseOtherwise(op.condition, op.inner, RenderElse(op.otherwise) + rest) == Ok(op, rest)
    decreases OpSize(op), 0
  {
    match op.otherwise
    case NoElse =>
      assert RenderElse(op.otherwise) + rest == rest;
      SkipNothing(rest);
      OtherwiseAbsent(op.condition, op.inner, rest);
    case Else(ops) =>
      ElseShape(ops, rest);
      assert OpsSize(ops) < OpSize(op);
      BlockRoundTrip(ops, ExpectedConditionalOtherwiseBlock, ExpectedConditionalOtherwiseBlockEnd, rest);
      OtherwisePresent(op.condition, op.inner, "{" + (RenderOps(ops) + ("}" + rest)), ops, rest);
  }

  lemma {:induction false} BlockRoundTrip(ops: seq<Operation>, openKind: ErrorKind, closeKind: ErrorKind, tail: string)
    requires OpsOk(ops)
    ensures ParseBlock("{" + (RenderOps(ops) + ("}" + tail)), openKind, closeKind) == Ok(ops, tail)
    decreases OpsSize(ops), 4
  {
    OpsRoundTrip(ops, '}', tail);
    BlockStep(RenderOps(ops) + ("}" + tail), ops, tail, openKind, closeKind);
  }

  /** A rendered operation list is read up to the closing character, which
      is left in place. */
  lemma {:induction false} OpsRoundTrip(ops: seq<Operation>, close: char, rest: string)
    requires OpsOk(ops) && (close == '}' || close == ';')
    ensures ParseOpList(RenderOps(ops) + ([close] + rest), close) == Ok(ops, [close] + rest)
    decreases OpsSize(ops), 3
  {
    if ops == [] {
      assert RenderOps(ops) + ([close] + rest) == [close] + rest;
      OpListEnd(close, rest);
    } else {
      HeadTail(ops);
      var x := RenderOps(ops[1..]) + ([close] + rest);
      var s := RenderOp(ops[0]) + ("," + x);
      OpsShape(ops, [close] + rest);
      OpStart(ops[0], "," + x);
      OpRoundTrip(ops[0], "," + x);
      OpsRoundTrip(ops[1..], close, rest);
      OpListStep(s, ops[0], x, close, ops[1..], [close] + rest);
    }
  }

  // ---------------------------------------------------------------------------
  // Functions and classes

  lemma FunctionShape(f: Named, rest: string)
    requires NamedOk(f)
    ensures RenderFunction(f) + rest == f.name + (":" + (RenderOps(f.body.operations) + (";" + rest)))
  {
  }

  lemma FunctionStart(f: Named, rest: string)
    requires NamedOk(f)
    ensures RenderFunction(f) + rest != [] && (RenderFunction(f) + rest)[0] in UpperLetters
  {
    assert (RenderFunction(f) + rest)[0] == f.name[0];
  }

  lemma FunctionsShape(fs: seq<Named>, q: string)
    requires NamedsOk(fs) && fs != []
    ensures RenderFunctions(fs) + q == RenderFunction(fs[0]) + (RenderFunctions(fs[1..]) + q)
  {
  }

  /** After the first function is entered, the others are still new. */
  lemma NewNamesTail(fs: seq<Named>, acc: map<string, Function>)
    requires NamedsOk(fs) && NewNames(fs, acc) && fs != []
    ensures fs[0].name !in acc
    ensures NamedsOk(fs[1..]) && NewNames(fs[1..], acc[fs[0].name := fs[0].body])
  {
    assert fs[0].name == Names(fs)[0];
    forall i | 0 <= i < |fs| - 1
      ensures fs[1..][i].name != fs[0].name
    {
      assert Names(fs)[0] != Names(fs)[i + 1];
    }
  }

  /** A name taken before the first function is still taken after it. */
  lemma TakenTail(fs: seq<Named>, acc: map<string, Function>, n: string)
    requires fs != [] && (n in acc || n in Names(fs))
    ensures n in acc[fs[0].name := fs[0].body] || n in Names(fs[1..])
  {
    assert Names(fs) == [fs[0].name] + Names(fs[1..]);
  }

  /** A function is read back as its name and body. */
  lemma FunctionRoundTrip(f: Named, rest: string)
    requires NamedOk(f)
    ensures ParseFunction(RenderFunction(f) + rest) == Ok((f.name, f.body), rest)
  {
    FunctionShape(f, rest);
    OpsRoundTrip(f.body.operations, ';', rest);
    FunctionStep(f.name, RenderOps(f.body.operations) + (";" + rest), f.body.operations, rest);
  }

  /** Functions with new names, then the class's `;`, are entered one after
      another into the table. */
  lemma {:induction false} FunctionsRoundTrip(fs: seq<Named>, acc: map<string, Function>, rest: string)
    requires NamedsOk(fs) && NewNames(fs, acc)
    ensures ParseFunctions(RenderFunctions(fs) + (";" + rest), acc) == Ok(Enter(acc, fs), rest)
    decreases |fs|
  {
    if fs == [] {
      assert RenderFunctions(fs) + (";" + rest) == ";" + rest;
      FunctionsEnd(acc, rest);
    } else {
      var q := RenderFunctions(fs[1..]) + (";" + rest);
      FunctionsShape(fs, ";" + rest);
      FunctionStart(fs[0], q);
      FunctionRoundTrip(fs[0], q);
      NewNamesTail(fs, acc);
      FunctionsStep(RenderFunction(fs[0]) + q, acc, fs[0].name, fs[0].body, q);
      FunctionsRoundTrip(fs[1..], acc[fs[0].name := fs[0].body], rest);
    }
  }

  /** A function whose name is already in the class, whether read before or
      earlier in the same list, is a fatal error. */
  lemma {:induction false} DuplicateFunctionRejected(fs: seq<Named>, g: Named, acc: map<string, Function>, tail: string)
    requires NamedsOk(fs) && NewNames(fs, acc) && NamedOk(g)
    requires g.name in acc || g.name in Names(fs)
    ensures ParseFunctions(RenderFunctions(fs) + (RenderFunction(g) + tail), acc)
      == Err(Fatal(FunctionExists(g.name)))
    decreases |fs|
  {
    if fs == [] {
      assert RenderFunctions(fs) + (RenderFunction(g) + tail) == RenderFunction(g) + tail;
      FunctionStart(g, tail);
      FunctionRoundTrip(g, tail);
      FunctionsRepeat(RenderFunction(g) + tail, acc, g.name, g.body, tail);
    } else {
      var q := RenderFunctions(fs[1..]) + (RenderFunction(g) + tail);
      FunctionsShape(fs, RenderFunction(g) + tail);
      FunctionStart(fs[0], q);
      FunctionRoundTrip(fs[0], q);
      NewNamesTail(fs, acc);
      TakenTail(fs, acc, g.name);
      FunctionsStep(RenderFunction(fs[0]) + q, acc, fs[0].name, fs[0].body, q);
      DuplicateFunctionRejected(fs[1..], g, acc[fs[0].name := fs[0].body], tail);
    }
  }

  lemma ClassShape(id: ClassId, fs: seq<Named>, rest: string)
    requires ItemOk(ClassItem(id, fs))
    ensures RenderItem(ClassItem(id, fs)) + rest == NatDigits(id) + (":" + (RenderFunctions(fs) + (";" + rest)))
  {
  }

  /** A class is read back as its number and the table of its functions. */
  lemma ClassRoundTrip(id: ClassId, fs: seq<Named>, rest: string)
    requires ItemOk(ClassItem(id, fs))
    ensures ParseClass(RenderItem(ClassItem(id, fs)) + rest) == Ok((id, Class(Enter(map[], fs))), rest)
  {
    ClassShape(id, fs, rest);
    FunctionsRoundTrip(fs, map[], rest);
    ClassStep(NatDigits(id), RenderFunctions(fs) + (";" + rest), Enter(map[], fs), rest);
  }

  // ---------------------------------------------------------------------------
  // Statements and programs

  lemma StatementShape(st: Statement, rest: string)
    requires ItemOk(StatementItem(st))
    ensures RenderItem(StatementItem(st)) + rest == NatDigits(st.classId) + (">" + (st.name + rest))
  {
  }

  /** Printed items start with a digit. */
  lemma ItemsStart(items: seq<Item>, rest: string)
    requires ItemsOk(items) && items != []
    ensures RenderItems(items) + rest != []
    ensures (RenderItems(items) + rest)[0] in DigitChars && (RenderItems(items) + rest)[0] !in UpperLetters
    ensures (RenderItems(items) + rest)[0] !in Whitespace
  {
    assert (RenderItems(items) + rest)[0] == RenderItem(items[0])[0];
  }

  /** A statement is not a class, for a reason that is not important, and is
      read back as itself by the statement parser. */
  lemma StatementRoundTrip(st: Statement, rest: string)
    requires ItemOk(StatementItem(st)) && (rest == [] || rest[0] !in UpperLetters)
    ensures ParseClass(RenderItem(StatementItem(st)) + rest) == Err(Recoverable(ExpectedColon))
    ensures ParseStatement(RenderItem(StatementItem(st)) + rest) == Ok(st, rest)
  {
    StatementShape(st, rest);
    StatementIsNoClass(NatDigits(st.classId), ">" + (st.name + rest));
    StatementStep(NatDigits(st.classId), st.name, rest);
  }

  lemma ItemsShape(items: seq<Item>)
    requires ItemsOk(items) && items != []
    ensures ItemOk(items[0]) && ItemsOk(items[1..])
    ensures RenderItems(items) == RenderItem(items[0]) + RenderItems(items[1..])
  {
  }

  /** A printed program is read to its end, building the program the items
      describe on top of what was read before. */
  lemma {:induction false} ProgramFromRoundTrip(items: seq<Item>, classes: map<ClassId, Class>, statements: seq<Statement>)
    requires ItemsOk(items)
    ensures ParseProgramFrom(RenderItems(items), classes, statements) == Ok(Build(Program(classes, statements), items), [])
    decreases |items|
  {
    if items == [] {
      ProgramEnd(classes, statements);
    } else {
      var rest := RenderItems(items[1..]);
      ItemsShape(items);
      ItemsStart(items, []);
      assert RenderItems(items) + [] == RenderItems(items);
      if items[1..] != [] {
        ItemsStart(items[1..], []);
        assert rest + [] == rest;
      }
      match items[0]
      case ClassItem(id, fs) =>
        ClassRoundTrip(id, fs, rest);
        ProgramClassStep(RenderItems(items), classes, statements, id, Class(Enter(map[], fs)), rest);
        ProgramFromRoundTrip(items[1..], classes[id := Class(Enter(map[], fs))], statements);
      case StatementItem(st) =>
        StatementRoundTrip(st, rest);
        ProgramStatementStep(RenderItems(items), classes, statements, Recoverable(ExpectedColon), st, rest);
        ProgramFromRoundTrip(items[1..], classes, statements + [st]);
    }
  }

  /** The whole program. */
  lemma ProgramRoundTrip(items: seq<Item>)
    requires ItemsOk(items)
    ensures ParseProgram(RenderItems(items)) == Ok(Build(Program(map[], []), items), [])
  {
    ProgramFromRoundTrip(items, map[], []);
  }

  // ---------------------------------------------------------------------------
  // What a parse builds

  /** Every function of a class is in its table under its own name. */
  lemma {:induction false} EnterFinds(acc: map<string, Function>, fs: seq<Named>, i: nat)
    requires Distinct(Names(fs)) && i < |fs|
    ensures fs[i].name in Enter(acc, fs) && Enter(acc, fs)[fs[i].name] == fs[i].body
    decreases |fs|
  {
    var acc' := acc[fs[0].name := fs[0].body];
    assert Distinct(Names(fs[1..])) by {
      forall j, k | 0 <= j < k < |fs| - 1
        ensures Names(fs[1..])[j] != Names(fs[1..])[k]
      {
        assert Names(fs)[j + 1] != Names(fs)[k + 1];
      }
    }
    if i == 0 {
      EnterKeeps(acc', fs[1..], fs[0].name);
    } else {
      EnterFinds(acc', fs[1..], i - 1);
    }
  }

  /** Entering functions leaves every other name as it was. */
  lemma {:induction false} EnterKeeps(acc: map<string, Function>, fs: seq<Named>, n: string)
    requires n in acc && forall i | 0 <= i < |fs| :: fs[i].name != n
    ensures n in Enter(acc, fs) && Enter(acc, fs)[n] == acc[n]
    decreases |fs|
  {
    if fs != [] {
      EnterKeeps(acc[fs[0].name := fs[0].body], fs[1..], n);
    }
  }

  /** The statements among the items, in order. */
  function StatementsOf(items: seq<Item>): (r: seq<Statement>)
    ensures |r| <= |items|
  {
    if items == [] then []
    else if items[0].StatementItem? then [items[0].statement] + StatementsOf(items[1..])
    else StatementsOf(items[1..])
  }

  /** Statements are kept in the order they are written, after those read
      before. */
  lemma {:induction false} BuildStatements(prog: Program, items: seq<Item>)
    ensures Build(prog, items).statements == prog.statements + StatementsOf(items)
    decreases |items|
  {
    if items != [] {
      match items[0]
      case ClassItem(id, fs) =>
        BuildStatements(Program(prog.classes[id := Class(Enter(map[], fs))], prog.statements), items[1..]);
      case StatementItem(st) =>
        BuildStatements(Program(prog.classes, prog.statements + [st]), items[1..]);
        assert prog.statements + [st] + StatementsOf(items[1..]) == prog.statements + StatementsOf(items);
    }
  }

  /** Whether a class with this number is among the items. */
  predicate Defines(items: seq<Item>, id: ClassId) {
    exists j | 0 <= j < |items| :: items[j].ClassItem? && items[j].id == id
  }

  /** A class number no item defines keeps the class it had. */
  lemma {:induction false} BuildKeepsClass(prog: Program, items: seq<Item>, id: ClassId)
    requires id in prog.classes && !Defines(items, id)
    ensures id in Build(prog, items).classes && Build(prog, items).classes[id] == prog.classes[id]
    decreases |items|
  {
    if items != [] {
      assert !Defines(items[1..], id) by {
        forall j | 0 <= j < |items| - 1
          ensures !(items[1..][j].ClassItem? && items[1..][j].id == id)
        {
          assert items[1..][j] == items[j + 1];
        }
      }
      match items[0]
      case ClassItem(k, fs) =>
        assert k != id by { assert items[0].ClassItem? && items[0].id == k; }
        BuildKeepsClass(Program(prog.classes[k := Class(Enter(map[], fs))], prog.statements), items[1..], id);
      case StatementItem(st) =>
        BuildKeepsClass(Program(prog.classes, prog.statements + [st]), items[1..], id);
    }
  }

  /** The last definition of a class number is the one the program keeps. */
  lemma {:induction false} LastClassDefinitionWins(prog: Program, items: seq<Item>, i: nat)
    requires i < |items| && items[i].ClassItem?
    requires !Defines(items[i + 1..], items[i].id)
    ensures items[i].id in Build(prog, items).classes
    ensures Build(prog, items).classes[items[i].id] == Class(Enter(map[], items[i].functions))
    decreases |items|
  {
    match items[0]
    case ClassItem(k, fs) =>
      var next := Program(prog.classes[k := Class(Enter(map[], fs))], prog.statements);
      if i == 0 {
        BuildKeepsClass(next, items[1..], k);
      } else {
        assert items[1..][i - 1] == items[i] && items[1..][i - 1 + 1..] == items[i + 1..];
        LastClassDefinitionWins(next, items[1..], i - 1);
      }
    case StatementItem(st) =>
      assert i != 0;
      assert items[1..][i - 1] == items[i] && items[1..][i - 1 + 1..] == items[i + 1..];
      LastClassDefinitionWins(Program(prog.classes, prog.statements + [st]), items[1..], i - 1);
  }
}

=== FILE: scanner.dfy ===
/** The character-level cursor the parser is built on, with its error values.
    The cursor is the remaining input: every primitive takes the text not yet
    consumed and returns what is left. A rolled-back attempt simply keeps the
    old remainder. The scanner library itself is not part of this model; the
    behaviour assumed of each primitive is stated on it. */
module Scanner {

  const Whitespace: set<char> := {' ', '\t', '\r', '\n'}

  const DigitChars: set<char> := set c: char | '0' <= c <= '9'

  const LowerLetters: set<char> := set c: char | 'a' <= c <= 'z'

  const UpperLetters: set<char> := set c: char | 'A' <= c <= 'Z'

  datatype ErrorKind =
    | UnexpectedEOF
    | ExpectedClassName
    | ExpectedFunctionName
    | ExpectedVariableName
    | ExpectedOperation
    | ExpectedColon
    | ExpectedSemiColon
    | ExpectedParenthesisEnd
    | ExpectedConditionalBlock
    | ExpectedConditionalBlockEnd
    | ExpectedConditionalOtherwiseBlock
    | ExpectedConditionalOtherwiseBlockEnd
    | ExpectedNumber
    | ExpectedCall
    | InvalidAsciiEscape
    | InvalidUnicodeEscape
    | NumberParseError
    | FunctionExists(functionName: string)

  /** A parse failure. An important one aborts the whole parse, even across a
      backtracking point; an unimportant one lets the caller try another
      production. */
  datatype ParseError = ParseError(kind: ErrorKind, important: bool)

  /** The outcome of a production: the value and the remaining input, or an
      error. */
  datatype Parsed<T> = Ok(value: T, rest: string) | Err(error: ParseError)

  /** Running out of input where a literal was to be matched. Assumed to be
      important. */
  const EndOfInput := ParseError(UnexpectedEOF, true)

  function Fatal(kind: ErrorKind): ParseError {
    ParseError(kind, true)
  }

  function Recoverable(kind: ErrorKind): ParseError {
    ParseError(kind, false)
  }

  /** The longest prefix made of characters of `cs`, and the rest. */
  function WhileAny(s: string, cs: set<char>): (r: (string, string))
    ensures r.0 + r.1 == s
    ensures forall i | 0 <= i < |r.0| :: r.0[i] in cs
    ensures r.1 == [] || r.1[0] !in cs
  {
    if s == [] || s[0] !in cs then ([], s)
    else
      var (m, rest) := WhileAny(s[1..], cs);
      assert s == [s[0]] + s[1..];
      ([s[0]] + m, rest)
  }

  function Skip(s: string): (r: string)
    ensures |r| <= |s|
  {
    WhileAny(s, Whitespace).1
  }

  /** Consume `lit` if the input starts with it. Assumed to fail with
      `UnexpectedEOF` when no input is left at all. */
  function Then(s: string, lit: string): (r: Parsed<bool>)
    ensures r.Err? <==> s == []
    ensures r.Err? ==> r.error == EndOfInput
    ensures r.Ok? ==> (r.value <==> lit <= s)
    ensures r.Ok? && r.value ==> r.rest == s[|lit|..]
    ensures r.Ok? && !r.value ==> r.rest == s
  {
    if s == [] then Err(EndOfInput)
    else if lit <= s then Ok(true, s[|lit|..])
    else Ok(false, s)
  }

  /** Like `Then`, without consuming. */
  function Test(s: string, lit: string): (r: Parsed<bool>)
    ensures r.Err? <==> s == []
    ensures r.Ok? ==> r.rest == s && (r.value <==> lit <= s)
  {
    if s == [] then Err(EndOfInput) else Ok(lit <= s, s)
  }

  /** The longest prefix free of the delimiter characters, and the rest. */
  function UntilAny(s: string, delims: set<char>): (r: (string, string))
    ensures r.0 + r.1 == s
    ensures forall i | 0 <= i < |r.0| :: r.0[i] !in delims
    ensures r.1 == [] || r.1[0] in delims
  {
    if s == [] || s[0] in delims then ([], s)
    else
      var (m, rest) := UntilAny(s[1..], delims);
      assert s == [s[0]] + s[1..];
      ([s[0]] + m, rest)
  }

  /** Exactly `n` characters, or `UnexpectedEOF` when fewer remain. */
  function Eat(s: string, n: nat): (r: Parsed<string>)
    ensures r.Err? <==> |s| < n
    ensures r.Ok? ==> r.value + r.rest == s && |r.value| == n
  {
    if |s| < n then Err(EndOfInput) else Ok(s[..n], s[n..])
  }

  /** At most `max` characters up to the first `close`. Assumed to consume the
      `close` when it stopped at one. */
  function UntilCounted(s: string, close: char, max: nat): (r: (string, string))
    ensures |r.0| <= max && r.0 <= s
    ensures forall i | 0 <= i < |r.0| :: r.0[i] != close
    ensures r.1 == (if |r.0| < |s| && s[|r.0|] == close then s[|r.0| + 1..] else s[|r.0|..])
    ensures |r.0| < max && |r.0| < |s| ==> s[|r.0|] == close
  {
    if s == [] then ([], [])
    else if s[0] == close then ([], s[1..])
    else if max == 0 then ([], s)
    else
      var (d, rest) := UntilCounted(s[1..], close, max - 1);
      assert s == [s[0]] + s[1..];
      ([s[0]] + d, rest)
  }

  // ---------------------------------------------------------------------------
  // Numerals

  predicate AllIn(s: string, cs: set<char>) {
    forall i | 0 <= i < |s| :: s[i] in cs
  }

  function DigitValue(c: char): (r: nat)
    requires c in DigitChars
    ensures r < 10
  {
    (c as int) - ('0' as int)
  }

  /** The value of a decimal numeral; the empty numeral is 0. */
  function DigitsValue(ds: string): nat
    requires AllIn(ds, DigitChars)
  {
    if ds == [] then 0 else DigitsValue(ds[..|ds| - 1]) * 10 + DigitValue(ds[|ds| - 1])
  }

  const HexDigitChars: set<char> := set c: char | '0' <= c <= '9' || 'a' <= c <= 'f' || 'A' <= c <= 'F'

  function HexDigitValue(c: char): (r: nat)
    requires c in HexDigitChars
    ensures r < 16
  {
    if c in DigitChars then DigitValue(c)
    else if 'a' <= c <= 'f' then (c as int) - ('a' as int) + 10
    else (c as int) - ('A' as int) + 10
  }

  /** The value of a hexadecimal numeral; the empty numeral is 0. */
  function HexValue(ds: string): nat
    requires AllIn(ds, HexDigitChars)
  {
    if ds == [] then 0 else HexValue(ds[..|ds| - 1]) * 16 + HexDigitValue(ds[|ds| - 1])
  }

  function Pow10(n: nat): (r: nat)
    ensures r >= 1
  {
    if n == 0 then 1 else 10 * Pow10(n - 1)
  }
}

=== FILE: scanner_facts.dfy ===
/** How the scanner primitives behave on input whose shape is known: these
    are the steps every parse of a known text is made of. */
module ScannerFacts {
  import opened Scanner

  /** A maximal run of `cs` followed by a character outside `cs` is read as
      exactly that run. */
  lemma {:induction false} WhileAnyExact(x: string, y: string, cs: set<char>)
    requires AllIn(x, cs) && (y == [] || y[0] !in cs)
    ensures WhileAny(x + y, cs) == (x, y)
    decreases |x|
  {
    if x != [] {
      assert (x + y)[0] == x[0] && (x + y)[1..] == x[1..] + y;
      WhileAnyExact(x[1..], y, cs);
      assert [x[0]] + x[1..] == x;
    } else {
      assert x + y == y;
    }
  }

  /** Nothing is read when the first character is outside `cs`. */
  lemma WhileAnyNone(s: string, cs: set<char>)
    requires s == [] || s[0] !in cs
    ensures WhileAny(s, cs) == ([], s)
  {
  }

  /** Skipping whitespace changes nothing when none comes first. */
  lemma SkipNothing(s: string)
    requires s == [] || s[0] !in Whitespace
    ensures Skip(s) == s
  {
  }

  /** A delimiter straight away ends an empty run. */
  lemma DelimiterFirst(s: string, delims: set<char>)
    requires s != [] && s[0] in delims
    ensures UntilAny(s, delims) == ([], s)
  {
  }

  /** A character that is not a delimiter joins the run that follows it. */
  lemma UntilAnyCons(c: char, s: string, delims: set<char>)
    requires c !in delims
    ensures UntilAny([c] + s, delims) == ([c] + UntilAny(s, delims).0, UntilAny(s, delims).1)
  {
    assert ([c] + s)[1..] == s;
  }

  /** A run free of the delimiters, followed by a delimiter or the end. */
  lemma {:induction false} UntilAnyExact(x: string, y: string, delims: set<char>)
    requires forall i | 0 <= i < |x| :: x[i] !in delims
    requires y == [] || y[0] in delims
    ensures UntilAny(x + y, delims) == (x, y)
    decreases |x|
  {
    if x != [] {
      assert (x + y)[0] == x[0] && (x + y)[1..] == x[1..] + y;
      UntilAnyExact(x[1..], y, delims);
      assert [x[0]] + x[1..] == x;
    } else {
      assert x + y == y;
    }
  }

  /** A literal that is there is consumed. */
  lemma ThenHit(lit: string, x: string)
    requires lit != []
    ensures Then(lit + x, lit) == Ok(true, x)
  {
    assert lit <= lit + x;
    assert (lit + x)[|lit|..] == x;
  }

  /** A literal whose first character differs is not, and nothing moves. */
  lemma ThenMiss(s: string, lit: string)
    requires s != [] && lit != [] && s[0] != lit[0]
    ensures Then(s, lit) == Ok(false, s)
  {
  }

  lemma TestHit(lit: string, x: string)
    requires lit != []
    ensures Test(lit + x, lit) == Ok(true, lit + x)
  {
    assert lit <= lit + x;
  }

  lemma TestMiss(s: string, lit: string)
    requires s != [] && lit != [] && s[0] != lit[0]
    ensures Test(s, lit) == Ok(false, s)
  {
  }

  /** At most `max` characters free of `close`, then `close`, which is
      consumed. */
  lemma UntilCountedExact(x: string, y: string, close: char, max: nat)
    requires |x| <= max && forall i | 0 <= i < |x| :: x[i] != close
    ensures UntilCounted(x + [close] + y, close, max) == (x, y)
  {
    var s := x + [close] + y;
    var r := UntilCounted(s, close, max);
    assert s[|x|] == close;
    assert forall i | 0 <= i < |x| :: s[i] == x[i];
    assert r.0 == x;
    assert s[|x| + 1..] == y;
  }

  /** Appending a digit multiplies by the base and adds the digit. */
  lemma DigitsValueSnoc(ds: string, c: char)
    requires AllIn(ds, DigitChars) && c in DigitChars
    ensures AllIn(ds + [c], DigitChars)
    ensures DigitsValue(ds + [c]) == DigitsValue(ds) * 10 + DigitValue(c)
  {
    assert (ds + [c])[..|ds|] == ds;
  }

  lemma HexValueSnoc(ds: string, c: char)
    requires AllIn(ds, HexDigitChars) && c in HexDigitChars
    ensures AllIn(ds + [c], HexDigitChars)
    ensures HexValue(ds + [c]) == HexValue(ds) * 16 + HexDigitValue(c)
  {
    assert (ds + [c])[..|ds|] == ds;
  }
}

=== FILE: syntax.dfy ===
/** The program representation the parser builds and the interpreter runs:
    numbered classes of named functions, each a list of operations, plus the
    top-level statements. Variable names are plain strings; nothing declares
    them. */
module Syntax {
  import opened Values

  /** Class identifiers are unsigned 32-bit numbers. */
  const ClassIdLimit: nat := 0x1_0000_0000

  type ClassId = n: nat | n < 0x1_0000_0000

  datatype Operation =
    | Add(left: string, right: string)
    | Sub(left: string, right: string)
    | Mul(left: string, right: string)
    | Div(left: string, right: string)
    | Mod(left: string, right: string)
    | Assign(left: string, literal: Data)
    | Equal(left: string, right: string)
    | NotEqual(left: string, right: string)
    | Greater(left: string, right: string)
    | Less(left: string, right: string)
    | GreaterEqual(left: string, right: string)
    | LessEqual(left: string, right: string)
    | And(left: string, right: string)
    | Or(left: string, right: string)
    | Not(left: string)
    | Print(left: string)
    | Call(classId: ClassId, name: string)
    | Conditional(condition: Operation, inner: seq<Operation>, otherwise: Else)

  /** The optional `: { ... }` branch of a conditional. */
  datatype Else = NoElse | Else(ops: seq<Operation>)

  datatype Function = Function(operations: seq<Operation>)

  datatype Class = Class(functions: map<string, Function>)

  /** A top-level `digits > NAME` statement. */
  datatype Statement = Statement(classId: ClassId, name: string)

  datatype Program = Program(classes: map<ClassId, Class>, statements: seq<Statement>)

  predicate IsArithmetic(op: Operation) {
    op.Add? || op.Sub? || op.Mul? || op.Div? || op.Mod?
  }

  predicate IsComparison(op: Operation) {
    op.Equal? || op.NotEqual? || op.Greater? || op.Less? || op.GreaterEqual? || op.LessEqual?
  }

  /** Operations that update their left variable and report its new value. */
  predicate IsValueOp(op: Operation) {
    IsArithmetic(op) || IsComparison(op) || op.Assign? || op.And? || op.Or? || op.Not?
  }

  /** The operations of the branch a conditional takes when its condition
      does not hold: the `otherwise` block, or nothing. */
  function ElseOps(e: Else): seq<Operation> {
    match e
    case NoElse => []
    case Else(ops) => ops
  }

  // Sizes, for termination of the parser-independent recursions over syntax.

  function OpSize(op: Operation): nat {
    match op
    case Conditional(c, inner, otherwise) =>
      1 + OpSize(c) + OpsSize(inner) + ElseSize(otherwise)
    case _ => 1
  }

  function OpsSize(ops: seq<Operation>): nat {
    if ops == [] then 0 else OpSize(ops[0]) + OpsSize(ops[1..])
  }

  function ElseSize(e: Else): nat {
    match e
    case NoElse => 0
    case Else(ops) => OpsSize(ops)
  }

  /** Whether any operation in the list is a call, at any depth. */
  predicate OpsCallFree(ops: seq<Operation>)
    decreases OpsSize(ops), 1
  {
    ops == [] || (OpCallFree(ops[0]) && OpsCallFree(ops[1..]))
  }

  predicate OpCallFree(op: Operation)
    decreases OpSize(op), 0
  {
    match op
    case Call(_, _) => false
    case Conditional(c, inner, otherwise) =>
      OpCallFree(c) && OpsCallFree(inner) && ElseCallFree(otherwise)
    case _ => true
  }

  predicate ElseCallFree(e: Else)
    decreases ElseSize(e), 2
  {
    match e
    case NoElse => true
    case Else(ops) => OpsCallFree(ops)
  }
}

=== FILE: values.dfy ===
/** Runtime values of the language and the operations the interpreter applies to
    them: equality, the partial order, `+=`, and the boolean `and`/`or`/`not`.
    Numbers are modelled as exact reals (no NaN, no rounding). */
module Values {

  /** A literal or a runtime value. `Var` is an unresolved reference that only
      appears inside literals, never inside a variable frame. */
  datatype Data =
    | Var(name: string)
    | Number(num: real)
    | Str(text: string)
    | Bool(flag: bool)
    | None

  /** What a variable frame can hold: any datum except an unresolved reference. */
  type Value = d: Data | !d.Var? witness None

  datatype Ordering = Lt | Eq | Gt

  /** The answer of a partial comparison: incomparable, or an ordering. */
  datatype Comparison = Incomparable | Ordered(ord: Ordering)

  function Flip(o: Ordering): Ordering {
    match o
    case Lt => Gt
    case Eq => Eq
    case Gt => Lt
  }

  function FlipComparison(c: Comparison): Comparison {
    match c
    case Incomparable => Incomparable
    case Ordered(o) => Ordered(Flip(o))
  }

  /** Two data have the same constructor. */
  predicate SameKind(a: Data, b: Data) {
    (a.Var? && b.Var?) || (a.Number? && b.Number?) || (a.Str? && b.Str?)
    || (a.Bool? && b.Bool?) || (a.None? && b.None?)
  }

  /** The language's `==`: equal payloads of the same kind; `None` equals
      `None`; a `Var` equals nothing, not even itself. */
  predicate Equals(a: Data, b: Data) {
    match (a, b)
    case (Bool(x), Bool(y)) => x == y
    case (Str(x), Str(y)) => x == y
    case (Number(x), Number(y)) => x == y
    case (None, None) => true
    case _ => false
  }

  /** Lexicographic order on strings, by code point (the order of their UTF-8
      bytes). */
  function LexCompare(x: string, y: string): Ordering {
    if x == [] && y == [] then Eq
    else if x == [] then Lt
    else if y == [] then Gt
    else if x[0] < y[0] then Lt
    else if y[0] < x[0] then Gt
    else LexCompare(x[1..], y[1..])
  }

  function CompareBools(x: bool, y: bool): Ordering {
    if x == y then Eq else if !x then Lt else Gt
  }

  function CompareReals(x: real, y: real): Ordering {
    if x < y then Lt else if y < x then Gt else Eq
  }

  /** The language's partial order: booleans, strings and numbers compare
      within their own kind, `None` equals `None`, all else is incomparable. */
  function PartialCmp(a: Data, b: Data): Comparison {
    match (a, b)
    case (Bool(x), Bool(y)) => Ordered(CompareBools(x, y))
    case (Str(x), Str(y)) => Ordered(LexCompare(x, y))
    case (Number(x), Number(y)) => Ordered(CompareReals(x, y))
    case (None, None) => Ordered(Eq)
    case _ => Incomparable
  }

  /** `left += right`: numbers add, strings concatenate, and every other pair
      of kinds leaves the left operand as it was. */
  function AddAssign(left: Data, right: Data): (r: Data)
    ensures SameKind(r, left)
    ensures r != left ==> (left.Number? && right.Number?) || (left.Str? && right.Str?)
    ensures left.Number? && right.Number? ==> r.num - left.num == right.num
    ensures left.Str? && right.Str? ==> left.text <= r.text && r.text[|left.text|..] == right.text
  {
    match (left, right)
    case (Number(x), Number(y)) => Number(x + y)
    case (Str(x), Str(y)) => Str(x + y)
    case _ => left
  }

  /** `left.and(right)`: only a boolean left operand combined with a boolean
      right operand changes. */
  function LogicalAnd(left: Data, right: Data): (r: Data)
    ensures SameKind(r, left)
    ensures !(left.Bool? && right.Bool?) ==> r == left
    ensures left.Bool? && right.Bool? ==> (r.flag <==> left.flag && right.flag)
  {
    match (left, right)
    case (Bool(x), Bool(y)) => Bool(x && y)
    case _ => left
  }

  /** `left.or(right)`: only a boolean left operand combined with a boolean
      right operand changes. */
  function LogicalOr(left: Data, right: Data): (r: Data)
    ensures SameKind(r, left)
    ensures !(left.Bool? && right.Bool?) ==> r == left
    ensures left.Bool? && right.Bool? ==> (r.flag <==> left.flag || right.flag)
  {
    match (left, right)
    case (Bool(x), Bool(y)) => Bool(x || y)
    case _ => left
  }

  /** `value.not()`: flips a boolean, leaves every other kind alone. */
  function LogicalNot(d: Data): (r: Data)
    ensures SameKind(r, d)
    ensures !d.Bool? ==> r == d
    ensures d.Bool? ==> r.flag != d.flag
  {
    match d
    case Bool(x) => Bool(!x)
    case _ => d
  }

  // ---------------------------------------------------------------------------
  // Properties of the string order

  lemma {:induction false} LexCompareFlip(x: string, y: string)
    ensures LexCompare(y, x) == Flip(LexCompare(x, y))
    decreases |x|
  {
    if x != [] && y != [] && x[0] == y[0] {
      LexCompareFlip(x[1..], y[1..]);
    }
  }

  lemma {:induction false} LexCompareEqIffSame(x: string, y: string)
    ensures LexCompare(x, y) == Eq <==> x == y
    decreases |x|
  {
    if x != [] && y != [] && x[0] == y[0] {
      LexCompareEqIffSame(x[1..], y[1..]);
      if x[1..] == y[1..] {
        assert x == [x[0]] + x[1..] && y == [y[0]] + y[1..];
      }
    }
  }

  lemma {:induction false} LexCompareTransitive(x: string, y: string, z: string)
    requires LexCompare(x, y) == Lt && LexCompare(y, z) == Lt
    ensures LexCompare(x, z) == Lt
    decreases |x|
  {
    if x != [] && y != [] && z != [] && x[0] == y[0] && y[0] == z[0] {
      LexCompareTransitive(x[1..], y[1..], z[1..]);
    }
  }

  /** A proper prefix sorts first. */
  lemma {:induction false} LexComparePrefix(x: string, y: string)
    requires x < y
    ensures LexCompare(x, y) == Lt
    decreases |x|
  {
    if x != [] {
      assert x[0] == y[0];
      assert x[1..] < y[1..];
      LexComparePrefix(x[1..], y[1..]);
    }
  }

  // ---------------------------------------------------------------------------
  // Properties of equality and of the partial order

  /** Equality is identity, except that a reference equals nothing. */
  lemma EqualsIsIdentityOffVars(a: Data, b: Data)
    ensures Equals(a, b) <==> a == b && !a.Var?
  {
    if a.Str? && b.Str? {
      assert a.text == b.text <==> a == b;
    }
  }

  /** `==` and the partial order agree: two data are equal exactly when the
      order calls them `Eq`. */
  lemma EqualsAgreesWithOrder(a: Data, b: Data)
    ensures Equals(a, b) <==> PartialCmp(a, b) == Ordered(Eq)
  {
    if a.Str? && b.Str? {
      LexCompareEqIffSame(a.text, b.text);
    }
  }

  /** Swapping the operands flips the answer. */
  lemma PartialCmpAntisymmetric(a: Data, b: Data)
    ensures PartialCmp(b, a) == FlipComparison(PartialCmp(a, b))
  {
    if a.Str? && b.Str? {
      LexCompareFlip(a.text, b.text);
    }
  }

  /** The strict part of the order is transitive. */
  lemma PartialCmpTransitive(a: Data, b: Data, c: Data)
    requires PartialCmp(a, b) == Ordered(Lt) && PartialCmp(b, c) == Ordered(Lt)
    ensures PartialCmp(a, c) == Ordered(Lt)
  {
    if a.Str? && b.Str? && c.Str? {
      LexCompareTransitive(a.text, b.text, c.text);
    }
  }

  /** Every value (not a reference) equals itself and compares `Eq` to itself. */
  lemma ValueComparesEqualToItself(v: Value)
    ensures Equals(v, v)
    ensures PartialCmp(v, v) == Ordered(Eq)
  {
    EqualsAgreesWithOrder(v, v);
  }

  /** A reference is incomparable even with itself. */
  lemma VarIsIncomparable(d: Data)
    requires d.Var?
    ensures !Equals(d, d) && PartialCmp(d, d) == Incomparable
  {
  }

  // ---------------------------------------------------------------------------
  // Properties of the updating operations

  /** Adding the empty string or zero changes nothing, whatever the left side. */
  lemma AddAssignIdentities(d: Data)
    ensures AddAssign(d, Str("")) == d
    ensures AddAssign(d, Number(0.0)) == d
  {
    if d.Str? {
      assert d.text + "" == d.text;
    }
  }

  /** `not` undoes itself. */
  lemma NotInvolution(d: Data)
    ensures LogicalNot(LogicalNot(d)) == d
  {
  }

  /** De Morgan's law holds for every pair of data, including the no-op cases. */
  lemma DeMorgan(a: Data, b: Data)
    ensures LogicalNot(LogicalAnd(a, b)) == LogicalOr(LogicalNot(a), LogicalNot(b))
    ensures LogicalNot(LogicalOr(a, b)) == LogicalAnd(LogicalNot(a), LogicalNot(b))
  {
  }
}
